=== FILE: README.md ===
# freelib-djatoka in Dafny

freelib-djatoka puts an IIIF Image API 1.1 front end on the adore-djatoka
JPEG 2000 server. A servlet filter reads IIIF request paths, and the image
servlet turns them into OpenURL (ANSI/NISO Z39.88-2004) queries for
djatoka's resolver. An identifier resolver finds or fetches the source
image, and a migrator converts it. The OpenURL service extracts the
requested region and keeps a tile cache. Rendered tiles are also filed in a
Pairtree cache by the servlet.

This project models the deterministic core of that path as pure Dafny
functions over strings, integers, sequences and maps. Every collaborator
the core cannot see is a function-typed parameter, with no assumed
behaviour beyond what a contract states. These include regular-expression
matching, the JDK URL codec, SHA-1, the file system, the codec, float
formatting and the servlet container.

One module per source class:

| module | file | models |
|---|---|---|
| `Wrappers` | wrappers.dfy | `Option` and `Result` |
| `JavaString` | java_string.dfy | the `String` and `Integer` behaviour the code relies on: `split` dropping trailing empties, `indexOf`, `lastIndexOf`, `replace`, `trim`, `parseInt` limited to 32 bits, `Integer.toString` |
| `IIIFError` | iiif_exception.dfy | `IIIFException` |
| `UrlEncode` | url_encode.dfy | `URLEncode.pathSafetyEncode` / `pathSafetyDecode` |
| `RegionParam` | region.dfy | `iiif.Region` |
| `SizeParam` | size.dfy | `iiif.Size` |
| `CacheUtils` | cache_utils.dfy | `util.CacheUtils`, including the tile planner |
| `Resolver` | identifier_resolver.dfy | `view.IdentifierResolver` |
| `ImageRequestParse` | image_request.dfy | the `iiif.ImageRequest` constructor |
| `InfoRequestParse` | info_request.dfy | `iiif.InfoRequest` |
| `ServletFilter` | servlet_filter.dfy | `iiif.IIIFServletFilter` |
| `Info` | image_info.dfy | `view.ImageInfo` |
| `Access` | access_manager.dfy | `gov.lanl.util.AccessManager` |
| `Migrator` | migrator.dfy | `DjatokaImageMigrator` |
| `OpenUrl` | openurl_service.dfy | `OpenURLJP2KService.resolve` and its helpers |
| `View` | image_servlet.dfy | `view.ImageServlet` |

Java's `null` is `None`. A thrown exception is the `Err` of a `Result`. A
Java `int` is an `int` constrained by `IsInt32` wherever the code depends
on the range. A float cast `(int) f` is written out as `View.IntCast`.

## Model

| member | source | states |
|---|---|---|
| IIIFError.NoMessage | src/main/java/info/freelibrary/djatoka/iiif/IIIFException.java:21-34 | the no-argument exception carries code 400 and neither message |
| IIIFError.WithMessage | src/main/java/info/freelibrary/djatoka/iiif/IIIFException.java:42-44 | a message-only exception carries code 400 and that message, with no HTTP message |
| IIIFError.WithCode | src/main/java/info/freelibrary/djatoka/iiif/IIIFException.java:52-68 | the code-taking constructors store exactly that code and message |
| IIIFError.WithHttpMessage | src/main/java/info/freelibrary/djatoka/iiif/IIIFException.java:79-83 | the three-argument constructor stores code, HTTP message and message |
| IIIFError.PairOfConstructors | src/main/java/info/freelibrary/djatoka/iiif/IIIFException.java:32-122 | `getPair` for each constructor: code 400 unless one was passed; the HTTP message falls back to the message except in the three-argument form, where it differs from the message exactly when the two texts differ |
| UrlEncode.EncodeSpec | src/main/java/info/freelibrary/djatoka/util/URLEncode.java:50-54 | an independent one-pass reference encoding; keeps the first character and grows text by at most 5/3 |
| UrlEncode.DecodeSpec | src/main/java/info/freelibrary/djatoka/util/URLEncode.java:62-66 | the one-pass reference decoding keeps the first character |
| UrlEncode.EncodeIsSpec | src/main/java/info/freelibrary/djatoka/util/URLEncode.java:50-54 | the two chained `replace` passes equal the one-pass encoding on every input |
| UrlEncode.DecodeIsSpec | src/main/java/info/freelibrary/djatoka/util/URLEncode.java:62-66 | the two chained `replace` passes equal the one-pass decoding on every input |
| UrlEncode.EncodeSpecClean | src/main/java/info/freelibrary/djatoka/util/URLEncode.java:50-54 | no "%2F" or "%5C" occurs at any position of the encoding |
| UrlEncode.DecodeEncodeSpec | src/main/java/info/freelibrary/djatoka/util/URLEncode.java:50-66 | the reference decoding undoes the reference encoding for text without "%25" |
| UrlEncode.DecodeEncode | src/main/java/info/freelibrary/djatoka/util/URLEncode.java:50-66 | `pathSafetyDecode(pathSafetyEncode(s)) == s` whenever `s` has no "%25" |
| UrlEncode.EncodedIsPathSafe | src/main/java/info/freelibrary/djatoka/util/URLEncode.java:50-54 | after `pathSafetyEncode` neither escaped slash nor escaped backslash remains |
| UrlEncode.EncodeFixed | src/main/java/info/freelibrary/djatoka/util/URLEncode.java:50-54 | text without "%2F" and "%5C" is a fixed point of the encoding |
| UrlEncode.DecodeFixed | src/main/java/info/freelibrary/djatoka/util/URLEncode.java:62-66 | text without "%252F" and "%255C" is a fixed point of the decoding |
| RegionParam.CoordText | src/main/java/info/freelibrary/djatoka/iiif/Region.java:38-43 | the coordinate text is what follows a "pct:" prefix, or the whole text |
| RegionParam.Parse | src/main/java/info/freelibrary/djatoka/iiif/Region.java:31-102 | "full" in any case gives the full region; otherwise success exactly when the coordinate text splits into four ints forming a valid box, the region then holding those four values and the percent flag; every failure is a 400 |
| RegionParam.ParseBox | src/main/java/info/freelibrary/djatoka/iiif/Region.java:45-100 | four pieces are accepted exactly when they read as a valid box, in x, y, width, height order |
| RegionParam.ParseOffset | src/main/java/info/freelibrary/djatoka/iiif/Region.java:52-70 | an x or y offset is accepted exactly when it is a non-negative int |
| RegionParam.ParseExtent | src/main/java/info/freelibrary/djatoka/iiif/Region.java:72-100 | a width or height is accepted exactly when it is a positive int, and at most 100 for a percent region |
| RegionParam.Normalize | src/main/java/info/freelibrary/djatoka/iiif/Region.java:112-129 | the result is never percent; a full region becomes the whole image; the full flag holds exactly when the box is the whole image; a pixel box keeps its four values |
| RegionParam.BoxText | src/main/java/info/freelibrary/djatoka/iiif/Region.java:214-218 | the box text is the four ints joined by ',' |
| RegionParam.ParseFull | src/main/java/info/freelibrary/djatoka/iiif/Region.java:32-33 | every letter-case variant of "full" parses to the full region |
| RegionParam.ParseNeedsFourParts | src/main/java/info/freelibrary/djatoka/iiif/Region.java:45-50 | text other than "full" whose coordinate text does not split into four parts is rejected |
| RegionParam.ParsedBoxValid | src/main/java/info/freelibrary/djatoka/iiif/Region.java:52-100 | every parsed non-full region has non-negative offsets, positive extents, and percent extents of at most 100 |
| RegionParam.PercentOffsetsUncapped | src/main/java/info/freelibrary/djatoka/iiif/Region.java:52-70 | "pct:150,150,10,10" is accepted: percent offsets have no upper bound |
| RegionParam.PrintedIsNotFull | src/main/java/info/freelibrary/djatoka/iiif/Region.java:208-222 | the printed form of a valid box is never "full", starts with "pct:" exactly for percent regions, and carries the box text after it |
| RegionParam.BoxTextReads | src/main/java/info/freelibrary/djatoka/iiif/Region.java:214-218 | the box text of a valid box splits back into its four ints |
| RegionParam.ParsePrinted | src/main/java/info/freelibrary/djatoka/iiif/Region.java:31-102 | every valid non-full region is what its `toString` parses to |
| RegionParam.ToStringRoundTrip | src/main/java/info/freelibrary/djatoka/iiif/Region.java:208-222 | re-parsing `toString` of any parsed region gives the same region |
| RegionParam.NormalizeIdempotent | src/main/java/info/freelibrary/djatoka/iiif/Region.java:112-129 | normalising twice against the same dimensions equals normalising once |
| RegionParam.NormalizePercentBounds | src/main/java/info/freelibrary/djatoka/iiif/Region.java:118-123 | a valid percent region normalises to non-negative offsets and extents within the image, given the laws of the percent scaling |
| RegionParam.PercentWholeIsFull | src/main/java/info/freelibrary/djatoka/iiif/Region.java:118-128 | "pct:0,0,100,100" normalises to the same region as "full" |
| RegionParam.NormalizeDoesNotClip | src/main/java/info/freelibrary/djatoka/iiif/Region.java:112-129 | a pixel box larger than the image keeps its size: "5,5,100,100" on a 10 by 10 image stays 100 wide |
| RegionParam.DjatokaFields | src/main/java/info/freelibrary/djatoka/iiif/Region.java:233-266 | the Djatoka text splits into four ints: row and column (0,0 when full), then height and width, taken from the scale only for a non-full scale at level 1 or more |
| RegionParam.DjatokaShape | src/main/java/info/freelibrary/djatoka/iiif/Region.java:236-253 | a full region below level 1 is sent as ""; a percent region has "pct:" right after its row and column |
| SizeParam.Parse | src/main/java/info/freelibrary/djatoka/iiif/Size.java:29-111 | every parsed size has a consistent shape (no dimensions exactly for full and percent sizes, percent within [0, 100], values never below -1, aspect dropped only for exact two-dimension sizes); ",h" and "w," are decided exactly as `HeightOnly` and `WidthOnly` decide their number; every failure is a 400 |
| SizeParam.ParsePercent | src/main/java/info/freelibrary/djatoka/iiif/Size.java:33-47 | the "pct:" body is accepted exactly for an int in [0, 100], giving an aspect-preserving percent size |
| SizeParam.ParseScaled | src/main/java/info/freelibrary/djatoka/iiif/Size.java:48-107 | a lone "," is rejected; ",h" is accepted exactly when h is a non-negative int, giving a height-only size; "w," likewise gives a width-only size; an accepted size is neither full nor percent and has a consistent shape |
| SizeParam.HeightOnly | src/main/java/info/freelibrary/djatoka/iiif/Size.java:53-62 | accepted exactly for a non-negative int, giving the aspect-preserving size with that height and no width; otherwise a 400 |
| SizeParam.WidthOnly | src/main/java/info/freelibrary/djatoka/iiif/Size.java:63-74 | accepted exactly for a non-negative int, giving the aspect-preserving size with that width and no height; otherwise a 400 |
| SizeParam.ParseDimensions | src/main/java/info/freelibrary/djatoka/iiif/Size.java:75-107 | "w,h" is accepted exactly when it splits into two non-negative ints, read as width then height |
| SizeParam.Normalize | src/main/java/info/freelibrary/djatoka/iiif/Size.java:121-139 | the result is neither full nor percent; an unset dimension stays unset; an explicit size keeps its values; a full size takes the region's dimensions for those it has |
| SizeParam.SetExplicit | src/main/java/info/freelibrary/djatoka/iiif/Size.java:148-154 | both dimensions are set and the aspect, full and percent flags cleared |
| SizeParam.ParseFull | src/main/java/info/freelibrary/djatoka/iiif/Size.java:30-32 | "full" in any case is the aspect-preserving full size with both dimensions -1 |
| SizeParam.ParsePercentForm | src/main/java/info/freelibrary/djatoka/iiif/Size.java:33-47 | "pct:n" is accepted exactly for an int n in [0, 100] |
| SizeParam.ParseHeightOnly | src/main/java/info/freelibrary/djatoka/iiif/Size.java:53-62 | ",h" is a height-only, aspect-preserving size, and a negative height is rejected with its message |
| SizeParam.ParseWidthOnly | src/main/java/info/freelibrary/djatoka/iiif/Size.java:63-74 | "w," is a width-only, aspect-preserving size, and a negative width is rejected with its message |
| SizeParam.ParseNonKeyword | src/main/java/info/freelibrary/djatoka/iiif/Size.java:29-50 | text not starting like "full" or "pct:" goes to the comma branch |
| SizeParam.ScaledInner | src/main/java/info/freelibrary/djatoka/iiif/Size.java:75-80 | a comma that is neither first nor last selects the "w,h" / "!w,h" branch |
| SizeParam.ParseDimensionsOfPair | src/main/java/info/freelibrary/djatoka/iiif/Size.java:75-107 | two printed non-negative ints are read back as width and height |
| SizeParam.ParseOfBody | src/main/java/info/freelibrary/djatoka/iiif/Size.java:48-107 | digit-framed text with a comma, optionally after '!', reaches the dimensions branch with best-fit set by the '!' |
| SizeParam.ParsePair | src/main/java/info/freelibrary/djatoka/iiif/Size.java:75-107 | "w,h" gives an exact size and "!w,h" a best-fit size with those dimensions |
| SizeParam.ParseRejects | src/main/java/info/freelibrary/djatoka/iiif/Size.java:48-110 | a lone "," and comma-free text other than the keyword forms are rejected |
| SizeParam.NormalizeParsed | src/main/java/info/freelibrary/djatoka/iiif/Size.java:121-139 | normalising any parsed size only clears its full and percent flags |
| SizeParam.SetExplicitText | src/main/java/info/freelibrary/djatoka/iiif/Size.java:148-154 | after `setExplicit` both `toString` and `toDjatokaString` print "w,h" |
| SizeParam.ToStringRoundTrip | src/main/java/info/freelibrary/djatoka/iiif/Size.java:234-257 | full, exact and best-fit sizes survive printing and re-parsing |
| SizeParam.PairRoundTrip | src/main/java/info/freelibrary/djatoka/iiif/Size.java:234-257 | a parsed size with both dimensions, exact or best-fit, parses back from its printed form |
| SizeParam.WidthOnlyDoesNotRoundTrip | src/main/java/info/freelibrary/djatoka/iiif/Size.java:246-250 | "5," prints as "5,0", which parses as the exact size 5 by 0 |
| SizeParam.DjatokaFields | src/main/java/info/freelibrary/djatoka/iiif/Size.java:264-276 | an explicit size is sent as two ints, -1 passed through |
| CacheUtils.FilePart | src/main/java/info/freelibrary/djatoka/util/CacheUtils.java:26-27 | a null or empty part becomes "full"; otherwise the same length with every ',' turned into '-' and no ',' left |
| CacheUtils.FileNameFields | src/main/java/info/freelibrary/djatoka/util/CacheUtils.java:23-55 | a file name splits on '_' back into "image", level, region part, scale part and rotation with ".jpg" |
| CacheUtils.FileNameEmptyIsFull | src/main/java/info/freelibrary/djatoka/util/CacheUtils.java:26-27 | an empty region and scale name the same file as missing ones |
| CacheUtils.GetScale | src/main/java/info/freelibrary/djatoka/util/CacheUtils.java:74-76 | the scale is a non-negative int, 2^level for levels 0 to 30 |
| CacheUtils.GetTileSize | src/main/java/info/freelibrary/djatoka/util/CacheUtils.java:168-170 | the tile side is an int: 2^(maxLevel - level) * 256 while that fits, 0 above maxLevel |
| CacheUtils.GetRegion | src/main/java/info/freelibrary/djatoka/util/CacheUtils.java:132-162 | the region is "full" exactly at levels up to 8 |
| CacheUtils.TileSizeRange | src/main/java/info/freelibrary/djatoka/util/CacheUtils.java:168-170 | above level 8 the tile side lies between 256 and 2^30 |
| CacheUtils.ScaleTimesTile | src/main/java/info/freelibrary/djatoka/util/CacheUtils.java:74-76 | scale times tile side is 256 * 2^maxLevel at every level |
| CacheUtils.TileCountBound | src/main/java/info/freelibrary/djatoka/util/CacheUtils.java:101-106 | a tile start lies past the extent exactly from `extent / t + 1` on |
| CacheUtils.Column | src/main/java/info/freelibrary/djatoka/util/CacheUtils.java:106-113 | a column holds the tiles of rows `from` up to but excluding `n`, in row order |
| CacheUtils.RowStep | src/main/java/info/freelibrary/djatoka/util/CacheUtils.java:106-113 | one inner iteration emits the current tile and advances the row |
| CacheUtils.RowStop | src/main/java/info/freelibrary/djatoka/util/CacheUtils.java:106-111 | the inner loop stops at the tile count |
| CacheUtils.RowLoopFull | src/main/java/info/freelibrary/djatoka/util/CacheUtils.java:106-113 | from a row inside the image the inner loop emits every remaining row of the column and leaves the counter at the tile count |
| CacheUtils.RowLoopSpent | src/main/java/info/freelibrary/djatoka/util/CacheUtils.java:101-111 | once the counter has passed the last row, a column breaks on its first iteration and emits nothing |
| CacheUtils.LaterColumnsEmpty | src/main/java/info/freelibrary/djatoka/util/CacheUtils.java:101-116 | after the first column, no later column adds a query |
| CacheUtils.LevelTiles | src/main/java/info/freelibrary/djatoka/util/CacheUtils.java:97-117 | a level above 8 contributes exactly the first column of tiles |
| CacheUtils.LevelStep | src/main/java/info/freelibrary/djatoka/util/CacheUtils.java:89-117 | one level of the outer loop appends that level's plan |
| CacheUtils.LevelLoopPlan | src/main/java/info/freelibrary/djatoka/util/CacheUtils.java:89-118 | the level loop appends the plans of the remaining levels in order |
| CacheUtils.CachingQueriesPlan | src/main/java/info/freelibrary/djatoka/util/CacheUtils.java:85-121 | `getCachingQueries` lists levels 0 to maxLevel in order: the whole image up to level 8, then the first tile column only |
| CacheUtils.ShallowPlan | src/main/java/info/freelibrary/djatoka/util/CacheUtils.java:89-95 | with maxLevel at most 8 the plan is exactly one whole-image query per level |
| CacheUtils.WholeText | src/main/java/info/freelibrary/djatoka/util/CacheUtils.java:90-93 | a whole-image query is "/all/" followed by 2^level |
| CacheUtils.GridColumns | src/main/java/info/freelibrary/djatoka/util/CacheUtils.java:101-117 | with the row counter reset per column, every column inside the image is emitted with all its rows |
| CacheUtils.GridContains | src/main/java/info/freelibrary/djatoka/util/CacheUtils.java:101-117 | every tile within the column and row bounds is in the grid |
| CacheUtils.PlanFirstColumn | src/main/java/info/freelibrary/djatoka/util/CacheUtils.java:101-116 | every tile of the plan as written is in column 0 |
| CacheUtils.LevelPlanFirstColumn | src/main/java/info/freelibrary/djatoka/util/CacheUtils.java:101-116 | every tile one level plans is in column 0 |
| CacheUtils.CachingQueriesFirstColumnOnly | src/main/java/info/freelibrary/djatoka/util/CacheUtils.java:101-111 | the planner as written never asks for a tile outside column 0, whatever the width |
| CacheUtils.RowLoopExtends | src/main/java/info/freelibrary/djatoka/util/CacheUtils.java:106-113 | the inner loop only appends |
| CacheUtils.GridColumnLoopExtends | src/main/java/info/freelibrary/djatoka/util/CacheUtils.java:101-117 | the corrected column loop only appends |
| CacheUtils.GridLevelLoopExtends | src/main/java/info/freelibrary/djatoka/util/CacheUtils.java:89-118 | the corrected level loop only appends |
| CacheUtils.GridLevelLoopReaches | src/main/java/info/freelibrary/djatoka/util/CacheUtils.java:89-118 | a tile of any level at or after the start level is reached by the corrected loop |
| CacheUtils.GridCoversImage | src/main/java/info/freelibrary/djatoka/util/CacheUtils.java:85-121 | the corrected planner asks, at every level above 8, for every tile whose starts lie inside the image |
| CacheUtils.MissesSecondColumn | src/main/java/info/freelibrary/djatoka/util/CacheUtils.java:101-111 | once the image is a tile wide, tile (1, 0) of a level above 8 is asked for by the corrected planner and never by the planner as written |
| CacheUtils.TileBox | src/main/java/info/freelibrary/djatoka/util/CacheUtils.java:142-158 | a tile region is a pixel box, not full and not percent |
| CacheUtils.RegionFields | src/main/java/info/freelibrary/djatoka/util/CacheUtils.java:142-158 | a tile region's text is what `Region.toString` prints for the tile's box |
| CacheUtils.TileBoxValid | src/main/java/info/freelibrary/djatoka/util/CacheUtils.java:142-158 | a tile region whose starts are ints is a box the region parser accepts |
| CacheUtils.TileRegionParses | src/main/java/info/freelibrary/djatoka/util/CacheUtils.java:132-162 | a planned tile region parses under the IIIF region syntax to its box, the row start landing in the x field |
| Resolver.FirstMatch | src/main/java/info/freelibrary/djatoka/view/IdentifierResolver.java:61-79 | no result exactly when no pattern accepts; otherwise the encoded group 1 of the first accepting pattern |
| Resolver.ExtractId | src/main/java/info/freelibrary/djatoka/view/IdentifierResolver.java:54-80 | a decoder failure escapes as an unchecked exception carrying its message; otherwise, on the text after path-safety decoding and then URL decoding, no identifier exactly when no pattern accepts, else the encoded group 1 of the first accepting pattern |
| Resolver.ExtractSeesDecodedText | src/main/java/info/freelibrary/djatoka/view/IdentifierResolver.java:54-58 | two requests that decode alike yield the same identifier |
| Resolver.FirstMatchIsFirst | src/main/java/info/freelibrary/djatoka/view/IdentifierResolver.java:61-71 | the first accepting pattern decides, whatever later patterns say |
| Resolver.RemoteImage | src/main/java/info/freelibrary/djatoka/view/IdentifierResolver.java:233-280 | an id both in process and memoised is served from the memo; otherwise a non-empty conversion is returned and memoised; a failure leaves the state alone; the processing list never changes |
| Resolver.EmptyFileNotMemoised | src/main/java/info/freelibrary/djatoka/view/IdentifierResolver.java:259-273 | a zero-length conversion is a failure and is not memoised |
| Resolver.TryHosts | src/main/java/info/freelibrary/djatoka/view/IdentifierResolver.java:96-110 | no record exactly when every host fails; otherwise the fetch of the first host that succeeds |
| Resolver.ImageRecordForId | src/main/java/info/freelibrary/djatoka/view/IdentifierResolver.java:88-111 | a local copy wins; with no hosts there is no record; with hosts, an identifier that fails to decode escapes at the first host; otherwise the hosts are tried with the decoded identifier; a failure leaves the memo alone |
| Resolver.NullRecord | src/main/java/info/freelibrary/djatoka/view/IdentifierResolver.java:88-111 | a null identifier gets the Pairtree answer when that is a record or a failure; otherwise no record without hosts and a null-pointer exception with hosts |
| Resolver.GetImageRecord | src/main/java/info/freelibrary/djatoka/view/IdentifierResolver.java:120-127 | a decoder failure escapes with the memo unchanged; no lookup at all when no identifier is extracted; otherwise the record lookup for the extracted identifier |
| Resolver.GetStatus | src/main/java/info/freelibrary/djatoka/view/IdentifierResolver.java:161-171 | the referent is read with `extractID`, whose failure escapes; a null identifier is looked up as null and is never 202; otherwise 200 exactly when a record resolves, 202 exactly when none does and the id is in process, else 404; the memo is the one the lookup leaves, and the processing list never changes |
| Resolver.LocalFirst | src/main/java/info/freelibrary/djatoka/view/IdentifierResolver.java:88-93 | for a referent whose identifier has a local copy, no host is tried, the memo is left alone and the status is 200 |
| Resolver.MemoOnlyWhileProcessing | src/main/java/info/freelibrary/djatoka/view/IdentifierResolver.java:241-263 | a memoised image is reused only while its id is in process; otherwise success depends on a fresh non-empty conversion |
| Resolver.FoundIsMemoised | src/main/java/info/freelibrary/djatoka/view/IdentifierResolver.java:88-111 | a record found remotely is in the memo afterwards |
| Resolver.MalformedRequestThrows | src/main/java/info/freelibrary/djatoka/view/IdentifierResolver.java:54-58 | a request the URL decoder rejects makes both `getImageRecord` and `getStatus` fail with that exception, memo unchanged |
| ImageRequestParse.PrefixEnd | src/main/java/info/freelibrary/djatoka/iiif/ImageRequest.java:62-64 | one past the end of the prefix's occurrence, or the prefix's length when `indexOf` gives -1 |
| ImageRequestParse.AfterPrefix | src/main/java/info/freelibrary/djatoka/iiif/ImageRequest.java:62-67 | without a prefix only the first character is dropped; with one, the path from `PrefixEnd` on; a start past the end is an unchecked exception |
| ImageRequestParse.SplitExtension | src/main/java/info/freelibrary/djatoka/iiif/ImageRequest.java:70-83 | an extension is recorded exactly for a recognised ending on a path longer than 4, and path plus "." plus extension gives back the input |
| ImageRequestParse.RequestParts | src/main/java/info/freelibrary/djatoka/iiif/ImageRequest.java:62-94 | the body must split into exactly five segments, or the part-count exception names the body |
| ImageRequestParse.DecodeSegment | src/main/java/info/freelibrary/djatoka/iiif/ImageRequest.java:233-241 | a segment decodes to the URL decoder's text, and the decoder's failure escapes as an unchecked exception |
| ImageRequestParse.ParseValues | src/main/java/info/freelibrary/djatoka/iiif/ImageRequest.java:117-150 | the four values are read exactly when each segment decodes and reads; an unchecked exception only from a failed decoding; the fields are the values read |
| ImageRequestParse.Parse | src/main/java/info/freelibrary/djatoka/iiif/ImageRequest.java:56-150 | success exactly when an identifier is extracted and region, size, rotation and quality all decode and read; then the request holds the encoded identifier and those values, with the warning flag marking rotations other than 0, 90, 180 and 270; a missing identifier is the part-count exception; an unchecked exception comes only from a segment failing to decode or from the path |
| ImageRequestParse.IdentifierEncodedTwice | src/main/java/info/freelibrary/djatoka/iiif/ImageRequest.java:96-107 | the stored identifier is the first accepted group URL-encoded twice |
| ImageRequestParse.RegionErrorPropagates | src/main/java/info/freelibrary/djatoka/iiif/ImageRequest.java:117 | a bad region segment is the request's error |
| ImageRequestParse.RotationMustBeFloat | src/main/java/info/freelibrary/djatoka/iiif/ImageRequest.java:129-143 | a rotation that is not a float is an exception naming the raw segment |
| ImageRequestParse.UnsupportedRotationWarns | src/main/java/info/freelibrary/djatoka/iiif/ImageRequest.java:129-143 | a readable request with rotation 45 is accepted, keeps 45 and carries the warning |
| ImageRequestParse.MalformedRegionEscapes | src/main/java/info/freelibrary/djatoka/iiif/ImageRequest.java:117 | a region segment the decoder rejects escapes as the decoder's unchecked exception, not an `IIIFException` |
| ImageRequestParse.ExtensionOf | src/main/java/info/freelibrary/djatoka/iiif/ImageRequest.java:70-83 | body plus an image extension is split back into the two |
| ImageRequestParse.ComposedPathParts | src/main/java/info/freelibrary/djatoka/iiif/ImageRequest.java:62-94 | five '/'-free segments joined after a '/' and followed by an extension read back as those segments |
| InfoRequestParse.ParseExtension | src/main/java/info/freelibrary/djatoka/iiif/InfoRequest.java:92-104 | ".xml" and ".json" endings give "xml" and "json"; anything else is the empty-message exception |
| InfoRequestParse.IdentifierStart | src/main/java/info/freelibrary/djatoka/iiif/InfoRequest.java:107-123 | 1 without a prefix; -1 exactly when "/" plus the prefix is absent; otherwise just past it and one more character |
| InfoRequestParse.ParseIdentifier | src/main/java/info/freelibrary/djatoka/iiif/InfoRequest.java:106-139 | a path without "/info." fails; an absent prefix leaves no identifier and no error; otherwise the identifier is what `extractID` makes of the text before the last "/info.", and its failure is an exception |
| InfoRequestParse.Parse | src/main/java/info/freelibrary/djatoka/iiif/InfoRequest.java:41-45 | the extension is read before the identifier |
| InfoRequestParse.ExtensionFirst | src/main/java/info/freelibrary/djatoka/iiif/InfoRequest.java:41-45 | a bad extension pre-empts every identifier error |
| InfoRequestParse.MarkerAfterId | src/main/java/info/freelibrary/djatoka/iiif/InfoRequest.java:107 | in a composed info path the last "/info." follows the identifier |
| InfoRequestParse.ComposedExtension | src/main/java/info/freelibrary/djatoka/iiif/InfoRequest.java:92-99 | a composed info path yields its extension |
| InfoRequestParse.ComposedIdentifier | src/main/java/info/freelibrary/djatoka/iiif/InfoRequest.java:107-133 | without a prefix, the identifier text of a composed path is the original identifier |
| InfoRequestParse.ComposedInfoPath | src/main/java/info/freelibrary/djatoka/iiif/InfoRequest.java:41-139 | "/" + id + "/info." + ext parses to ext and to what `extractID` makes of id |
| InfoRequestParse.AbsentPrefixNoIdentifier | src/main/java/info/freelibrary/djatoka/iiif/InfoRequest.java:111-125 | with a prefix that does not occur, no identifier is set and nothing is thrown |
| ServletFilter.ExtensionType | src/main/java/info/freelibrary/djatoka/iiif/IIIFServletFilter.java:67-98 | the eight known extensions give a content type whose extension is the input; any other throws with the extension in the message |
| ServletFilter.ExtensionTypeRoundTrip | src/main/java/info/freelibrary/djatoka/iiif/IIIFServletFilter.java:67-98 | every content type is selected by its own extension |
| ServletFilter.ExtensionTypeInjective | src/main/java/info/freelibrary/djatoka/iiif/IIIFServletFilter.java:67-98 | distinct extensions select distinct content types |
| ServletFilter.AcceptValues | src/main/java/info/freelibrary/djatoka/iiif/IIIFServletFilter.java:100-101 | the requested types are the text before the first ';' split on ','; a header of separators only has nothing to index and throws |
| ServletFilter.AcceptIgnoresParameters | src/main/java/info/freelibrary/djatoka/iiif/IIIFServletFilter.java:100-101 | nothing after the first ';' is considered |
| ServletFilter.PreferredType | src/main/java/info/freelibrary/djatoka/iiif/IIIFServletFilter.java:191-205 | the first requested type that is known, or the default when none is |
| ServletFilter.PreferredTypeStopsAtFirst | src/main/java/info/freelibrary/djatoka/iiif/IIIFServletFilter.java:196-202 | types after the first known one never matter |
| ServletFilter.DoFilter | src/main/java/info/freelibrary/djatoka/iiif/IIIFServletFilter.java:52-126 | non-HTTP requests pass through; exactly an `IIIFException` from parsing is a 400 with its message, while any other exception escapes; an extension decides the content type, else the Accept header does; an unknown extension, a missing Accept header and one with nothing to index end in an unchecked exception |
| ServletFilter.ExtensionBeatsAccept | src/main/java/info/freelibrary/djatoka/iiif/IIIFServletFilter.java:67-110 | a request with an extension never looks at the Accept header |
| ServletFilter.IiifPath | src/main/java/info/freelibrary/djatoka/iiif/IIIFServletFilter.java:138-160 | a prefix parameter gains a leading '/' when non-empty and without one; otherwise the first mapping without "/*", or "/iiif" when there is none; an unregistered servlet throws |
| ServletFilter.ServicePrefix | src/main/java/info/freelibrary/djatoka/iiif/IIIFServletFilter.java:164-171 | no prefix exactly when context path and IIIF path are both empty; otherwise their concatenation without its first character |
| ServletFilter.Init | src/main/java/info/freelibrary/djatoka/iiif/IIIFServletFilter.java:134-171 | initialisation fails exactly for an unregistered servlet without a prefix parameter, and otherwise yields that service prefix |
| ServletFilter.RootMappingPrefix | src/main/java/info/freelibrary/djatoka/iiif/IIIFServletFilter.java:144-171 | at the server root a servlet mapped at "/p/*" serves the prefix "p" |
| ServletFilter.PrefixSlashOptional | src/main/java/info/freelibrary/djatoka/iiif/IIIFServletFilter.java:138-171 | a prefix parameter gives the same prefix with or without its leading '/' |
| Info.New | src/main/java/info/freelibrary/djatoka/view/ImageInfo.java:40-82 | the getters give back the constructor's values; no formats, nothing rendered |
| Info.AddFormat | src/main/java/info/freelibrary/djatoka/view/ImageInfo.java:89-95 | the format list never changes, both renderings are dropped, the other fields are kept |
| Info.AddFormatIntended | src/main/java/info/freelibrary/djatoka/view/ImageInfo.java:89-95 | the corrected `addFormat`: afterwards the list holds exactly the old formats and the new one |
| Info.AddFormatLosesFormat | src/main/java/info/freelibrary/djatoka/view/ImageInfo.java:90 | "jpg" added to a fresh object leaves the list empty as written, and gives ["jpg"] as intended |
| Info.AddFormatIntendedNoDuplicates | src/main/java/info/freelibrary/djatoka/view/ImageInfo.java:89-92 | the corrected `addFormat` keeps a duplicate-free list duplicate-free |
| Info.FactorCount | src/main/java/info/freelibrary/djatoka/view/ImageInfo.java:182 | the number of scale factors is the level count clamped to [0, 10] |
| Info.ScaleFactors | src/main/java/info/freelibrary/djatoka/view/ImageInfo.java:178-187 | the factors start at 1 and each is twice the one before; none exceeds 512, and an image with ten or more levels reaches 512, past the 256 the source comment names |
| Info.ScaleFactorLoop | src/main/java/info/freelibrary/djatoka/view/ImageInfo.java:181-185 | the doubling loop emits `FactorCount(levels)` factors, factor i being 2^i |
| Info.JsonOf | src/main/java/info/freelibrary/djatoka/view/ImageInfo.java:166-199 | "@context" is the IIIF 1.1 context; "@id" is service/prefix/path-safe id; the dimensions are echoed; tiles are 256 square; the object's formats go under "myFormats"; the only quality is "native"; the profile is the level-1 compliance page under the given base |
| Info.ToJson | src/main/java/info/freelibrary/djatoka/view/ImageInfo.java:166-205 | memoised fields are returned as they are; otherwise fresh fields are built and remembered |
| Info.JsonMemoised | src/main/java/info/freelibrary/djatoka/view/ImageInfo.java:166-205 | once generated, the JSON ignores later service and prefix values |
| Info.AddFormatRefreshesJson | src/main/java/info/freelibrary/djatoka/view/ImageInfo.java:93-94 | after `addFormat`, the JSON is rebuilt from the next call's arguments |
| Info.JsonIdDecodes | src/main/java/info/freelibrary/djatoka/view/ImageInfo.java:171-174 | the identifier is recoverable from the end of "@id" when it holds no "%25" |
| Info.XmlOf | src/main/java/info/freelibrary/djatoka/view/ImageInfo.java:111-133 | the XML holds the identifier and formats, and its width and height read back as the ints |
| Info.InfoDoc | src/main/java/info/freelibrary/djatoka/view/ImageInfo.java:111-137 | the XML document is memoised like the JSON |
| Info.RenderingsIndependent | src/main/java/info/freelibrary/djatoka/view/ImageInfo.java:111-205 | generating one rendering leaves the other's memo alone |
| Access.Entries | src/main/java/gov/lanl/util/AccessManager.java:173-199 | the entries of a directive line are non-empty tokens |
| Access.OrderOf | src/main/java/gov/lanl/util/AccessManager.java:162-172 | an "order" line sets 1 for allow,deny, -1 for deny,allow found past the start, and otherwise keeps the order |
| Access.Directive | src/main/java/gov/lanl/util/AccessManager.java:158-200 | comments change nothing; only "order" lines change the order; "allow from" and "deny from" lines append their entries to their own list only |
| Access.ParseLine | src/main/java/gov/lanl/util/AccessManager.java:157-201 | a line is read trimmed: a comment changes nothing, entries are only appended and stay well-formed, only an "order" line moves the order and only to 1 or -1, and a list grows only on its own keyword |
| Access.ParseFrom | src/main/java/gov/lanl/util/AccessManager.java:154-202 | the order ends unchanged, 1 or -1, and unchanged when no line is an "order" line; a list is unchanged when no line starts with its keyword |
| Access.Parse | src/main/java/gov/lanl/util/AccessManager.java:154-202 | a parsed file has only well-formed entries and an order of 0, 1 or -1; a file with no "allow from" or "deny from" line has no entries |
| Access.ParseExtends | src/main/java/gov/lanl/util/AccessManager.java:154-202 | parsing only appends well-formed entries and never rewrites earlier ones |
| Access.ParseConcat | src/main/java/gov/lanl/util/AccessManager.java:157-201 | parsing a file in two parts is parsing the second from the rules of the first |
| Access.AllowLinesInOrder | src/main/java/gov/lanl/util/AccessManager.java:173-185 | two "allow from" lines contribute their entries in file order |
| Access.CommentIgnored | src/main/java/gov/lanl/util/AccessManager.java:159-161 | a comment line changes nothing wherever it appears |
| Access.AnyMatch | src/main/java/gov/lanl/util/AccessManager.java:89-132 | a list matches a host exactly when one of its entries does |
| Access.CheckAccess | src/main/java/gov/lanl/util/AccessManager.java:71-139 | everything passes with no entries; under deny,allow a host passes exactly when not denied or allowed; otherwise exactly when allowed and not denied |
| Access.IsAccessLimited | src/main/java/gov/lanl/util/AccessManager.java:146-152 | limited exactly when either list has an entry |
| Access.UnlimitedAllowsAll | src/main/java/gov/lanl/util/AccessManager.java:84-86 | an unlimited manager admits every host |
| Access.AllMatchesEveryHost | src/main/java/gov/lanl/util/AccessManager.java:91-93 | "all" matches every host |
| Access.EntryKindsSeparate | src/main/java/gov/lanl/util/AccessManager.java:95-108 | digit-led entries match only IP hosts, other entries only named hosts |
| Access.DenyOnlyBlocksAll | src/main/java/gov/lanl/util/AccessManager.java:134-138 | with deny entries only and the order not deny,allow, no host passes |
| Access.DenyAllowWithAllowAll | src/main/java/gov/lanl/util/AccessManager.java:134-136 | "allow from all" under deny,allow admits everyone, whatever is denied |
| Access.OrderAllowDeny | src/main/java/gov/lanl/util/AccessManager.java:166-168 | "order allow,deny" selects order 1 |
| Access.OrderDenyAllow | src/main/java/gov/lanl/util/AccessManager.java:169-171 | "order deny,allow" selects order -1 |
| Migrator.Jp2Family | src/main/java/gov/lanl/adore/djatoka/openurl/DjatokaImageMigrator.java:70-87 | exactly jp2, j2c, jpc, j2k, jpf and jpx map to the JP2 or JPX type |
| Migrator.Extension | src/main/java/gov/lanl/adore/djatoka/openurl/DjatokaImageMigrator.java:188-189 | the lower-cased text after the last '.', which itself holds no '.'; the whole path lower-cased when it holds no '.'; never longer than the path |
| Migrator.ProcessImage | src/main/java/gov/lanl/adore/djatoka/openurl/DjatokaImageMigrator.java:256-282 | only metadata is checked exactly when the extension maps to a JPEG 2000 type; anything else is compressed |
| Migrator.Classify | src/main/java/gov/lanl/adore/djatoka/openurl/DjatokaImageMigrator.java:135-220 | the Pairtree branch exactly for a parsed identifier with a root; TIFF gets ".tif"; a JPEG 2000 family extension keeps its own suffix; any other extension gets ".jp2" when the bytes look like JPEG 2000 and ".img" otherwise; a parsed identifier stays JPEG 2000 |
| Migrator.RemoveFirst | src/main/java/gov/lanl/adore/djatoka/openurl/DjatokaImageMigrator.java:241-243 | removing drops one occurrence, or nothing when absent |
| Migrator.Entered | src/main/java/gov/lanl/adore/djatoka/openurl/DjatokaImageMigrator.java:132 | on entry the referent is on the processing list once more |
| Migrator.ConvertResult | src/main/java/gov/lanl/adore/djatoka/openurl/DjatokaImageMigrator.java:128-245 | every failure is the exception's message; the Pairtree copy is kept only when non-empty; a temporary file is compressed exactly when it is not taken to be JPEG 2000 and `processImage` compresses it; an unreadable JPEG 2000 file is the "Unknown JP2/JPX file format" failure |
| Migrator.Convert | src/main/java/gov/lanl/adore/djatoka/openurl/DjatokaImageMigrator.java:128-245 | the processing list after `convert` holds the same multiset as before, and is unchanged when the referent was not on it |
| Migrator.RemoveLast | src/main/java/gov/lanl/adore/djatoka/openurl/DjatokaImageMigrator.java:132-243 | removing the referent just added restores the list |
| Migrator.TempExtension | src/main/java/gov/lanl/adore/djatoka/openurl/DjatokaImageMigrator.java:256-258 | the temporary file's suffix is the extension `processImage` reads back |
| Migrator.TiffIsCompressed | src/main/java/gov/lanl/adore/djatoka/openurl/DjatokaImageMigrator.java:192-229 | a TIFF fetched by plain URL is downloaded to ".tif" and compressed |
| Migrator.PlainDownloadCompressed | src/main/java/gov/lanl/adore/djatoka/openurl/DjatokaImageMigrator.java:200-262 | a plain download that is neither TIFF nor JPEG 2000 by extension or by its bytes, such as a PNG, JPEG or GIF, is saved as ".img" and compressed |
| Migrator.ParsedTiffNotCompressed | src/main/java/gov/lanl/adore/djatoka/openurl/DjatokaImageMigrator.java:137-229 | a TIFF with a parsed identifier and no Pairtree root is not compressed |
| Migrator.Jp2FamilyKept | src/main/java/gov/lanl/adore/djatoka/openurl/DjatokaImageMigrator.java:195-199 | a JPEG 2000 family extension is downloaded under its own suffix and never compressed |
| Migrator.SniffedJp2Checked | src/main/java/gov/lanl/adore/djatoka/openurl/DjatokaImageMigrator.java:200-229 | an unknown extension whose bytes look like JPEG 2000 is saved as ".jp2" and only has its metadata checked |
| OpenUrl.ParseIntOrThrow | src/main/java/gov/lanl/adore/djatoka/openurl/OpenURLJP2KService.java:226-229 | succeeds exactly on a Java int, giving its value |
| OpenUrl.DecodeScale | src/main/java/gov/lanl/adore/djatoka/openurl/OpenURLJP2KService.java:231-244 | one value with '.' sets the factor; one int v sets [-1, v]; two ints set [a, b]; other counts change nothing; no other field changes |
| OpenUrl.DecodeLayer | src/main/java/gov/lanl/adore/djatoka/openurl/OpenURLJP2KService.java:245-250 | the layer changes only to a parsed positive value; a non-int throws |
| OpenUrl.DecodeKev | src/main/java/gov/lanl/adore/djatoka/openurl/OpenURLJP2KService.java:209-250 | fails exactly for a non-int level or rotation, a scale `DecodeScale` refuses, or a non-int layer; otherwise the format is the given one only when it starts with "image", an empty region is unset, level and rotation are the parsed values, the scale fields are those `DecodeScale` sets, and the layer is replaced only by a parsed positive value |
| OpenUrl.DecodeBasics | src/main/java/gov/lanl/adore/djatoka/openurl/OpenURLJP2KService.java:215-230 | fails exactly for a non-int level or rotation; otherwise only region, level and rotation change, to the given values |
| OpenUrl.FormatIsImage | src/main/java/gov/lanl/adore/djatoka/openurl/OpenURLJP2KService.java:209-224 | the response format always starts with "image" |
| OpenUrl.ScaleSingleInteger | src/main/java/gov/lanl/adore/djatoka/openurl/OpenURLJP2KService.java:236-238 | a lone int scale asks for that height with the width free |
| OpenUrl.IsCacheable | src/main/java/gov/lanl/adore/djatoka/openurl/OpenURLJP2KService.java:474-493 | never under an applicable transform; otherwise refused exactly for a full-image request at an unlisted factor other than 1.0 |
| OpenUrl.ScaleText | src/main/java/gov/lanl/adore/djatoka/openurl/OpenURLJP2KService.java:505-512 | empty unless there are one or two dimensions; then the text splits on ',' back into the dimensions, and never holds the bar separator |
| OpenUrl.KeyFields | src/main/java/gov/lanl/adore/djatoka/openurl/OpenURLJP2KService.java:499-514 | seven fields: identifier, level, region, rotation, factor text, scale text and layer; level, rotation and layer read back as their ints, and those fields and the scale text hold no bar separator |
| OpenUrl.PreImage | src/main/java/gov/lanl/adore/djatoka/openurl/OpenURLJP2KService.java:499-514 | when identifier, region and factor text hold no bar separator, the pre-image splits on the separator back into exactly the key fields |
| OpenUrl.SameFieldsSameHash | src/main/java/gov/lanl/adore/djatoka/openurl/OpenURLJP2KService.java:499-517 | requests with the same key fields get the same tile hash; three or more dimensions are keyed as no dimensions |
| OpenUrl.PreImageInjective | src/main/java/gov/lanl/adore/djatoka/openurl/OpenURLJP2KService.java:499-517 | when identifier, region and factor text hold no bar separator, equal pre-images mean equal identifiers, levels, regions, rotations, layers, factors and dimensions |
| OpenUrl.PreImageCollision | src/main/java/gov/lanl/adore/djatoka/openurl/OpenURLJP2KService.java:499-517 | the separator inside a field lets two different requests share a pre-image: identifier "a", separator, "5" at level 7 with region "r", and identifier "a" at level 5 with region "7", separator, "r" |
| OpenUrl.ExtensionFor | src/main/java/gov/lanl/adore/djatoka/openurl/OpenURLJP2KService.java:520-540 | six media types have extensions, JPEG being "jpg"; any other has none |
| OpenUrl.ExtensionsAgreeWithFormatMap | src/main/java/gov/lanl/adore/djatoka/openurl/OpenURLJP2KService.java:520-540 | each type's extension is one the migrator's table files under that type, JPM excepted as JP2 |
| OpenUrl.IsMiss | src/main/java/gov/lanl/adore/djatoka/openurl/OpenURLJP2KService.java:320 | an absent key is a miss; on a consistent file system the test is a miss exactly when the key is absent |
| OpenUrl.StaleEntryIsHit | src/main/java/gov/lanl/adore/djatoka/openurl/OpenURLJP2KService.java:320 | an entry whose file has vanished still counts as a hit |
| OpenUrl.IsMissIntended | src/main/java/gov/lanl/adore/djatoka/openurl/OpenURLJP2KService.java:320 | the corrected test is a hit exactly when the key names an existing non-empty file |
| OpenUrl.StaleEntryIsIntendedMiss | src/main/java/gov/lanl/adore/djatoka/openurl/OpenURLJP2KService.java:320 | the two tests disagree exactly on stale or empty entries |
| OpenUrl.CacheStep | src/main/java/gov/lanl/adore/djatoka/openurl/OpenURLJP2KService.java:312-375 | a hit reads the cached file and keeps the cache; a miss returns the extracted bytes and, on success, maps the key to this request's file, or to the other request's file when one got there first; a failed extraction keeps the cache; other keys are untouched |
| OpenUrl.FaultResponse | src/main/java/gov/lanl/adore/djatoka/openurl/OpenURLJP2KService.java:379-394 | resolver and codec failures are 404 and any other 500, with the message as text/plain; a null message throws |
| OpenUrl.Normalize | src/main/java/gov/lanl/adore/djatoka/openurl/OpenURLJP2KService.java:397-405 | an empty or missing body becomes an empty text/plain 404; anything else is kept |
| OpenUrl.CacheKey | src/main/java/gov/lanl/adore/djatoka/openurl/OpenURLJP2KService.java:313-315 | the key starts with the tile hash and goes on with the type's extension, or "null" when the type has none |
| OpenUrl.Fetch | src/main/java/gov/lanl/adore/djatoka/openurl/OpenURLJP2KService.java:303-375 | the bytes are extracted directly unless caching is on and the request cacheable; then they come through the cache step under the record's key |
| OpenUrl.Serve | src/main/java/gov/lanl/adore/djatoka/openurl/OpenURLJP2KService.java:255-395 | a region with '-' is a text/plain 404; a resolver failure becomes its fault response; a null record is a 200 with no body; a record's bytes are a 200 in the requested format, and an extraction failure becomes its fault response; the tile cache changes only for a cacheable request with a record while caching is on |
| OpenUrl.Resolve | src/main/java/gov/lanl/adore/djatoka/openurl/OpenURLJP2KService.java:205-405 | decoding errors escape; every response has a body or is the empty 404; cache entries are never lost |
| OpenUrl.NegativeRegionIgnoresEnv | src/main/java/gov/lanl/adore/djatoka/openurl/OpenURLJP2KService.java:255-263 | a region with '-' is answered without the resolver, the extractor or the cache |
| OpenUrl.MissingRecordIsNotFound | src/main/java/gov/lanl/adore/djatoka/openurl/OpenURLJP2KService.java:272-278 | a missing image record ends in an empty text/plain 404 |
| OpenUrl.RaceLoserServesOwnBytes | src/main/java/gov/lanl/adore/djatoka/openurl/OpenURLJP2KService.java:346-365 | losing the race returns this request's bytes and keeps the other request's entry |
| View.IntCast | src/main/java/info/freelibrary/djatoka/util/CacheUtils.java:50-51 | `(int) f` truncates toward zero within one unit and saturates at the int range |
| View.IntCastWhole | src/main/java/info/freelibrary/djatoka/view/ImageServlet.java:431-439 | a whole number in the int range survives the cast |
| View.DjatokaRegion | src/main/java/info/freelibrary/djatoka/view/ImageServlet.java:124-136 | "" exactly for the full region; otherwise y, x, height, width joined by ',' |
| View.DjatokaRegionSwapsFields | src/main/java/info/freelibrary/djatoka/view/ImageServlet.java:127-136 | the region sent is the region's own text with x and y swapped and width and height swapped |
| View.DjatokaRegionReads | src/main/java/info/freelibrary/djatoka/view/ImageServlet.java:127-136 | the region sent reads back as y, x, height, width |
| View.PercentFlagDropped | src/main/java/info/freelibrary/djatoka/view/ImageServlet.java:124-136 | a percent region is sent as if its numbers were pixels |
| View.ServeNewImage | src/main/java/info/freelibrary/djatoka/view/ImageServlet.java:421-439 | the level query exactly without a scale; "full" sent as "1.0"; the identifier URL-encoded; the rotation read back as the int cast |
| View.ServiceValues | src/main/java/info/freelibrary/djatoka/view/ImageServlet.java:47-53 | both templates send format and rotation and never a layer; the region template sends exactly format, region, scale and rotation with the given values; the level template sends no region and no scale, and a level exactly when one is given |
| View.FullScaleHandOff | src/main/java/info/freelibrary/djatoka/view/ImageServlet.java:431-439 | a full-size region request reaches the resolver as a factor of 1.0 with the region, the rotation and the default level |
| View.ScaleOneIsFactor | src/main/java/gov/lanl/adore/djatoka/openurl/OpenURLJP2KService.java:233-235 | "1.0" is decoded as a scaling factor of 1 |
| View.SessionKey | src/main/java/info/freelibrary/djatoka/view/ImageServlet.java:395-417 | the key starts with the identifier, '_' and "image_", and ends with the cast rotation and ".jpg" |
| View.SessionKeyFields | src/main/java/info/freelibrary/djatoka/view/ImageServlet.java:395-417 | the session key splits back into identifier and file-name parts |
| View.SessionKeyInjective | src/main/java/info/freelibrary/djatoka/view/ImageServlet.java:395-417 | equal session keys mean equal identifiers and equal rotations |
| View.ImageAction | src/main/java/info/freelibrary/djatoka/view/ImageServlet.java:110-145 | served from the Pairtree exactly when the cache is set and holds the tile; otherwise forwarded with the region query, with a session key exactly when the cache is set |
| View.ImageRequestsUseRegionQuery | src/main/java/info/freelibrary/djatoka/view/ImageServlet.java:116-145 | an IIIF image request never uses the level query |
| View.FullRequestForwarded | src/main/java/info/freelibrary/djatoka/view/ImageServlet.java:116-145 | a full request is forwarded with no region and scale "1.0" |
| View.InfoResponse | src/main/java/info/freelibrary/djatoka/view/ImageServlet.java:88-108 | a null extension throws; "xml" gives the XML document of a new info object, whose width and height read back; anything else gives the JSON with the image's dimensions, the "@id" built from the server, the prefix and the path-safe identifier, the scale factors for its levels, quality "native" and an empty format list |
| View.InfoJsonListsNoFormats | src/main/java/info/freelibrary/djatoka/view/ImageServlet.java:95-105 | the JSON document lists no formats although "jpg" is added |
| View.CacheNewImage | src/main/java/info/freelibrary/djatoka/view/ImageServlet.java:457-497 | both attributes are removed exactly when the file exists and each of rename and unlink succeeded or debug is off; the move happens exactly on a successful rename |
| View.CleanupOnce | src/main/java/info/freelibrary/djatoka/view/ImageServlet.java:462-484 | a second clean-up after a successful one changes nothing |
| View.DebugOffDropsFailedRename | src/main/java/info/freelibrary/djatoka/view/ImageServlet.java:474-482 | with debug off, a failed rename still ends the session entry |
| View.CacheNewImageIntended | src/main/java/info/freelibrary/djatoka/view/ImageServlet.java:462-484 | the corrected clean-up removes the entry only after a move and a successful unlink |
| View.CleanupIntendedIgnoresLogging | src/main/java/info/freelibrary/djatoka/view/ImageServlet.java:474-482 | the corrected clean-up ignores the logging level, and equals the clean-up as written when debug is on |
| View.CleanupDiffersWhenDebugOff | src/main/java/info/freelibrary/djatoka/view/ImageServlet.java:474-482 | with debug off and a failed rename, the clean-up as written drops the entry and the corrected one keeps it |

## Left out

- Network, servlet plumbing and the file system are left out: reading URLs, dispatching requests, `sendError`, writing files, Pairtree objects, temporary files and `renameTo`. Their outcomes are parameters (`Files`, `Storage`, `Io`, `CleanupEnv`, `inPairtree`).
- `ImageServlet.getHeightWidthAndLevels` is left out. It makes an HTTP call to the server itself and caches XML. The info branch takes height, width and levels as inputs.
- The `IngestServlet` and its background thread are left out.
- Concurrency is left out. `getRemoteImage` polls the processing list for up to five minutes. The model does not wait: it serves the memo when the id is still in process. The synchronized list and the concurrent map are plain sequences and maps. The cache race in `resolve` is one step, with the other request's entry as an input (`Env.concurrent`).
- Floating point is left out:
  - Percent scaling in `Region.normalizeForImageDims` is an abstract `pct` whose laws are stated.
  - `Size.normalizeForRegionDims` scaling is an abstract `scale` function.
  - `Float.toString`/`Double.toString` and `Double.parseDouble` are abstract (`percentText`, `Doubles`).
  - Rotation is a real number, cast by the explicit `View.IntCast`.
- `CacheUtils.getMaxLevel` uses `Math.log`. It is a parameter `maxLevel` in [0, 31], which covers every positive image dimension.
- `CacheUtils.GetTileSize`: the model states the value only while `2^(maxLevel - level) * 256` fits an int. Larger ranges wrap, and their values are not named.
- SHA-1 in `getTileHash` is a `digest` parameter over the pre-image text. Java's `new String(digest)` decoding is inside that parameter.
- The regular-expression matcher, `URLEncoder`, `URLDecoder`, `StringUtils.format`, `Quality`, `Builder.checkServicePrefix`, `ReferentManager` and the codec (`KduCompressExe`, `KduExtractExe`, `checkIfJp2`) are parameters.
- The content-type constants of the IIIF `Constants` interface and the `FormatConstants` media types are parameters: `Table` in the filter and `MimeText` in the service. Their texts are not part of this model.
- View.ServiceValues: `OpenURLJP2KService.setServiceValues` is not modelled. The member states which values the servlet's two query templates carry, assuming the resolver reads them back unchanged. An absent level is taken to leave "level" out. How `StringUtils.format` prints a null level, and what the resolver then reads, are not part of this model.
- The session hand-off at the end of `resolve` (OpenURLJP2KService.java:418-466) is left out. It calls a five-argument `getFileName` that is not part of this model. The resolver builds its key from the decoded level and scale dimensions, and the servlet builds its key from its own level parameter and the IIIF size text. So the model does not show that the key `View.SessionKey` gives matches the one the resolver stores under.
- Info.JsonOf: the JSON and XML text, with its key names, is not modelled; `JsonFields` and `XmlFields` hold the values. The source writes the format list under the key "myFormats" (ImageInfo.java:195), not the "formats" key the IIIF Image API 1.1 information response uses, so a client reading "formats" finds none. The model keeps that key by naming the field `myFormats`.
- `TileCacheManager` is a plain map. Whether it evicts entries is not part of this model. `removeFromTileCache`'s result is an input to the clean-up (`removeOk`).
- OpenUrl.IsCacheable: `params.getTransform().isTransformable()` is the input `transformable`. The source makes that call whenever the transform check is on. It does so even when `resolve` skipped `setTransform` because no transform is configured (OpenURLJP2KService.java:280). What `getTransform()` returns then belongs to `DjatokaDecodeParam`, which is not part of this model.
- JavaString.ParseInt: only the ASCII digits '0' to '9' are read. `Integer.parseInt` also accepts other Unicode decimal digits, such as Arabic-Indic ones. Those are rejected here.
- JavaString.ToLower: maps only 'A' to 'Z'. `String.toLowerCase()` follows the default locale and all of Unicode, so under a Turkish locale "TIF" does not lower-case to "tif". The model takes the locale-neutral reading.
- CacheUtils.RowLoop: the test `y * t > height + t` uses unbounded integers. Java's `int` wraps once the product or the sum passes 2^31 - 1, which happens only for heights near the int range. That wrap-around is not modelled.
- Resolver.NullRecord: what `getCachedImage(null)` returns is the input `Storage.cachedNull`. Its body is written for a non-null id, and its null case is not part of this model.
- CacheUtils.ColumnLoop: the test `x * t > width + t` and the sums `xSize + t` use unbounded integers. The same 32-bit wrap-around for very wide images is not modelled.
- `Access.CheckAccess` requires a non-empty host. The source reads `host.charAt(0)` and throws on an empty one; that exception is not modelled. File-reading errors in the `AccessManager` constructor are left out too, since they only log.
- `View.InfoResponse` starts from the extension. A missing `IIIFRequest` attribute or identifier in `doGet` sends an error and then still goes on to dereference it; that path is not modelled.
- `Migrator.ConvertResult` takes any download or file failure as one message (`Io.failure`). The file copies, `deleteOnExit`, and reopening of the stream are left out. The Pairtree copy's deletion when empty is the `kept` flag.
- The cardinality of `formatMap` (13 keys) is not stated as a lemma; the table is written out as a map literal.
- `OpenUrl.CacheStep` and `OpenUrl.Serve` keep the hit test as written (`IsMiss`), so the service's lemmas describe its actual behaviour. The corrected test `IsMissIntended` stands beside it. Likewise `View.InfoResponse` uses `Info.AddFormat` as written.

## Findings

| source | as written | input that shows it | evidently intended | confidence | as-written member | corrected member |
|---|---|---|---|---|---|---|
| src/main/java/info/freelibrary/djatoka/util/CacheUtils.java:101-111 | the row counter `y` is declared once per level and never reset per column, so every column after the first breaks at once | any image at least one tile wide at a level above 8: tile (1, 0) is never queried | reset the row counter for each column so every tile of the level is planned | not executed; high | CacheUtils.MissesSecondColumn | CacheUtils.GridCoversImage |
| src/main/java/info/freelibrary/djatoka/view/ImageInfo.java:90 | `addFormat` appends only when `!aFormat.contains(aFormat)`, which is always false | `addFormat("jpg")` on a fresh object leaves the format list empty | append unless the list already contains the format | not executed; high | Info.AddFormatLosesFormat | Info.AddFormatIntended |
| src/main/java/gov/lanl/adore/djatoka/openurl/OpenURLJP2KService.java:320 | the miss test `file == null` or `!exists && length > 0` is never true for a missing file | a tile-cache entry whose file was deleted counts as a hit, and reading it fails | `!(exists && length > 0)`: a missing or empty file is a miss | not executed; medium | OpenUrl.StaleEntryIsHit | OpenUrl.IsMissIntended |
| src/main/java/info/freelibrary/djatoka/view/ImageServlet.java:474-482 | the failure tests are `!renameTo(...) && isDebugEnabled()`, so with debug logging off a failed rename falls into the success branch | debug logging off and a failing rename: the session entry and the resolver's cache link are dropped, and the tile never reaches the Pairtree | stop the clean-up on a failed rename or unlink whatever the logging level | not executed; medium | View.DebugOffDropsFailedRename | View.CacheNewImageIntended |

=== FILE: access_manager.dfy ===
/** `AccessManager`: host filtering read from an Apache-style access file,
    after the `Order`, `Allow` and `Deny` directives of Apache httpd's
    mod_access. */
module Access {
  import opened JavaString

  /** The parsed directives: allowed and denied entries in file order, and
      the order (1 for allow,deny; -1 for deny,allow; 0 when unset). */
  datatype Rules = Rules(allow: seq<string>, deny: seq<string>, order: int)

  const NoRules: Rules := Rules([], [], 0)

  const AllowFrom: string := "allow from"
  const DenyFrom: string := "deny from"

  // ---------------------------------------------------------------------
  // Parsing
  // ---------------------------------------------------------------------

  /** The entries named after a directive keyword: the rest of the line
      without its leading blanks and control characters, cut into tokens. */
  function Entries(line: string, keyword: string): (r: seq<string>)
    requires |keyword| <= |line|
    ensures forall i :: 0 <= i < |r| ==> r[i] != ""
  {
    Tokens(TrimStart(line[|keyword|..]))
  }

  /** Every entry is a non-empty token, as `checkAccess` needs to read its
      first character. */
  predicate WellFormed(rules: Rules) {
    && (forall i :: 0 <= i < |rules.allow| ==> rules.allow[i] != "")
    && (forall i :: 0 <= i < |rules.deny| ==> rules.deny[i] != "")
  }

  /** Appending tokens to a list of tokens. */
  function Extend(list: seq<string>, more: seq<string>): (r: seq<string>)
    requires forall i :: 0 <= i < |more| ==> more[i] != ""
    ensures list <= r && r == list + more
    ensures (forall i :: 0 <= i < |list| ==> list[i] != "") ==> forall i :: 0 <= i < |r| ==> r[i] != ""
  {
    list + more
  }

  /** The order an "order" line sets: allow,deny gives 1 and deny,allow
      gives -1 when found past the line's start; otherwise the order stays. */
  function OrderOf(line: string, current: int): (r: int)
    ensures r == current || r == 1 || r == -1
    ensures r == 1 <==> IndexOf(line, "allow,deny") > 0 || (current == 1 && IndexOf(line, "deny,allow") <= 0)
  {
    if IndexOf(line, "allow,deny") > 0 then 1
    else if IndexOf(line, "deny,allow") > 0 then -1
    else current
  }

  /** One trimmed line of the access file: comments are skipped, an
      "order" line may set the order, and "allow from" and "deny from"
      lines append their entries. Anything else is ignored. */
  function Directive(rules: Rules, line: string): (r: Rules)
    ensures StartsWith(line, "#") ==> r == rules
    ensures WellFormed(rules) ==> WellFormed(r)
    ensures rules.allow <= r.allow && rules.deny <= r.deny
    ensures r.order != rules.order ==> StartsWith(line, "order")
    ensures !StartsWith(line, "#") && StartsWith(line, "order") ==> r == rules.(order := OrderOf(line, rules.order))
    ensures StartsWith(line, AllowFrom) ==> r == rules.(allow := rules.allow + Entries(line, AllowFrom))
    ensures StartsWith(line, DenyFrom) ==> r == rules.(deny := rules.deny + Entries(line, DenyFrom))
    ensures !StartsWith(line, AllowFrom) ==> r.allow == rules.allow
    ensures !StartsWith(line, DenyFrom) ==> r.deny == rules.deny
  {
    KeywordsExclusive(line);
    if StartsWith(line, "#") then rules
    else if StartsWith(line, "order") then rules.(order := OrderOf(line, rules.order))
    else if StartsWith(line, AllowFrom) then rules.(allow := Extend(rules.allow, Entries(line, AllowFrom)))
    else if StartsWith(line, DenyFrom) then rules.(deny := Extend(rules.deny, Entries(line, DenyFrom)))
    else rules
  }

  /** A raw line is read once trimmed: a comment changes nothing, entries
      are only appended, and only an "order" line moves the order. */
  function ParseLine(rules: Rules, raw: string): (r: Rules)
    ensures StartsWith(Trim(raw), "#") ==> r == rules
    ensures WellFormed(rules) ==> WellFormed(r)
    ensures rules.allow <= r.allow && rules.deny <= r.deny
    ensures r.order != rules.order ==> StartsWith(Trim(raw), "order") && (r.order == 1 || r.order == -1)
    ensures !StartsWith(Trim(raw), AllowFrom) ==> r.allow == rules.allow
    ensures !StartsWith(Trim(raw), DenyFrom) ==> r.deny == rules.deny
  {
    Directive(rules, Trim(raw))
  }

  /** A line starts with at most one of the directive keywords. */
  lemma KeywordsExclusive(line: string)
    ensures StartsWith(line, AllowFrom) ==> !StartsWith(line, "#") && !StartsWith(line, "order")
    ensures StartsWith(line, DenyFrom) ==>
      !StartsWith(line, "#") && !StartsWith(line, "order") && !StartsWith(line, AllowFrom)
  {
    if |line| > 0 {
      assert StartsWith(line, AllowFrom) ==> line[0] == 'a';
      assert StartsWith(line, DenyFrom) ==> line[0] == 'd';
      assert StartsWith(line, "#") ==> line[0] == '#';
      assert StartsWith(line, "order") ==> line[0] == 'o';
    }
  }

  /** `parse`: the lines in order, from no rules at all. */
  function ParseFrom(rules: Rules, lines: seq<string>): (r: Rules)
    ensures r.order == rules.order || r.order == 1 || r.order == -1
    ensures (forall i :: 0 <= i < |lines| ==> !StartsWith(Trim(lines[i]), AllowFrom)) ==> r.allow == rules.allow
    ensures (forall i :: 0 <= i < |lines| ==> !StartsWith(Trim(lines[i]), DenyFrom)) ==> r.deny == rules.deny
    ensures (forall i :: 0 <= i < |lines| ==> !StartsWith(Trim(lines[i]), "order")) ==> r.order == rules.order
    decreases |lines|
  {
    if |lines| == 0 then rules else ParseFrom(ParseLine(rules, lines[0]), lines[1..])
  }

  /** The rules of a whole file: every entry a non-empty token, and the
      order unset, allow,deny or deny,allow. */
  function Parse(lines: seq<string>): (r: Rules)
    ensures WellFormed(r)
    ensures r.order == 0 || r.order == 1 || r.order == -1
    ensures (forall i :: 0 <= i < |lines| ==> !StartsWith(Trim(lines[i]), AllowFrom) && !StartsWith(Trim(lines[i]), DenyFrom)) ==>
      r.allow == [] && r.deny == []
  {
    ParseExtends(NoRules, lines);
    ParseFrom(NoRules, lines)
  }

  /** Parsing appends and never rewrites: earlier entries survive later
      lines, and every entry is a well-formed token. */
  lemma {:induction false} ParseExtends(rules: Rules, lines: seq<string>)
    requires WellFormed(rules)
    ensures WellFormed(ParseFrom(rules, lines))
    ensures rules.allow <= ParseFrom(rules, lines).allow
    ensures rules.deny <= ParseFrom(rules, lines).deny
    decreases |lines|
  {
    if |lines| > 0 {
      ParseExtends(ParseLine(rules, lines[0]), lines[1..]);
    }
  }

  /** Parsing a file in two parts is parsing the second part from the rules
      of the first. */
  lemma {:induction false} ParseConcat(rules: Rules, a: seq<string>, b: seq<string>)
    ensures ParseFrom(rules, a + b) == ParseFrom(ParseFrom(rules, a), b)
    decreases |a|
  {
    if |a| > 0 {
      assert (a + b)[0] == a[0];
      assert (a + b)[1..] == a[1..] + b;
      ParseConcat(ParseLine(rules, a[0]), a[1..], b);
    } else {
      assert a + b == b;
    }
  }

  /** Two "allow from" lines contribute their entries in file order. */
  lemma AllowLinesInOrder(rules: Rules, l1: string, l2: string)
    requires StartsWith(Trim(l1), AllowFrom) && StartsWith(Trim(l2), AllowFrom)
    ensures ParseFrom(rules, [l1, l2]).allow
      == rules.allow + Entries(Trim(l1), AllowFrom) + Entries(Trim(l2), AllowFrom)
  {
    var r1 := ParseLine(rules, l1);
    assert r1.allow == rules.allow + Entries(Trim(l1), AllowFrom);
    var r2 := ParseLine(r1, l2);
    assert r2.allow == r1.allow + Entries(Trim(l2), AllowFrom);
    assert [l2][1..] == [];
    assert ParseFrom(r1, [l2]) == r2;
    assert [l1, l2][1..] == [l2];
    assert ParseFrom(rules, [l1, l2]) == ParseFrom(r1, [l2]);
  }

  /** Comment lines change nothing, wherever they appear. */
  lemma CommentIgnored(rules: Rules, a: seq<string>, comment: string, b: seq<string>)
    requires StartsWith(Trim(comment), "#")
    ensures ParseFrom(rules, a + [comment] + b) == ParseFrom(rules, a + b)
  {
    ParseConcat(rules, a + [comment], b);
    ParseConcat(rules, a, [comment]);
    ParseConcat(rules, a, b);
    assert [comment][1..] == [];
  }

  // ---------------------------------------------------------------------
  // Checking a host
  // ---------------------------------------------------------------------

  /** A host counts as an IP address when it starts with a digit. */
  predicate IsIp(host: string)
    requires host != ""
  {
    IsDigit(host[0])
  }

  /** An entry matches "all" hosts, IP hosts it prefixes when digit-led,
      and named hosts it suffixes otherwise. */
  predicate Matches(entry: string, host: string)
    requires entry != "" && host != ""
  {
    if entry == "all" then true
    else if IsDigit(entry[0]) then IsIp(host) && StartsWith(host, entry)
    else !IsIp(host) && EndsWith(host, entry)
  }

  /** The loop over one list: does any entry match? It stops at the first
      match. */
  function AnyMatch(entries: seq<string>, host: string): (r: bool)
    requires host != ""
    requires forall i :: 0 <= i < |entries| ==> entries[i] != ""
    ensures r <==> exists i :: 0 <= i < |entries| && Matches(entries[i], host)
  {
    if |entries| == 0 then false
    else if Matches(entries[0], host) then true
    else
      var r := AnyMatch(entries[1..], host);
      assert forall i :: 1 <= i < |entries| ==> entries[i] == entries[1..][i - 1];
      r
  }

  /** `checkAccess`: everything passes with no entries; under deny,allow a
      host passes unless denied, or when allowed; otherwise it must be
      allowed and not denied. */
  function CheckAccess(rules: Rules, host: string): (r: bool)
    requires host != "" && WellFormed(rules)
    ensures rules.allow == [] && rules.deny == [] ==> r
    ensures (rules.allow != [] || rules.deny != []) && rules.order < 0 ==>
      (r <==> !(exists i :: 0 <= i < |rules.deny| && Matches(rules.deny[i], host))
              || (exists i :: 0 <= i < |rules.allow| && Matches(rules.allow[i], host)))
    ensures (rules.allow != [] || rules.deny != []) && rules.order >= 0 ==>
      (r <==> (exists i :: 0 <= i < |rules.allow| && Matches(rules.allow[i], host))
              && !(exists i :: 0 <= i < |rules.deny| && Matches(rules.deny[i], host)))
  {
    if |rules.allow| == 0 && |rules.deny| == 0 then true
    else
      var allowed := AnyMatch(rules.allow, host);
      var denied := AnyMatch(rules.deny, host);
      if rules.order < 0 then !denied || allowed else allowed && !denied
  }

  /** `isAccessLimited`. */
  function IsAccessLimited(rules: Rules): (r: bool)
    ensures r <==> |rules.allow| > 0 || |rules.deny| > 0
  {
    |rules.allow| > 0 || |rules.deny| > 0
  }

  /** An unlimited manager lets every host through. */
  lemma UnlimitedAllowsAll(rules: Rules, host: string)
    requires host != "" && WellFormed(rules) && !IsAccessLimited(rules)
    ensures CheckAccess(rules, host)
  {
  }

  /** "all" matches every host. */
  lemma AllMatchesEveryHost(host: string)
    requires host != ""
    ensures Matches("all", host)
  {
  }

  /** Digit-led entries only ever match IP hosts, other entries only ever
      match named hosts. */
  lemma EntryKindsSeparate(entry: string, host: string)
    requires entry != "" && host != "" && entry != "all"
    ensures Matches(entry, host) ==> (IsDigit(entry[0]) <==> IsIp(host))
  {
  }

  /** With deny entries only and the order unset or allow,deny, no host
      gets through: nothing can be allowed. */
  lemma DenyOnlyBlocksAll(rules: Rules, host: string)
    requires host != "" && WellFormed(rules)
    requires rules.allow == [] && rules.deny != [] && rules.order >= 0
    ensures !CheckAccess(rules, host)
  {
  }

  /** A file allowing "all" after "order deny,allow" admits everyone. */
  lemma DenyAllowWithAllowAll(host: string, deny: seq<string>)
    requires host != ""
    requires forall i :: 0 <= i < |deny| ==> deny[i] != ""
    ensures CheckAccess(Rules(["all"], deny, -1), host)
  {
    assert Matches(["all"][0], host);
  }

  /** "order allow,deny" selects order 1 whatever came before. */
  lemma OrderAllowDeny(current: int)
    ensures OrderOf("order allow,deny", current) == 1
  {
    var a := "order allow,deny";
    assert OccursAt(a, "allow,deny", 6);
    assert a[0] != "allow,deny"[0];
    assert !OccursAt(a, "allow,deny", 0);
  }

  /** "order deny,allow" selects order -1 whatever came before. */
  lemma OrderDenyAllow(current: int)
    ensures OrderOf("order deny,allow", current) == -1
  {
    var d := "order deny,allow";
    forall j | 0 <= j && j + 10 <= |d|
      ensures !OccursAt(d, "allow,deny", j)
    {
      assert d[j..j + 10][5] == d[j + 5];
      if j + 5 == 10 {
        assert d[j..j + 10][0] == d[j];
      }
    }
    assert !Contains(d, "allow,deny");
    assert OccursAt(d, "deny,allow", 6);
    assert d[0] != "deny,allow"[0];
    assert !OccursAt(d, "deny,allow", 0);
  }
}

=== FILE: cache_utils.dfy ===
/** `CacheUtils`: names of cached tile files, the scale and tile size of a
    pyramid level, tile regions, and the list of queries that pre-populates
    the tile cache for an image. `getMaxLevel` (a ceiling of a base-2
    logarithm in doubles) stays abstract: callers pass its result. */
module CacheUtils {
  import opened Wrappers
  import opened JavaString
  import RegionParam

  /** Levels at or below this one are fetched whole ("/all/..."), never in
      tiles. */
  const WholeLevels: int := 8

  /** The side of a tile at the deepest level. */
  const BaseTile: int := 256

  /** A region or scale as it appears in a file name: "full" when absent or
      empty, otherwise with every ',' turned into '-'. */
  function FilePart(p: Option<string>): (r: string)
    ensures p.None? || p.value == "" ==> r == "full"
    ensures p.Some? && p.value != "" ==> |r| == |p.value|
    ensures p.Some? && p.value != "" ==>
      forall i :: 0 <= i < |r| ==> r[i] == (if p.value[i] == ',' then '-' else p.value[i])
    ensures NoChar(r, ',')
  {
    if p.None? || p.value == "" then "full" else ReplaceChar(p.value, ',', '-')
  }

  /** `getFileName(level, region, scale, rotation)`; `useOldNames` is the
      constant false, so the name always has all four parts. `rotation` is
      the float argument already cast with `(int)`; a `None` level prints as
      "null". */
  function GetFileName(level: Option<string>, region: Option<string>, scale: Option<string>, rotation: int): string {
    "image" + "_" + NullableText(level) + "_" + FilePart(region) + "_" + FilePart(scale) + "_" + (IntToString(rotation) + ".jpg")
  }

  /** `getScale(level)`: `(int) Math.pow(2, level)`, so 0 for negative
      levels and `Integer.MAX_VALUE` once the power leaves the int range. */
  function GetScale(level: int): (r: int)
    ensures IsInt32(r) && r >= 0
    ensures 0 <= level <= 30 ==> r == Pow2(level)
  {
    if level < 0 then 0
    else if level >= 31 then INT_MAX
    else Pow2Int32(level); Pow2(level)
  }

  /** `getTileSize(level, maxLevel)`: `(int)(2^maxLevel / 2^level) * 256` in
      Java ints; the cast yields 0 below one and saturates above the int
      range, and the product wraps. `maxLevel` comes from `getMaxLevel` of
      positive dimensions, which lies in [0, 31]. */
  function GetTileSize(level: int, maxLevel: int): (r: int)
    requires 0 <= maxLevel <= 31
    ensures IsInt32(r)
    ensures level <= maxLevel && maxLevel - level <= 22 ==> r == Pow2(maxLevel - level) * BaseTile
    ensures level > maxLevel ==> r == 0
  {
    var quotient := if level > maxLevel then 0 else if maxLevel - level >= 31 then INT_MAX else Pow2(maxLevel - level);
    Pow2Small(maxLevel - level);
    Wrap32(quotient * BaseTile)
  }

  /** `getRegion(level, width, height, x, y)`, with `maxLevel` the value of
      `getMaxLevel(height, width)` (the only use the source makes of the
      dimensions): "full" up to level 8, else "startY,startX,sizeY,sizeX"
      for the tile in column `x` and row `y`, in Java ints; a first column
      or row is one pixel short. */
  function GetRegion(level: int, x: int, y: int, maxLevel: int): (r: string)
    requires 0 <= maxLevel <= 31
    ensures r == "full" <==> level <= WholeLevels
  {
    if level > WholeLevels then
      var tileSize := GetTileSize(level, maxLevel);
      var sizeX := if x == 0 then Wrap32(tileSize - 1) else tileSize;
      var sizeY := if y == 0 then Wrap32(tileSize - 1) else tileSize;
      IntToString(Wrap32(y * tileSize)) + "," + IntToString(Wrap32(x * tileSize)) + ","
        + IntToString(sizeY) + "," + IntToString(sizeX)
    else "full"
  }

  /** Powers of two up to 2^22 times 256 stay in the int range. */
  lemma Pow2Small(k: int)
    ensures 0 <= k <= 22 ==> Pow2(k) <= 0x40_0000
  {
    if 0 <= k <= 22 {
      Pow2Monotone(k, 22);
      Pow2Table();
    }
  }

  /** The tile side at a level above 8: a power of two times 256, at least
      256 and at most 2^30. */
  lemma TileSizeRange(level: int, maxLevel: int)
    requires WholeLevels < level <= maxLevel <= 31
    ensures GetTileSize(level, maxLevel) == Pow2(maxLevel - level) * BaseTile
    ensures BaseTile <= GetTileSize(level, maxLevel) <= 0x4000_0000
  {
    Pow2Monotone(maxLevel - level, 22);
    Pow2Table();
  }

  /** The scale and the tile size of a level multiply to 256 * 2^maxLevel:
      every level's tile covers the same part of the full image. */
  lemma ScaleTimesTile(level: int, maxLevel: int)
    requires 0 <= level <= maxLevel <= 22
    ensures GetScale(level) * GetTileSize(level, maxLevel) == Pow2(maxLevel) * BaseTile
  {
    Pow2Add(level, maxLevel - level);
    var a, b := Pow2(level), Pow2(maxLevel - level);
    assert GetScale(level) * GetTileSize(level, maxLevel) == a * (b * BaseTile);
    MulAssoc(a, b, BaseTile);
  }

  lemma MulAssoc(a: int, b: int, c: int)
    ensures a * (b * c) == (a * b) * c
  {
  }

  /** The parts of a file name: with no '_' in the level, region or scale,
      splitting on '_' gives back "image", the level, the region part, the
      scale part and the rotation with ".jpg". */
  lemma FileNameFields(level: Option<string>, region: Option<string>, scale: Option<string>, rotation: int)
    requires NoChar(NullableText(level), '_')
    requires region.Some? ==> NoChar(region.value, '_')
    requires scale.Some? ==> NoChar(scale.value, '_')
    ensures Split(GetFileName(level, region, scale, rotation), '_')
      == ["image", NullableText(level), FilePart(region), FilePart(scale), IntToString(rotation) + ".jpg"]
  {
    var ps := ["image", NullableText(level), FilePart(region), FilePart(scale), IntToString(rotation) + ".jpg"];
    Join5(ps[0], ps[1], ps[2], ps[3], ps[4], '_');
    assert GetFileName(level, region, scale, rotation) == Join(ps, '_');
    IntToStringNoChar(rotation, '_');
    assert NoChar(ps[4], '_');
    SplitJoin(ps, '_');
  }

  /** An empty region or scale names the same file as a missing one. */
  lemma FileNameEmptyIsFull(level: Option<string>, rotation: int)
    ensures GetFileName(level, Some(""), Some(""), rotation) == GetFileName(level, None, None, rotation)
    ensures FilePart(None) == "full"
  {
  }

  // ---------------------------------------------------------------------
  // The caching-query planner, loop by loop
  // ---------------------------------------------------------------------

  /** A query the planner adds: the whole image at a level up to 8, or the
      tile in column `x` and row `y` of a deeper level. */
  datatype Query = Whole(level: int) | Tile(level: int, x: int, y: int)

  /** The text the planner adds for a query: "/all/" + scale, or "/" +
      region + "/" + scale. */
  function QueryText(q: Query, maxLevel: int): string
    requires 0 <= maxLevel <= 31
  {
    match q
    case Whole(level) => "/all/" + IntToString(GetScale(level))
    case Tile(level, x, y) => "/" + GetRegion(level, x, y, maxLevel) + "/" + IntToString(GetScale(level))
  }

  function Texts(qs: seq<Query>, maxLevel: int): (r: seq<string>)
    requires 0 <= maxLevel <= 31
    ensures |r| == |qs|
    ensures forall i :: 0 <= i < |qs| ==> r[i] == QueryText(qs[i], maxLevel)
  {
    seq(|qs|, i requires 0 <= i < |qs| => QueryText(qs[i], maxLevel))
  }

  /** The inner `for (ySize ...)` loop of `getCachingQueries` with tile side
      `t`, from the state (y, ySize, list); yields the list and the row
      counter on exit. The counter is incremented before the exit test, as
      in the source. */
  function RowLoop(level: int, height: int, t: int, x: int, y: int, ySize: int, list: seq<Query>): (seq<Query>, int)
    requires 0 < t
    decreases height - ySize
  {
    if ySize > height then (list, y)
    else
      var q := Tile(level, x, y);
      var y' := y + 1;
      if y' * t > height + t then (list, y')
      else RowLoop(level, height, t, x, y', ySize + t, list + [q])
  }

  /** The outer `for (xSize ...)` loop at one level; the row counter `y` is
      declared in its initialiser and carried from column to column. */
  function ColumnLoop(level: int, width: int, height: int, t: int, x: int, xSize: int, y: int, list: seq<Query>): seq<Query>
    requires 0 < t
    decreases width - xSize
  {
    if xSize > width then list
    else if x * t > width + t then list
    else
      var (list', y') := RowLoop(level, height, t, x, y, 0, list);
      ColumnLoop(level, width, height, t, x + 1, xSize + t, y', list')
  }

  /** The level loop of `getCachingQueries`, from `level` on. */
  function LevelLoop(height: int, width: int, maxLevel: int, level: int, list: seq<Query>): seq<Query>
    requires 0 <= maxLevel <= 31 && 0 <= level
    decreases maxLevel + 1 - level
  {
    if level > maxLevel then list
    else if level <= WholeLevels then
      LevelLoop(height, width, maxLevel, level + 1, list + [Whole(level)])
    else
      TileSizeRange(level, maxLevel);
      LevelLoop(height, width, maxLevel, level + 1, ColumnLoop(level, width, height, GetTileSize(level, maxLevel), 0, 0, 0, list))
  }

  /** `getCachingQueries(height, width)`, with `maxLevel` the value of
      `getMaxLevel(height, width)`. */
  function GetCachingQueries(height: int, width: int, maxLevel: int): seq<string>
    requires 0 <= maxLevel <= 31
  {
    Texts(LevelLoop(height, width, maxLevel, 0, []), maxLevel)
  }

  // ---------------------------------------------------------------------
  // What the planner emits
  // ---------------------------------------------------------------------

  lemma DivFacts(h: int, t: int)
    requires 0 <= h && 0 < t
    ensures 0 <= h / t
    ensures (h / t) * t <= h < (h / t) * t + t
  {
  }

  lemma MulLe(a: int, b: int, t: int)
    requires a <= b && 0 <= t
    ensures a * t <= b * t
  {
  }

  lemma MulSucc(j: int, t: int)
    ensures (j + 1) * t == j * t + t
  {
  }

  /** The number of tiles of side `t` whose start lies inside an extent:
      `extent / t + 1`. */
  function TileCount(extent: int, t: int): (n: int)
    requires 0 <= extent && 0 < t
    ensures n >= 1
  {
    DivFacts(extent, t);
    extent / t + 1
  }

  /** A tile start j * t lies beyond the extent exactly from `TileCount` on. */
  lemma TileCountBound(extent: int, t: int, j: int)
    requires 0 <= extent && 0 < t && 0 <= j
    ensures j * t > extent <==> j >= TileCount(extent, t)
  {
    DivFacts(extent, t);
    var n := extent / t;
    if j >= n + 1 {
      MulLe(n + 1, j, t);
      MulSucc(n, t);
    } else {
      MulLe(j, n, t);
    }
  }

  /** The tiles of column `x`, rows `from` up to `n`. */
  function Column(level: int, x: int, from: nat, n: nat): (r: seq<Query>)
    requires from <= n
    ensures |r| == n - from
    ensures forall k :: 0 <= k < n - from ==> r[k] == Tile(level, x, from + k)
    decreases n - from
  {
    if from == n then [] else [Tile(level, x, from)] + Column(level, x, from + 1, n)
  }

  /** What one level contributes to the literal plan: the whole image up
      to level 8, and beyond that only the first column of tiles. */
  function LevelPlan(height: int, maxLevel: int, level: int): seq<Query>
    requires 0 <= maxLevel <= 31 && 0 <= level <= maxLevel && 0 <= height
  {
    if level <= WholeLevels then [Whole(level)]
    else
      TileSizeRange(level, maxLevel);
      Column(level, 0, 0, TileCount(height, GetTileSize(level, maxLevel)))
  }

  /** The plans of levels `from` up to `maxLevel`, in increasing order. */
  function PlanFrom(height: int, maxLevel: int, from: nat): seq<Query>
    requires 0 <= maxLevel <= 31 && 0 <= height
    decreases maxLevel + 1 - from
  {
    if from > maxLevel then [] else LevelPlan(height, maxLevel, from) + PlanFrom(height, maxLevel, from + 1)
  }

  /** One step of the row loop from a row j inside the image: it emits
      tile (x, j) and moves to row j + 1 one tile further down. */
  lemma RowStep(level: int, height: int, t: int, x: int, j: nat, list: seq<Query>)
    requires 0 <= height && 0 < t
    requires j < TileCount(height, t)
    ensures RowLoop(level, height, t, x, j, j * t, list)
      == RowLoop(level, height, t, x, j + 1, (j + 1) * t, list + [Tile(level, x, j)])
  {
    TileCountBound(height, t, j);
    TileCountBound(height, t, j + 1);
    MulSucc(j, t);
  }

  /** At row `TileCount` the row loop stops. */
  lemma RowStop(level: int, height: int, t: int, x: int, list: seq<Query>)
    requires 0 <= height && 0 < t
    ensures RowLoop(level, height, t, x, TileCount(height, t), TileCount(height, t) * t, list)
      == (list, TileCount(height, t))
  {
    TileCountBound(height, t, TileCount(height, t));
  }

  /** From row `j` with `ySize == j * t` inside the image, the row loop never
      breaks early: it emits rows j up to `TileCount` and leaves the counter
      there. */
  lemma {:induction false} RowLoopFull(level: int, height: int, t: int, x: int, j: nat, list: seq<Query>)
    requires 0 <= height && 0 < t
    requires j <= TileCount(height, t)
    ensures RowLoop(level, height, t, x, j, j * t, list)
      == (list + Column(level, x, j, TileCount(height, t)), TileCount(height, t))
    decreases TileCount(height, t) - j
  {
    var n := TileCount(height, t);
    if j < n {
      var q := Tile(level, x, j);
      RowStep(level, height, t, x, j, list);
      RowLoopFull(level, height, t, x, j + 1, list + [q]);
      assert list + [q] + Column(level, x, j + 1, n) == list + ([q] + Column(level, x, j + 1, n));
    } else {
      RowStop(level, height, t, x, list);
      assert Column(level, x, j, n) == [];
      assert list + [] == list;
    }
  }

  /** Once the counter has passed the last row, a column's row loop breaks
      at once, emitting nothing. */
  lemma RowLoopSpent(level: int, height: int, t: int, x: int, y: int, list: seq<Query>)
    requires 0 <= height && 0 < t
    requires y >= TileCount(height, t)
    ensures RowLoop(level, height, t, x, y, 0, list) == (list, y + 1)
  {
    TileCountBound(height, t, y);
    MulSucc(y, t);
  }

  /** After the first column, no later column adds anything. */
  lemma {:induction false} LaterColumnsEmpty(level: int, width: int, height: int, t: int, x: int, xSize: int, y: int, list: seq<Query>)
    requires 0 <= height && 0 < t
    requires y >= TileCount(height, t)
    ensures ColumnLoop(level, width, height, t, x, xSize, y, list) == list
    decreases width - xSize
  {
    if xSize <= width && x * t <= width + t {
      RowLoopSpent(level, height, t, x, y, list);
      LaterColumnsEmpty(level, width, height, t, x + 1, xSize + t, y + 1, list);
    }
  }

  /** At a level above 8 the literal loops emit exactly the first column. */
  lemma LevelTiles(level: int, width: int, height: int, t: int, list: seq<Query>)
    requires 0 <= height && 0 <= width && 0 < t
    ensures ColumnLoop(level, width, height, t, 0, 0, 0, list)
      == list + Column(level, 0, 0, TileCount(height, t))
  {
    var n := TileCount(height, t);
    RowLoopFull(level, height, t, 0, 0, list);
    var col := Column(level, 0, 0, n);
    LaterColumnsEmpty(level, width, height, t, 1, t, n, list + col);
    assert ColumnLoop(level, width, height, t, 0, 0, 0, list)
      == ColumnLoop(level, width, height, t, 1, t, n, list + col);
  }

  /** One level of the literal loop appends that level's plan. */
  lemma LevelStep(height: int, width: int, maxLevel: int, level: nat, list: seq<Query>)
    requires 0 <= maxLevel <= 31 && 0 <= height && 0 <= width && level <= maxLevel
    ensures LevelLoop(height, width, maxLevel, level, list)
      == LevelLoop(height, width, maxLevel, level + 1, list + LevelPlan(height, maxLevel, level))
  {
    if level > WholeLevels {
      TileSizeRange(level, maxLevel);
      LevelTiles(level, width, height, GetTileSize(level, maxLevel), list);
    }
  }

  /** The level loop from `level` appends the plans of the remaining levels. */
  lemma {:induction false} LevelLoopPlan(height: int, width: int, maxLevel: int, level: nat, list: seq<Query>)
    requires 0 <= maxLevel <= 31 && 0 <= height && 0 <= width
    ensures LevelLoop(height, width, maxLevel, level, list) == list + PlanFrom(height, maxLevel, level)
    decreases maxLevel + 1 - level
  {
    if level <= maxLevel {
      var step := LevelPlan(height, maxLevel, level);
      var rest := PlanFrom(height, maxLevel, level + 1);
      LevelStep(height, width, maxLevel, level, list);
      LevelLoopPlan(height, width, maxLevel, level + 1, list + step);
      Regroup(LevelLoop(height, width, maxLevel, level, list), LevelLoop(height, width, maxLevel, level + 1, list + step),
        list, step, rest, PlanFrom(height, maxLevel, level));
    }
  }

  /** Regrouping an equation chain that ends in a three-part concatenation. */
  lemma Regroup(a: seq<Query>, b: seq<Query>, list: seq<Query>, step: seq<Query>, rest: seq<Query>, whole: seq<Query>)
    requires a == b && b == list + step + rest && whole == step + rest
    ensures a == list + whole
  {
    assert list + step + rest == list + (step + rest);
  }

  /** `getCachingQueries` visits levels 0 to maxLevel in order: the whole
      image for each level up to 8, then for each deeper level the first
      column of tiles only, because the row counter is never reset. */
  lemma CachingQueriesPlan(height: int, width: int, maxLevel: int)
    requires 0 <= maxLevel <= 31 && 0 <= height && 0 <= width
    ensures GetCachingQueries(height, width, maxLevel) == Texts(PlanFrom(height, maxLevel, 0), maxLevel)
  {
    LevelLoopPlan(height, width, maxLevel, 0, []);
  }

  /** With maxLevel at most 8 the plan is the whole image at every level. */
  lemma {:induction false} ShallowPlan(height: int, maxLevel: int, from: nat)
    requires 0 <= maxLevel <= WholeLevels && 0 <= height && from <= maxLevel + 1
    ensures |PlanFrom(height, maxLevel, from)| == maxLevel + 1 - from
    ensures forall i :: 0 <= i < maxLevel + 1 - from ==> PlanFrom(height, maxLevel, from)[i] == Whole(from + i)
    decreases maxLevel + 1 - from
  {
    if from <= maxLevel {
      ShallowPlan(height, maxLevel, from + 1);
      var rest := PlanFrom(height, maxLevel, from + 1);
      var p := PlanFrom(height, maxLevel, from);
      assert p == [Whole(from)] + rest;
      forall i | 0 <= i < maxLevel + 1 - from
        ensures p[i] == Whole(from + i)
      {
        if i > 0 {
          assert p[i] == rest[i - 1];
        }
      }
    }
  }

  /** The text of a whole-image query is "/all/" followed by 2^level. */
  lemma WholeText(level: int, maxLevel: int)
    requires 0 <= level <= 30 && 0 <= maxLevel <= 31
    ensures QueryText(Whole(level), maxLevel) == "/all/" + IntToString(Pow2(level))
  {
  }

  // ---------------------------------------------------------------------
  // The planner with the row counter reset per column
  // ---------------------------------------------------------------------

  /** The outer loop with `y` declared inside it, so every column starts at
      row 0. */
  function GridColumnLoop(level: int, width: int, height: int, t: int, x: int, xSize: int, list: seq<Query>): seq<Query>
    requires 0 < t
    decreases width - xSize
  {
    if xSize > width then list
    else if x * t > width + t then list
    else
      var (list', _) := RowLoop(level, height, t, x, 0, 0, list);
      GridColumnLoop(level, width, height, t, x + 1, xSize + t, list')
  }

  /** The level loop of the corrected planner. */
  function GridLevelLoop(height: int, width: int, maxLevel: int, level: int, list: seq<Query>): seq<Query>
    requires 0 <= maxLevel <= 31 && 0 <= level
    decreases maxLevel + 1 - level
  {
    if level > maxLevel then list
    else if level <= WholeLevels then
      GridLevelLoop(height, width, maxLevel, level + 1, list + [Whole(level)])
    else
      TileSizeRange(level, maxLevel);
      GridLevelLoop(height, width, maxLevel, level + 1, GridColumnLoop(level, width, height, GetTileSize(level, maxLevel), 0, 0, list))
  }

  /** The corrected `getCachingQueries`. */
  function GetCachingQueriesGrid(height: int, width: int, maxLevel: int): seq<string>
    requires 0 <= maxLevel <= 31
  {
    Texts(GridLevelLoop(height, width, maxLevel, 0, []), maxLevel)
  }

  /** Columns `from` up to `m`, each with all of its `n` rows. */
  function Grid(level: int, n: nat, from: nat, m: nat): seq<Query>
    requires from <= m
    decreases m - from
  {
    if from == m then [] else Column(level, from, 0, n) + Grid(level, n, from + 1, m)
  }

  /** The corrected column loop emits every column whose start lies inside
      the image, each with all its rows. */
  lemma {:induction false} GridColumns(level: int, width: int, height: int, t: int, x: nat, list: seq<Query>)
    requires 0 <= height && 0 <= width && 0 < t
    requires x <= TileCount(width, t)
    ensures GridColumnLoop(level, width, height, t, x, x * t, list)
      == list + Grid(level, TileCount(height, t), x, TileCount(width, t))
    decreases TileCount(width, t) - x
  {
    var m := TileCount(width, t);
    var n := TileCount(height, t);
    TileCountBound(width, t, x);
    if x < m {
      var col := Column(level, x, 0, n);
      MulSucc(x, t);
      RowLoopFull(level, height, t, x, 0, list);
      assert GridColumnLoop(level, width, height, t, x, x * t, list)
        == GridColumnLoop(level, width, height, t, x + 1, (x + 1) * t, list + col);
      GridColumns(level, width, height, t, x + 1, list + col);
      assert list + col + Grid(level, n, x + 1, m) == list + (col + Grid(level, n, x + 1, m));
    }
  }

  lemma {:induction false} GridContains(level: int, n: nat, from: nat, m: nat, x: nat, y: nat)
    requires from <= x < m && y < n
    ensures Tile(level, x, y) in Grid(level, n, from, m)
    decreases m - from
  {
    if x == from {
      assert Column(level, from, 0, n)[y] == Tile(level, x, y);
    } else {
      GridContains(level, n, from + 1, m, x, y);
    }
  }

  /** Every tile of the literal plan lies in column 0. */
  lemma {:induction false} PlanFirstColumn(height: int, maxLevel: int, from: nat)
    requires 0 <= maxLevel <= 31 && 0 <= height
    ensures forall q :: q in PlanFrom(height, maxLevel, from) && q.Tile? ==> q.x == 0
    decreases maxLevel + 1 - from
  {
    if from <= maxLevel {
      PlanFirstColumn(height, maxLevel, from + 1);
      var here := LevelPlan(height, maxLevel, from);
      var rest := PlanFrom(height, maxLevel, from + 1);
      LevelPlanFirstColumn(height, maxLevel, from);
      forall q: Query | q in here + rest && q.Tile?
        ensures q.x == 0
      {
        assert q in here || q in rest;
      }
    }
  }

  lemma LevelPlanFirstColumn(height: int, maxLevel: int, level: int)
    requires 0 <= maxLevel <= 31 && 0 <= height && 0 <= level <= maxLevel
    ensures forall q :: q in LevelPlan(height, maxLevel, level) && q.Tile? ==> q.x == 0
  {
    if level > WholeLevels {
      TileSizeRange(level, maxLevel);
      var col := Column(level, 0, 0, TileCount(height, GetTileSize(level, maxLevel)));
      forall q: Query | q in col
        ensures q.Tile? && q.x == 0
      {
        var k :| 0 <= k < |col| && col[k] == q;
      }
    }
  }

  /** `getCachingQueries` as written never asks for a tile outside column 0,
      whatever the image's width. */
  lemma CachingQueriesFirstColumnOnly(height: int, width: int, maxLevel: int)
    requires 0 <= maxLevel <= 31 && 0 <= height && 0 <= width
    ensures forall q :: q in LevelLoop(height, width, maxLevel, 0, []) && q.Tile? ==> q.x == 0
  {
    LevelLoopPlan(height, width, maxLevel, 0, []);
    PlanFirstColumn(height, maxLevel, 0);
  }

  /** The row loop only appends. */
  lemma {:induction false} RowLoopExtends(level: int, height: int, t: int, x: int, y: int, ySize: int, list: seq<Query>)
    requires 0 < t
    ensures list <= RowLoop(level, height, t, x, y, ySize, list).0
    decreases height - ySize
  {
    if ySize <= height && (y + 1) * t <= height + t {
      RowLoopExtends(level, height, t, x, y + 1, ySize + t, list + [Tile(level, x, y)]);
    }
  }

  /** The corrected column loop only appends. */
  lemma {:induction false} GridColumnLoopExtends(level: int, width: int, height: int, t: int, x: int, xSize: int, list: seq<Query>)
    requires 0 < t
    ensures list <= GridColumnLoop(level, width, height, t, x, xSize, list)
    decreases width - xSize
  {
    if xSize <= width && x * t <= width + t {
      var (list', _) := RowLoop(level, height, t, x, 0, 0, list);
      RowLoopExtends(level, height, t, x, 0, 0, list);
      GridColumnLoopExtends(level, width, height, t, x + 1, xSize + t, list');
    }
  }

  /** The corrected level loop only appends. */
  lemma {:induction false} GridLevelLoopExtends(height: int, width: int, maxLevel: int, level: nat, list: seq<Query>)
    requires 0 <= maxLevel <= 31
    ensures list <= GridLevelLoop(height, width, maxLevel, level, list)
    decreases maxLevel + 1 - level
  {
    if level <= maxLevel {
      if level <= WholeLevels {
        GridLevelLoopExtends(height, width, maxLevel, level + 1, list + [Whole(level)]);
      } else {
        TileSizeRange(level, maxLevel);
        var t := GetTileSize(level, maxLevel);
        GridColumnLoopExtends(level, width, height, t, 0, 0, list);
        GridLevelLoopExtends(height, width, maxLevel, level + 1, GridColumnLoop(level, width, height, t, 0, 0, list));
      }
    }
  }

  /** A query placed at or after level `from` by the corrected loop stays
      in its result. */
  lemma {:induction false} GridLevelLoopReaches(height: int, width: int, maxLevel: int, from: nat, level: int, x: nat, y: nat, list: seq<Query>)
    requires 0 <= maxLevel <= 31 && 0 <= height && 0 <= width
    requires WholeLevels < level <= maxLevel && from <= level
    requires x < TileCount(width, GetTileSize(level, maxLevel)) && y < TileCount(height, GetTileSize(level, maxLevel))
    ensures Tile(level, x, y) in GridLevelLoop(height, width, maxLevel, from, list)
    decreases level - from
  {
    if from < level {
      if from <= WholeLevels {
        GridLevelLoopReaches(height, width, maxLevel, from + 1, level, x, y, list + [Whole(from)]);
      } else {
        TileSizeRange(from, maxLevel);
        GridLevelLoopReaches(height, width, maxLevel, from + 1, level, x, y,
          GridColumnLoop(from, width, height, GetTileSize(from, maxLevel), 0, 0, list));
      }
    } else {
      var t := GetTileSize(level, maxLevel);
      var list' := GridColumnLoop(level, width, height, t, 0, 0, list);
      GridColumns(level, width, height, t, 0, list);
      GridContains(level, TileCount(height, t), 0, TileCount(width, t), x, y);
      assert Tile(level, x, y) in list';
      GridLevelLoopExtends(height, width, maxLevel, level + 1, list');
    }
  }

  /** The corrected planner asks, at every level above 8, for every tile
      whose row and column starts lie inside the image. */
  lemma GridCoversImage(height: int, width: int, maxLevel: int, level: int, x: nat, y: nat)
    requires 0 <= maxLevel <= 31 && 0 <= height && 0 <= width
    requires WholeLevels < level <= maxLevel
    requires x < TileCount(width, GetTileSize(level, maxLevel)) && y < TileCount(height, GetTileSize(level, maxLevel))
    ensures Tile(level, x, y) in GridLevelLoop(height, width, maxLevel, 0, [])
  {
    GridLevelLoopReaches(height, width, maxLevel, 0, level, x, y, []);
  }

  /** The literal planner misses tiles the corrected one asks for: once the
      image is at least one tile wide at a level above 8, the tile in
      column 1, row 0 of that level is never queried. */
  lemma MissesSecondColumn(height: int, width: int, maxLevel: int, level: int)
    requires 0 <= maxLevel <= 31 && 0 <= height
    requires WholeLevels < level <= maxLevel && GetTileSize(level, maxLevel) <= width
    ensures Tile(level, 1, 0) in GridLevelLoop(height, width, maxLevel, 0, [])
    ensures Tile(level, 1, 0) !in LevelLoop(height, width, maxLevel, 0, [])
  {
    TileSizeRange(level, maxLevel);
    TileCountBound(width, GetTileSize(level, maxLevel), 1);
    GridCoversImage(height, width, maxLevel, level, 1, 0);
    CachingQueriesFirstColumnOnly(height, width, maxLevel);
  }

  /** The box a tile region names, as the region parser orders the fields:
      the row start first and the column start second. */
  function TileBox(level: int, x: nat, y: nat, maxLevel: int): (r: RegionParam.Region)
    requires WholeLevels < level <= maxLevel <= 31
    ensures !r.full && !r.percent
  {
    var t := GetTileSize(level, maxLevel);
    RegionParam.Region(false, false, y * t, x * t, if y == 0 then t - 1 else t, if x == 0 then t - 1 else t)
  }

  /** A tile region's text, field by field, when the starts are ints. */
  lemma RegionFields(level: int, x: nat, y: nat, maxLevel: int)
    requires WholeLevels < level <= maxLevel <= 31
    requires IsInt32(x * GetTileSize(level, maxLevel)) && IsInt32(y * GetTileSize(level, maxLevel))
    ensures GetRegion(level, x, y, maxLevel) == RegionParam.ToString(TileBox(level, x, y, maxLevel))
  {
    TileSizeRange(level, maxLevel);
    var t := GetTileSize(level, maxLevel);
    var sx, sy := x * t, y * t;
    assert Wrap32(sy) == sy && Wrap32(sx) == sx;
    assert Wrap32(t - 1) == t - 1;
    PrintedTile(TileBox(level, x, y, maxLevel));
  }

  /** The box of a tile whose starts are ints is one the parser accepts. */
  lemma TileBoxValid(level: int, x: nat, y: nat, maxLevel: int)
    requires WholeLevels < level <= maxLevel <= 31
    requires IsInt32(x * GetTileSize(level, maxLevel)) && IsInt32(y * GetTileSize(level, maxLevel))
    ensures var b := TileBox(level, x, y, maxLevel);
      RegionParam.ValidBox(false, b.x, b.y, b.width, b.height)
  {
    TileSizeRange(level, maxLevel);
  }

  lemma PrintedTile(r: RegionParam.Region)
    requires !r.full && !r.percent
    ensures RegionParam.ToString(r) == RegionParam.BoxText(r)
  {
    assert RegionParam.ToString(r) == "" + RegionParam.BoxText(r);
  }

  /** A tile region of the planner reads, under the IIIF region syntax, as
      the tile's pixel box: its row start lands in the x field and its
      column start in the y field. */
  lemma TileRegionParses(level: int, maxLevel: int, x: nat, y: nat)
    requires WholeLevels < level <= maxLevel <= 31
    requires IsInt32(x * GetTileSize(level, maxLevel)) && IsInt32(y * GetTileSize(level, maxLevel))
    ensures RegionParam.Parse(GetRegion(level, x, y, maxLevel)) == Ok(TileBox(level, x, y, maxLevel))
  {
    RegionFields(level, x, y, maxLevel);
    TileBoxValid(level, x, y, maxLevel);
    RegionParam.ParsePrinted(TileBox(level, x, y, maxLevel));
  }
}

=== FILE: identifier_resolver.dfy ===
/** `IdentifierResolver`: turns a request into an image identifier by
    trying the configured id patterns in order, then finds the image in the
    local Pairtree store or, failing that, on the configured hosts in order.
    Regular-expression matching, the JDK's URL codec, URL formatting, the
    Pairtree lookup and the migrator's fetch-and-convert are parameters. */
module Resolver {
  import opened Wrappers
  import opened IIIFError
  import UrlEncode

  /** What `pattern.matcher(s)` reports: whether the whole string matches,
      the number of capturing groups, and the text of group 1. */
  datatype MatchResult = MatchResult(matches: bool, groupCount: int, group1: string)

  /** The JDK and regex collaborators of `extractID`. `decode` is
      `URLDecoder.decode`, whose `Err` is the `IllegalArgumentException` it
      throws on a malformed escape ("%zz", or a '%' too near the end), with
      its message. */
  datatype Codec = Codec(
    matcher: (string, string) -> MatchResult,
    decode: string -> Result<string, string>,
    encode: string -> string)

  predicate Accepts(m: MatchResult) {
    m.matches && m.groupCount > 0
  }

  /** The loop of `extractID` over the patterns, on already decoded text. */
  function FirstMatch(patterns: seq<string>, s: string, c: Codec): (r: Option<string>)
    ensures r.None? <==> forall i :: 0 <= i < |patterns| ==> !Accepts(c.matcher(patterns[i], s))
    ensures r.Some? ==> exists i :: (0 <= i < |patterns| && FirstAcceptedAt(patterns, s, c, i)
      && r.value == c.encode(c.matcher(patterns[i], s).group1))
  {
    if |patterns| == 0 then None
    else if Accepts(c.matcher(patterns[0], s)) then
      assert FirstAcceptedAt(patterns, s, c, 0);
      Some(c.encode(c.matcher(patterns[0], s).group1))
    else
      ShiftPatterns(patterns, s, c);
      FirstMatch(patterns[1..], s, c)
  }

  /** Acceptance by pattern i of the tail is acceptance by pattern i + 1,
      when the head rejects. */
  lemma ShiftPatterns(patterns: seq<string>, s: string, c: Codec)
    requires |patterns| > 0 && !Accepts(c.matcher(patterns[0], s))
    ensures forall i :: 0 <= i < |patterns| - 1 ==> patterns[1..][i] == patterns[i + 1]
    ensures forall i :: 0 <= i < |patterns| - 1 && FirstAcceptedAt(patterns[1..], s, c, i) ==> FirstAcceptedAt(patterns, s, c, i + 1)
  {
    forall i | 0 <= i < |patterns| - 1 && FirstAcceptedAt(patterns[1..], s, c, i)
      ensures FirstAcceptedAt(patterns, s, c, i + 1)
    {
      forall j | 0 <= j < i + 1
        ensures !Accepts(c.matcher(patterns[j], s))
      {
        if j > 0 {
          assert patterns[j] == patterns[1..][j - 1];
        }
      }
    }
  }

  /** Pattern `i` accepts the text and no earlier one does. */
  ghost predicate FirstAcceptedAt(patterns: seq<string>, s: string, c: Codec, i: int)
    requires 0 <= i < |patterns|
  {
    Accepts(c.matcher(patterns[i], s))
      && forall j :: 0 <= j < i ==> !Accepts(c.matcher(patterns[j], s))
  }

  /** The text the patterns see: path-safety decoding, then URL decoding,
      which may fail. */
  function DecodedRequest(request: string, c: Codec): Result<string, string> {
    c.decode(UrlEncode.PathSafetyDecode(request))
  }

  /** `extractID(request)`; `Ok(None)` stands for Java's null. A failed
      decoding escapes as an unchecked exception: `URLEncode.decode`
      catches only `UnsupportedEncodingException`. */
  function ExtractId(request: string, patterns: seq<string>, c: Codec): (r: Result<Option<string>, Failure>)
    ensures r.Err? <==> DecodedRequest(request, c).Err?
    ensures r.Err? ==> r.error == Runtime(DecodedRequest(request, c).error)
    ensures r.Ok? ==> var text := DecodedRequest(request, c).value;
      (r.value.None? <==> forall i :: 0 <= i < |patterns| ==> !Accepts(c.matcher(patterns[i], text)))
    ensures r.Ok? && r.value.Some? ==> var text := DecodedRequest(request, c).value;
      exists i :: (0 <= i < |patterns| && FirstAcceptedAt(patterns, text, c, i)
        && r.value.value == c.encode(c.matcher(patterns[i], text).group1))
  {
    match DecodedRequest(request, c)
    case Err(m) => Err(Runtime(m))
    case Ok(text) => Ok(FirstMatch(patterns, text, c))
  }

  /** Only the decoded text matters: two requests that decode alike yield
      the same identifier. */
  lemma ExtractSeesDecodedText(r1: string, r2: string, patterns: seq<string>, c: Codec)
    requires DecodedRequest(r1, c) == DecodedRequest(r2, c)
    ensures ExtractId(r1, patterns, c) == ExtractId(r2, patterns, c)
  {
  }

  /** The first accepting pattern decides, whatever the later ones say. */
  lemma {:induction false} FirstMatchIsFirst(patterns: seq<string>, s: string, c: Codec, i: int)
    requires 0 <= i < |patterns| && FirstAcceptedAt(patterns, s, c, i)
    ensures FirstMatch(patterns, s, c) == Some(c.encode(c.matcher(patterns[i], s).group1))
  {
    if i > 0 {
      assert !Accepts(c.matcher(patterns[0], s));
      assert FirstAcceptedAt(patterns[1..], s, c, i - 1) by {
        forall j | 0 <= j < i - 1
          ensures !Accepts(c.matcher(patterns[1..][j], s))
        {
          assert patterns[1..][j] == patterns[j + 1];
        }
      }
      FirstMatchIsFirst(patterns[1..], s, c, i - 1);
    }
  }

  // ---------------------------------------------------------------------
  // Looking up the image
  // ---------------------------------------------------------------------

  datatype ImageRecord = ImageRecord(identifier: string, imageFile: string)

  /** A file the migrator produced: its absolute path and its length. */
  datatype Converted = Converted(path: string, length: int)

  /** The storage collaborators of `getImageRecordForId`: the Pairtree
      lookup of `getCachedImage`, `StringUtils.format`, whether `new URI`
      accepts a text, and `migrator.convert`, whose `None` is an exception.
      `cachedNull` is what `getCachedImage(null)` gives: it depends on how
      the Pairtree library treats a null identifier. */
  datatype Storage = Storage(
    cached: string -> Option<ImageRecord>,
    cachedNull: Result<Option<ImageRecord>, Failure>,
    format: (string, string) -> string,
    validUri: string -> bool,
    convert: (string, string) -> Option<Converted>)

  /** The state a lookup reads and writes: the memo of fetched images and
      the migrator's processing list. */
  datatype Lookup = Lookup(remoteImages: map<string, ImageRecord>, processing: set<string>)

  /** `getRemoteImage(id, url)`. An id still being processed is served from
      the memo when present (the polling wait is not modelled); otherwise
      the file is converted, and kept in the memo only when it is not
      empty; an empty file or any exception gives `None`. */
  function RemoteImage(id: string, url: string, st: Lookup, io: Storage): (r: (Option<ImageRecord>, Lookup))
    ensures r.1.processing == st.processing
    ensures r.0.None? ==> r.1 == st
    ensures r.0.Some? && id in st.processing && id in st.remoteImages ==> r == (Some(st.remoteImages[id]), st)
    ensures r.0.Some? && !(id in st.processing && id in st.remoteImages) ==>
      r.0.value.identifier == id && r.1.remoteImages == st.remoteImages[id := r.0.value]
  {
    if !io.validUri(url) then (None, st)
    else if id in st.processing && id in st.remoteImages then (Some(st.remoteImages[id]), st)
    else match io.convert(id, url)
      case None => (None, st)
      case Some(file) =>
        var image := ImageRecord(id, file.path);
        if file.length > 0 then (Some(image), st.(remoteImages := st.remoteImages[id := image]))
        else (None, st)
  }

  /** A converted file of length zero is a failure and is not memoised. */
  lemma EmptyFileNotMemoised(id: string, url: string, st: Lookup, io: Storage)
    requires io.validUri(url) && !(id in st.processing && id in st.remoteImages)
    requires io.convert(id, url).Some? && io.convert(id, url).value.length <= 0
    ensures RemoteImage(id, url, st, io) == (None, st)
  {
  }

  /** The URL the resolver tries for host pattern `host`, given the
      decoded identifier `text`. */
  function HostUrl(host: string, text: string, io: Storage): string {
    io.format(host, text)
  }

  /** The host loop of `getImageRecordForId`: hosts in configured order,
      the first record found wins. */
  function TryHosts(id: string, text: string, hosts: seq<string>, st: Lookup, io: Storage): (r: (Option<ImageRecord>, Lookup))
    ensures r.0.None? <==> forall i :: 0 <= i < |hosts| ==> RemoteImage(id, HostUrl(hosts[i], text, io), st, io).0.None?
    ensures r.0.None? ==> r.1 == st
    ensures r.0.Some? ==> exists i :: (0 <= i < |hosts| && FirstFoundAt(id, text, hosts, st, io, i)
      && r == RemoteImage(id, HostUrl(hosts[i], text, io), st, io))
  {
    if |hosts| == 0 then (None, st)
    else
      var first := RemoteImage(id, HostUrl(hosts[0], text, io), st, io);
      if first.0.Some? then
        assert FirstFoundAt(id, text, hosts, st, io, 0);
        first
      else
        ShiftHosts(id, text, hosts, st, io);
        TryHosts(id, text, hosts[1..], st, io)
  }

  /** Host i is the first whose fetch yields a record. */
  ghost predicate FirstFoundAt(id: string, text: string, hosts: seq<string>, st: Lookup, io: Storage, i: int)
    requires 0 <= i < |hosts|
  {
    RemoteImage(id, HostUrl(hosts[i], text, io), st, io).0.Some?
      && forall j :: 0 <= j < i ==> RemoteImage(id, HostUrl(hosts[j], text, io), st, io).0.None?
  }

  lemma ShiftHosts(id: string, text: string, hosts: seq<string>, st: Lookup, io: Storage)
    requires |hosts| > 0 && RemoteImage(id, HostUrl(hosts[0], text, io), st, io).0.None?
    ensures forall i :: 0 <= i < |hosts| - 1 ==> hosts[1..][i] == hosts[i + 1]
    ensures forall i :: 0 <= i < |hosts| - 1 && FirstFoundAt(id, text, hosts[1..], st, io, i) ==> FirstFoundAt(id, text, hosts, st, io, i + 1)
  {
    forall i | 0 <= i < |hosts| - 1 && FirstFoundAt(id, text, hosts[1..], st, io, i)
      ensures FirstFoundAt(id, text, hosts, st, io, i + 1)
    {
      forall j | 0 <= j < i + 1
        ensures RemoteImage(id, HostUrl(hosts[j], text, io), st, io).0.None?
      {
        if j > 0 {
          assert hosts[j] == hosts[1..][j - 1];
        }
      }
    }
  }

  /** A record lookup: a record, none (Java's null), or an unchecked
      exception. */
  type Found = Result<Option<ImageRecord>, Failure>

  /** `getImageRecordForId(id)`: the local Pairtree copy first, then the
      hosts. The identifier is URL-decoded once per host, outside the
      fetch's `catch`, so a decoding failure escapes at the first host. */
  function ImageRecordForId(id: string, hosts: seq<string>, st: Lookup, io: Storage, c: Codec): (r: (Found, Lookup))
    ensures io.cached(id).Some? ==> r == (Ok(io.cached(id)), st)
    ensures io.cached(id).None? && |hosts| == 0 ==> r == (Ok(None), st)
    ensures io.cached(id).None? && |hosts| > 0 && c.decode(id).Err? ==>
      r == (Err(Runtime(c.decode(id).error)), st)
    ensures io.cached(id).None? && |hosts| > 0 && c.decode(id).Ok? ==>
      var t := TryHosts(id, c.decode(id).value, hosts, st, io);
      r == (Ok(t.0), t.1)
    ensures r.0.Err? ==> r.1 == st
  {
    if io.cached(id).Some? then (Ok(io.cached(id)), st)
    else if |hosts| == 0 then (Ok(None), st)
    else match c.decode(id)
      case Err(m) => (Err(Runtime(m)), st)
      case Ok(text) =>
        var t := TryHosts(id, text, hosts, st, io);
        (Ok(t.0), t.1)
  }

  /** `getImageRecordForId(null)`: the Pairtree's answer, and when it has
      none, a `NullPointerException` from decoding the null identifier at
      the first host. */
  function NullRecord(hosts: seq<string>, io: Storage): (r: Found)
    ensures io.cachedNull.Err? || io.cachedNull.value.Some? ==> r == io.cachedNull
    ensures io.cachedNull == Ok(None) ==> (r.Err? <==> |hosts| > 0) && (r.Ok? ==> r.value.None?)
  {
    if io.cachedNull != Ok(None) then io.cachedNull
    else if |hosts| == 0 then Ok(None)
    else Err(Runtime("NullPointerException"))
  }

  /** `getImageRecord(request)`: nothing is looked up when no pattern
      yields an identifier, and a decoding failure escapes. */
  function GetImageRecord(request: string, patterns: seq<string>, hosts: seq<string>, st: Lookup, io: Storage, c: Codec): (r: (Found, Lookup))
    ensures ExtractId(request, patterns, c).Err? ==> r == (Err(ExtractId(request, patterns, c).error), st)
    ensures ExtractId(request, patterns, c) == Ok(None) ==> r == (Ok(None), st)
    ensures ExtractId(request, patterns, c).Ok? && ExtractId(request, patterns, c).value.Some? ==>
      r == ImageRecordForId(ExtractId(request, patterns, c).value.value, hosts, st, io, c)
  {
    match ExtractId(request, patterns, c)
    case Err(e) => (Err(e), st)
    case Ok(None) => (Ok(None), st)
    case Ok(Some(id)) => ImageRecordForId(id, hosts, st, io, c)
  }

  const SC_OK: int := 200
  const SC_ACCEPTED: int := 202
  const SC_NOT_FOUND: int := 404

  /** `getStatus(referentId)`: the identifier is extracted from the
      referent and looked up even when it is null; 200 when a record
      resolves, else 202 while the identifier is being processed, else 404.
      The memo as the lookup left it is returned with the code. */
  function GetStatus(referent: string, patterns: seq<string>, hosts: seq<string>, st: Lookup, io: Storage, c: Codec): (r: (Result<int, Failure>, Lookup))
    ensures r.0.Ok? ==> r.0.value in {SC_OK, SC_ACCEPTED, SC_NOT_FOUND}
    ensures r.1.processing == st.processing
    ensures ExtractId(referent, patterns, c).Err? ==> r == (Err(ExtractId(referent, patterns, c).error), st)
    ensures ExtractId(referent, patterns, c) == Ok(None) ==>
      && r.1 == st
      && (r.0.Err? <==> NullRecord(hosts, io).Err?)
      && (r.0 == Ok(SC_OK) <==> NullRecord(hosts, io).Ok? && NullRecord(hosts, io).value.Some?)
      && r.0 != Ok(SC_ACCEPTED)
    ensures ExtractId(referent, patterns, c).Ok? && ExtractId(referent, patterns, c).value.Some? ==>
      var id := ExtractId(referent, patterns, c).value.value;
      var found := ImageRecordForId(id, hosts, st, io, c);
      && r.1 == found.1
      && (r.0.Err? <==> found.0.Err?)
      && (r.0 == Ok(SC_OK) <==> found.0.Ok? && found.0.value.Some?)
      && (r.0 == Ok(SC_ACCEPTED) <==> found.0 == Ok(None) && id in st.processing)
  {
    match ExtractId(referent, patterns, c)
    case Err(e) => (Err(e), st)
    case Ok(None) =>
      (match NullRecord(hosts, io)
       case Err(e) => (Err(e), st)
       case Ok(Some(_)) => (Ok(SC_OK), st)
       case Ok(None) => (Ok(SC_NOT_FOUND), st))
    case Ok(Some(id)) =>
      var found := ImageRecordForId(id, hosts, st, io, c);
      match found.0
      case Err(e) => (Err(e), found.1)
      case Ok(Some(_)) => (Ok(SC_OK), found.1)
      case Ok(None) => (Ok(if id in found.1.processing then SC_ACCEPTED else SC_NOT_FOUND), found.1)
  }

  /** A local hit is returned without trying any host and without touching
      the memo, and its status is 200. */
  lemma LocalFirst(referent: string, patterns: seq<string>, hosts: seq<string>, st: Lookup, io: Storage, c: Codec)
    requires ExtractId(referent, patterns, c).Ok? && ExtractId(referent, patterns, c).value.Some?
    requires io.cached(ExtractId(referent, patterns, c).value.value).Some?
    ensures var id := ExtractId(referent, patterns, c).value.value;
      ImageRecordForId(id, hosts, st, io, c) == (Ok(io.cached(id)), st)
    ensures GetStatus(referent, patterns, hosts, st, io, c) == (Ok(SC_OK), st)
  {
  }

  /** A memoised image is used only while its id is on the processing list:
      otherwise the host is fetched again. */
  lemma MemoOnlyWhileProcessing(id: string, url: string, st: Lookup, io: Storage)
    requires io.validUri(url) && id in st.remoteImages && id !in st.processing
    ensures RemoteImage(id, url, st, io).0.Some? <==>
      io.convert(id, url).Some? && io.convert(id, url).value.length > 0
  {
  }

  /** A successful lookup leaves a record for the same id in the memo
      unless it came from the Pairtree store. */
  lemma {:induction false} FoundIsMemoised(id: string, hosts: seq<string>, st: Lookup, io: Storage, c: Codec)
    requires io.cached(id).None?
    requires ImageRecordForId(id, hosts, st, io, c).0.Ok? && ImageRecordForId(id, hosts, st, io, c).0.value.Some?
    ensures var r := ImageRecordForId(id, hosts, st, io, c);
      id in r.1.remoteImages && r.1.remoteImages[id] == r.0.value.value
  {
    var text := c.decode(id).value;
    var r := TryHosts(id, text, hosts, st, io);
    var i :| 0 <= i < |hosts| && FirstFoundAt(id, text, hosts, st, io, i)
      && r == RemoteImage(id, HostUrl(hosts[i], text, io), st, io);
  }

  /** A malformed escape in the request makes every lookup and status
      query fail with the decoder's exception, before any pattern is
      tried. */
  lemma MalformedRequestThrows(request: string, patterns: seq<string>, hosts: seq<string>, st: Lookup, io: Storage, c: Codec)
    requires DecodedRequest(request, c).Err?
    ensures GetImageRecord(request, patterns, hosts, st, io, c) == (Err(Runtime(DecodedRequest(request, c).error)), st)
    ensures GetStatus(request, patterns, hosts, st, io, c) == (Err(Runtime(DecodedRequest(request, c).error)), st)
  {
  }
}

=== FILE: iiif_exception.dfy ===
/** `IIIFException`: an exception that also carries the HTTP status code and,
    optionally, a short message for the error page served to the client. */
module IIIFError {
  import opened Wrappers

  /** `HttpServletResponse.SC_BAD_REQUEST`, the default code. */
  const SC_BAD_REQUEST: int := 400

  /** The exception's state: its HTTP code, the explicit HTTP-page message
      (`null` unless set), and the ordinary exception message (`null` for the
      no-argument constructor). A cause, when given, is not modelled. */
  datatype IIIFException = IIIFException(httpCode: int, httpMessage: Option<string>, message: Option<string>)

  /** `IIIFException()`. */
  function NoMessage(): (e: IIIFException)
    ensures e.httpCode == SC_BAD_REQUEST && e.httpMessage.None? && e.message.None?
  {
    IIIFException(SC_BAD_REQUEST, None, None)
  }

  /** `IIIFException(String)` and `IIIFException(String, Exception)`. */
  function WithMessage(aMessage: string): (e: IIIFException)
    ensures e.httpCode == SC_BAD_REQUEST && e.httpMessage.None? && e.message == Some(aMessage)
  {
    IIIFException(SC_BAD_REQUEST, None, Some(aMessage))
  }

  /** `IIIFException(int, String)` and `IIIFException(int, String, Exception)`. */
  function WithCode(httpCode: int, aMessage: string): (e: IIIFException)
    ensures e.httpCode == httpCode && e.httpMessage.None? && e.message == Some(aMessage)
  {
    IIIFException(httpCode, None, Some(aMessage))
  }

  /** `IIIFException(int, String httpMessage, String)`. */
  function WithHttpMessage(httpCode: int, httpMessage: string, aMessage: string): (e: IIIFException)
    ensures e.httpCode == httpCode && e.httpMessage == Some(httpMessage) && e.message == Some(aMessage)
  {
    IIIFException(httpCode, Some(httpMessage), Some(aMessage))
  }

  /** `getHttpMessage`: the explicit HTTP message if one was set, otherwise
      the exception message. */
  function HttpMessage(e: IIIFException): Option<string> {
    if e.httpMessage.Some? then e.httpMessage else e.message
  }

  /** `getPair`: the code together with `getHttpMessage()`. */
  function Pair(e: IIIFException): (int, Option<string>) {
    (e.httpCode, HttpMessage(e))
  }

  /** What a client sees for each constructor: the page message is the
      explicit one only for the three-argument form, the detailed message
      otherwise; the code is 400 unless one was passed. */
  lemma PairOfConstructors(code: int, hm: string, m: string)
    ensures Pair(NoMessage()) == (400, None)
    ensures Pair(WithMessage(m)) == (400, Some(m))
    ensures Pair(WithCode(code, m)) == (code, Some(m))
    ensures Pair(WithHttpMessage(code, hm, m)) == (code, Some(hm))
    ensures HttpMessage(WithHttpMessage(code, hm, m)) != Some(m) <==> hm != m
  {
  }

  /** What a request parser throws: an `IIIFException`, or an unchecked
      exception (a failed `substring`, the `RuntimeException` of a bad info
      extension, or the URL decoder's `IllegalArgumentException`) with its
      message. */
  datatype Failure = Iiif(exception: IIIFException) | Runtime(reason: string)
}

=== FILE: image_info.dfy ===
/** `ImageInfo`: the facts an IIIF information document reports about one
    image, with the XML and JSON renderings memoised until a format is
    added. The renderings are modelled as records of their field values;
    the JSON and XML text is not. */
module Info {
  import opened Wrappers
  import opened JavaString
  import UrlEncode

  /** The values the JSON document is built from, one per key the source
      writes ("@context", "@id", "width", "height", "scale_factors",
      "tile_width", "tile_height", "myFormats", "qualities", "profile").
      The format list goes under "myFormats", not the "formats" key of the
      IIIF Image API 1.1 information response, and the field is named to
      match. */
  datatype JsonFields = JsonFields(
    context: string,
    id: string,
    width: int,
    height: int,
    scaleFactors: seq<int>,
    tileWidth: int,
    tileHeight: int,
    myFormats: seq<string>,
    qualities: seq<string>,
    profile: string)

  /** The values the XML document is built from. */
  datatype XmlFields = XmlFields(identifier: string, width: string, height: string, formats: seq<string>)

  /** An image info object: the constructor's values, the format list and
      the two memoised renderings (`None` while not yet generated). */
  datatype ImageInfo = ImageInfo(
    id: string,
    height: int,
    width: int,
    levels: int,
    formats: seq<string>,
    xml: Option<XmlFields>,
    json: Option<JsonFields>)

  const Context: string := "http://library.stanford.edu/iiif/image-api/1.1/context.json"
  const TileSide: int := 256
  /** The loop emitting scale factors stops after level 9. */
  const MaxFactors: int := 10

  /** The constructor: no formats, nothing generated yet. */
  function New(id: string, height: int, width: int, levels: int): (r: ImageInfo)
    ensures r.id == id && r.height == height && r.width == width && r.levels == levels
    ensures r.formats == [] && r.xml.None? && r.json.None?
  {
    ImageInfo(id, height, width, levels, [], None, None)
  }

  /** `addFormat` as written: the guard asks whether the format contains
      itself, which it always does, so the list never grows; both memoised
      renderings are dropped all the same. */
  function AddFormat(info: ImageInfo, format: string): (r: ImageInfo)
    ensures r.formats == info.formats
    ensures r.xml.None? && r.json.None?
    ensures r.id == info.id && r.height == info.height && r.width == info.width && r.levels == info.levels
  {
    SelfContained(format);
    var formats := if !Contains(format, format) then info.formats + [format] else info.formats;
    info.(formats := formats, xml := None, json := None)
  }

  /** Every string contains itself. */
  lemma SelfContained(s: string)
    ensures Contains(s, s)
  {
    assert OccursAt(s, s, 0);
  }

  /** The evident intent of `addFormat`: append the format unless the list
      already holds it. */
  function AddFormatIntended(info: ImageInfo, format: string): (r: ImageInfo)
    ensures format in r.formats
    ensures forall f :: f in r.formats <==> f in info.formats || f == format
    ensures r.xml.None? && r.json.None?
    ensures r.id == info.id && r.height == info.height && r.width == info.width && r.levels == info.levels
  {
    var formats := if format !in info.formats then info.formats + [format] else info.formats;
    info.(formats := formats, xml := None, json := None)
  }

  /** A fresh info object told about "jpg" still lists no format. */
  lemma AddFormatLosesFormat(id: string, h: int, w: int, levels: int)
    ensures AddFormat(New(id, h, w, levels), "jpg").formats == []
    ensures AddFormatIntended(New(id, h, w, levels), "jpg").formats == ["jpg"]
  {
  }

  /** The intended `addFormat` keeps the list free of duplicates. */
  lemma AddFormatIntendedNoDuplicates(info: ImageInfo, format: string)
    requires forall i, j :: 0 <= i < j < |info.formats| ==> info.formats[i] != info.formats[j]
    ensures var fs := AddFormatIntended(info, format).formats;
      forall i, j :: 0 <= i < j < |fs| ==> fs[i] != fs[j]
  {
  }

  // ---------------------------------------------------------------------
  // Scale factors
  // ---------------------------------------------------------------------

  /** How many scale factors are reported: one per level, at most ten. */
  function FactorCount(levels: int): (n: nat)
    ensures n <= MaxFactors
    ensures levels <= 0 ==> n == 0
    ensures 0 <= levels <= MaxFactors ==> n == levels
    ensures levels >= MaxFactors ==> n == MaxFactors
  {
    if levels <= 0 then 0 else if levels < MaxFactors then levels else MaxFactors
  }

  /** The scale factors as powers of two: 1 first, each factor twice the
      one before, and none above 512. The source's comment puts the largest
      at 256, but its loop runs through level 9, so a ten-level image gets
      512 as well. */
  function ScaleFactors(levels: int): (r: seq<int>)
    ensures |r| == FactorCount(levels)
    ensures forall i :: 0 <= i < |r| ==> r[i] == Pow2(i)
    ensures |r| > 0 ==> r[0] == 1
    ensures forall i :: 0 < i < |r| ==> r[i] == 2 * r[i - 1]
    ensures forall i :: 0 <= i < |r| ==> 1 <= r[i] <= 512
    ensures levels >= MaxFactors ==> r[|r| - 1] == 512
  {
    var r := seq(FactorCount(levels), i requires 0 <= i => Pow2(i));
    FactorBound();
    r
  }

  /** The factors of levels 0 to 9 lie between 1 and 512, the last being
      512. */
  lemma FactorBound()
    ensures forall i: nat :: i < MaxFactors ==> 1 <= Pow2(i) <= 512
    ensures Pow2(9) == 512
  {
    Pow2Table();
    assert Pow2(9) == 2 * Pow2(8);
    forall i: nat | i < MaxFactors
      ensures 1 <= Pow2(i) <= 512
    {
      Pow2Monotone(0, i);
      Pow2Monotone(i, 9);
    }
  }

  /** The loop of `toJSON`: a factor starting at 1 and doubled each level,
      while the level is below both the image's levels and 10. */
  method ScaleFactorLoop(levels: int) returns (fs: seq<int>)
    ensures |fs| == FactorCount(levels)
    ensures forall i :: 0 <= i < |fs| ==> fs[i] == Pow2(i)
    ensures fs == ScaleFactors(levels)
  {
    fs := [];
    var start := 1;
    var level := 0;
    while level < levels && level <= 9
      invariant 0 <= level <= MaxFactors
      invariant level <= FactorCount(levels)
      invariant |fs| == level
      invariant start == Pow2(level)
      invariant forall i :: 0 <= i < level ==> fs[i] == Pow2(i)
      decreases MaxFactors - level
    {
      fs := fs + [start];
      start := start * 2;
      level := level + 1;
    }
  }

  // ---------------------------------------------------------------------
  // The renderings and their memoisation
  // ---------------------------------------------------------------------

  /** The JSON field values for a service and prefix; `iiifUrl` is the base
      the compliance profile is written under. */
  function JsonOf(info: ImageInfo, service: string, prefix: string, iiifUrl: string): (r: JsonFields)
    ensures r.id == service + "/" + prefix + "/" + UrlEncode.PathSafetyEncode(info.id)
    ensures r.width == info.width && r.height == info.height
    ensures |r.scaleFactors| == FactorCount(info.levels)
    ensures forall i :: 0 <= i < |r.scaleFactors| ==> r.scaleFactors[i] == Pow2(i)
    ensures r.tileWidth == r.tileHeight == TileSide
    ensures r.myFormats == info.formats && r.qualities == ["native"]
    ensures r.context == Context && r.profile == iiifUrl + "1.1/compliance.html#level1"
  {
    JsonFields(
      Context,
      service + "/" + prefix + "/" + UrlEncode.PathSafetyEncode(info.id),
      info.width,
      info.height,
      ScaleFactors(info.levels),
      TileSide,
      TileSide,
      info.formats,
      ["native"],
      iiifUrl + "1.1/compliance.html#level1")
  }

  /** `toJSON`: the memoised fields when present, otherwise fresh fields,
      which are then remembered. */
  function ToJson(info: ImageInfo, service: string, prefix: string, iiifUrl: string): (r: (JsonFields, ImageInfo))
    ensures info.json.Some? ==> r == (info.json.value, info)
    ensures info.json.None? ==> r.0 == JsonOf(info, service, prefix, iiifUrl) && r.1 == info.(json := Some(r.0))
  {
    match info.json
    case Some(j) => (j, info)
    case None =>
      var j := JsonOf(info, service, prefix, iiifUrl);
      (j, info.(json := Some(j)))
  }

  /** Once generated, the JSON ignores later service and prefix values. */
  lemma JsonMemoised(info: ImageInfo, s1: string, p1: string, s2: string, p2: string, u1: string, u2: string)
    ensures var (j, next) := ToJson(info, s1, p1, u1);
      ToJson(next, s2, p2, u2) == (j, next)
  {
  }

  /** After `addFormat`, the JSON is rebuilt from the arguments of the next
      call. */
  lemma AddFormatRefreshesJson(info: ImageInfo, format: string, s: string, p: string, u: string)
    ensures ToJson(AddFormat(info, format), s, p, u).0 == JsonOf(AddFormat(info, format), s, p, u)
    ensures ToJson(AddFormat(info, format), s, p, u).0.id == s + "/" + p + "/" + UrlEncode.PathSafetyEncode(info.id)
  {
  }

  /** The identifier is recoverable from the end of "@id" whenever it holds
      no "%25". */
  lemma JsonIdDecodes(info: ImageInfo, s: string, p: string, u: string)
    requires !Contains(info.id, "%25")
    ensures var id := JsonOf(info, s, p, u).id;
      var head := s + "/" + p + "/";
      |head| <= |id| && UrlEncode.PathSafetyDecode(id[|head|..]) == info.id
  {
    var head := s + "/" + p + "/";
    var enc := UrlEncode.PathSafetyEncode(info.id);
    assert (head + enc)[|head|..] == enc;
    UrlEncode.DecodeEncode(info.id);
  }

  /** The XML field values. */
  function XmlOf(info: ImageInfo): (r: XmlFields)
    ensures r.identifier == info.id && r.formats == info.formats
    ensures IsInt32(info.width) ==> ParseInt(r.width) == Some(info.width)
    ensures IsInt32(info.height) ==> ParseInt(r.height) == Some(info.height)
  {
    IntTextReads(info.width);
    IntTextReads(info.height);
    XmlFields(info.id, IntToString(info.width), IntToString(info.height), info.formats)
  }

  /** `infoDoc`, behind `toXML` and `toString`: memoised like the JSON. */
  function InfoDoc(info: ImageInfo): (r: (XmlFields, ImageInfo))
    ensures info.xml.Some? ==> r == (info.xml.value, info)
    ensures info.xml.None? ==> r.0 == XmlOf(info) && r.1 == info.(xml := Some(r.0))
  {
    match info.xml
    case Some(x) => (x, info)
    case None =>
      var x := XmlOf(info);
      (x, info.(xml := Some(x)))
  }

  /** Generating one rendering leaves the other's memo alone. */
  lemma RenderingsIndependent(info: ImageInfo, s: string, p: string, u: string)
    ensures ToJson(info, s, p, u).1.xml == info.xml
    ensures InfoDoc(info).1.json == info.json
  {
  }
}

=== FILE: image_request.dfy ===
/** `ImageRequest`: reads an IIIF image request path
    "{prefix}/{identifier}/{region}/{size}/{rotation}/{quality}[.ext]".
    The service prefix arrives already checked (`Builder.checkServicePrefix`
    is not part of this model); float parsing and the `Quality` class are
    parameters. */
module ImageRequestParse {
  import opened Wrappers
  import opened JavaString
  import opened IIIFError
  import RegionParam
  import SizeParam
  import Resolver

  /** The extensions an image request may end with. */
  const ImageExtensions: seq<string> := [".jpg", ".gif", ".jp2", ".pdf", ".tif", ".png"]

  /** A parsed image request; `extension` is `None` for Java's null. */
  datatype ImageRequest = ImageRequest(
    prefix: Option<string>,
    extension: Option<string>,
    identifier: string,
    region: RegionParam.Region,
    size: SizeParam.Size,
    rotation: real,
    rotationWarning: bool,
    quality: string)

  /** The parsers of the last two segments: `Float.parseFloat` (`None` for
      a `NumberFormatException`) and `new Quality(...)`. */
  datatype Readers = Readers(
    parseFloat: string -> Option<real>,
    quality: string -> Result<string, IIIFException>)

  /** Where the path proper starts: one past the end of the prefix's first
      occurrence; when the prefix is absent (`indexOf` gives -1), just
      `|prefix|`. */
  function PrefixEnd(path: string, p: string): (k: nat)
    ensures Contains(path, p) ==> exists i :: OccursAt(path, p, i) && k == i + |p| + 1
    ensures !Contains(path, p) ==> k == |p|
  {
    IndexOf(path, p) + |p| + 1
  }

  /** The path after the service prefix: from `indexOf(prefix) + length + 1`
      with a prefix, from index 1 without; a start past the end is the
      `substring` exception. */
  function AfterPrefix(path: string, prefix: Option<string>): (r: Result<string, Failure>)
    ensures prefix.None? ==> (r.Ok? <==> |path| >= 1)
    ensures prefix.None? && r.Ok? ==> path == [path[0]] + r.value
    ensures prefix.Some? ==> (r.Ok? <==> PrefixEnd(path, prefix.value) <= |path|)
    ensures prefix.Some? && r.Ok? ==> r.value == path[PrefixEnd(path, prefix.value)..]
    ensures r.Err? ==> r.error.Runtime?
  {
    match prefix
    case Some(p) =>
      var start := PrefixEnd(path, p);
      if start <= |path| then Ok(path[start..]) else Err(Runtime("String index out of range"))
    case None =>
      if |path| >= 1 then Ok(path[1..]) else Err(Runtime("String index out of range"))
  }

  predicate HasImageExtension(path: string) {
    exists e | e in ImageExtensions :: EndsWith(path, e)
  }

  /** The extension check: for a recognised ending on a path longer than 4
      characters, the last three characters become the extension and the
      last four are dropped. */
  function SplitExtension(path: string): (r: (Option<string>, string))
    ensures r.0.Some? <==> HasImageExtension(path) && |path| > 4
    ensures r.0.Some? ==> r.1 + "." + r.0.value == path
    ensures r.0.Some? ==> "." + r.0.value in ImageExtensions
    ensures r.0.None? ==> r.1 == path
  {
    if HasImageExtension(path) && |path| > 4 then
      var ext := path[|path| - 3..];
      assert path == path[..|path| - 4] + "." + ext by {
        var e :| e in ImageExtensions && EndsWith(path, e);
        assert path[|path| - 4] == e[0] == '.';
      }
      assert "." + ext in ImageExtensions by {
        var e :| e in ImageExtensions && EndsWith(path, e);
        assert path[|path| - 4..] == e;
        assert path[|path| - 4..] == "." + ext;
      }
      (Some(ext), path[..|path| - 4])
    else (None, path)
  }

  /** The message of both the part-count and the identifier failure. */
  function PartsMessage(body: string): string {
    "Request doesn't contain correct number of parts: " + body
  }

  /** Prefix, extension and the five '/'-separated segments. */
  function RequestParts(path: string, prefix: Option<string>): (r: Result<(Option<string>, string, seq<string>), Failure>)
    ensures r.Ok? ==> |r.value.2| == 5 && r.value.2 == Split(r.value.1, '/')
    ensures r.Ok? ==> AfterPrefix(path, prefix).Ok?
    ensures r.Ok? ==> SplitExtension(AfterPrefix(path, prefix).value) == (r.value.0, r.value.1)
    ensures AfterPrefix(path, prefix).Ok? && r.Err? ==>
      var body := SplitExtension(AfterPrefix(path, prefix).value).1;
      |Split(body, '/')| != 5 && r.error == Iiif(WithMessage(PartsMessage(body)))
  {
    var rest :- AfterPrefix(path, prefix);
    var (ext, body) := SplitExtension(rest);
    var parts := Split(body, '/');
    if |parts| != 5 then Err(Iiif(WithMessage(PartsMessage(body))))
    else Ok((ext, body, parts))
  }

  /** The private `decode` of the constructor: `URLDecoder.decode`, whose
      failure escapes as an unchecked exception. */
  function DecodeSegment(seg: string, c: Resolver.Codec): (r: Result<string, Failure>)
    ensures r.Ok? <==> c.decode(seg).Ok?
    ensures r.Ok? ==> r.value == c.decode(seg).value
    ensures r.Err? ==> r.error == Runtime(c.decode(seg).error)
  {
    match c.decode(seg)
    case Ok(t) => Ok(t)
    case Err(m) => Err(Runtime(m))
  }

  /** The four segments after the identifier decode, and region, size,
      rotation and quality read from them. */
  ghost predicate ValuesReadable(parts: seq<string>, c: Resolver.Codec, rd: Readers)
    requires |parts| == 5
  {
    && c.decode(parts[1]).Ok? && RegionParam.Parse(c.decode(parts[1]).value).Ok?
    && c.decode(parts[2]).Ok? && SizeParam.Parse(c.decode(parts[2]).value).Ok?
    && c.decode(parts[3]).Ok? && rd.parseFloat(c.decode(parts[3]).value).Some?
    && c.decode(parts[4]).Ok? && rd.quality(c.decode(parts[4]).value).Ok?
  }

  /** Every step of the constructor succeeds on these five segments: an
      identifier is extracted and the other four read. */
  ghost predicate Readable(parts: seq<string>, patterns: seq<string>, c: Resolver.Codec, rd: Readers)
    requires |parts| == 5
  {
    && Resolver.ExtractId(parts[0], patterns, c).Ok?
    && Resolver.ExtractId(parts[0], patterns, c).value.Some?
    && ValuesReadable(parts, c, rd)
  }

  /** One of the four segments after the identifier fails to decode. */
  ghost predicate ValueDecodeFails(parts: seq<string>, c: Resolver.Codec)
    requires |parts| == 5
  {
    c.decode(parts[1]).Err? || c.decode(parts[2]).Err? || c.decode(parts[3]).Err? || c.decode(parts[4]).Err?
  }

  /** Some segment fails to decode: the identifier after path-safety
      decoding, or one of the other four. */
  ghost predicate DecodeFails(parts: seq<string>, c: Resolver.Codec)
    requires |parts| == 5
  {
    Resolver.DecodedRequest(parts[0], c).Err? || ValueDecodeFails(parts, c)
  }

  /** The request fields after the identifier, in the constructor's order:
      region, size, rotation (a warning unless 0, 90, 180 or 270) and
      quality, each from its decoded segment. */
  function ParseValues(prefix: Option<string>, ext: Option<string>, identifier: string, parts: seq<string>, c: Resolver.Codec, rd: Readers): (r: Result<ImageRequest, Failure>)
    requires |parts| == 5
    ensures r.Ok? <==> ValuesReadable(parts, c, rd)
    ensures r.Err? && r.error.Runtime? ==> ValueDecodeFails(parts, c)
    ensures r.Ok? ==>
      && r.value.prefix == prefix && r.value.extension == ext && r.value.identifier == identifier
      && RegionParam.Parse(c.decode(parts[1]).value) == Ok(r.value.region)
      && SizeParam.Parse(c.decode(parts[2]).value) == Ok(r.value.size)
      && rd.parseFloat(c.decode(parts[3]).value) == Some(r.value.rotation)
      && (r.value.rotationWarning <==> r.value.rotation !in {0.0, 90.0, 180.0, 270.0})
      && rd.quality(c.decode(parts[4]).value) == Ok(r.value.quality)
  {
    var regionText :- DecodeSegment(parts[1], c);
    match RegionParam.Parse(regionText)
    case Err(e) => Err(Iiif(e))
    case Ok(region) =>
      var sizeText :- DecodeSegment(parts[2], c);
      match SizeParam.Parse(sizeText)
      case Err(e) => Err(Iiif(e))
      case Ok(size) =>
        var rotationText :- DecodeSegment(parts[3], c);
        match rd.parseFloat(rotationText)
        case None => Err(Iiif(WithMessage("Rotation value isn't a float: " + parts[3])))
        case Some(rotation) =>
          var warning := rotation != 0.0 && rotation != 90.0 && rotation != 180.0 && rotation != 270.0;
          var qualityText :- DecodeSegment(parts[4], c);
          match rd.quality(qualityText)
          case Err(e) => Err(Iiif(e))
          case Ok(quality) => Ok(ImageRequest(prefix, ext, identifier, region, size, rotation, warning, quality))
  }

  /** The image request constructor. */
  function Parse(path: string, prefix: Option<string>, patterns: seq<string>, c: Resolver.Codec, rd: Readers): (r: Result<ImageRequest, Failure>)
    ensures RequestParts(path, prefix).Err? ==> r == Err(RequestParts(path, prefix).error)
    ensures r.Ok? ==> RequestParts(path, prefix).Ok?
    ensures RequestParts(path, prefix).Ok? ==>
      var parts := RequestParts(path, prefix).value.2;
      Resolver.ExtractId(parts[0], patterns, c).Err? ==> r == Err(Resolver.ExtractId(parts[0], patterns, c).error)
    ensures RequestParts(path, prefix).Ok? ==>
      var parts := RequestParts(path, prefix).value.2;
      Resolver.ExtractId(parts[0], patterns, c) == Ok(None) ==>
        r == Err(Iiif(WithMessage(PartsMessage(RequestParts(path, prefix).value.1))))
    ensures RequestParts(path, prefix).Ok? ==>
      (r.Ok? <==> Readable(RequestParts(path, prefix).value.2, patterns, c, rd))
    ensures r.Err? && r.error.Runtime? ==>
      RequestParts(path, prefix).Err? || DecodeFails(RequestParts(path, prefix).value.2, c)
    ensures r.Ok? ==>
      var (ext, _, parts) := RequestParts(path, prefix).value;
      && r.value.prefix == prefix
      && r.value.extension == ext
      && r.value.identifier == c.encode(Resolver.ExtractId(parts[0], patterns, c).value.value)
      && RegionParam.Parse(c.decode(parts[1]).value) == Ok(r.value.region)
      && SizeParam.Parse(c.decode(parts[2]).value) == Ok(r.value.size)
      && rd.parseFloat(c.decode(parts[3]).value) == Some(r.value.rotation)
      && (r.value.rotationWarning <==> r.value.rotation !in {0.0, 90.0, 180.0, 270.0})
      && rd.quality(c.decode(parts[4]).value) == Ok(r.value.quality)
  {
    var (ext, body, parts) :- RequestParts(path, prefix);
    var found :- Resolver.ExtractId(parts[0], patterns, c);
    match found
    case None => Err(Iiif(WithMessage(PartsMessage(body))))
    case Some(id) => ParseValues(prefix, ext, c.encode(id), parts, c, rd)
  }

  /** The identifier is URL-encoded twice: once by `extractID` on the group
      the first accepting pattern captured, and once more here. */
  lemma IdentifierEncodedTwice(path: string, prefix: Option<string>, patterns: seq<string>, c: Resolver.Codec, rd: Readers)
    requires Parse(path, prefix, patterns, c, rd).Ok?
    ensures var parts := RequestParts(path, prefix).value.2;
      var text := Resolver.DecodedRequest(parts[0], c).value;
      exists i :: 0 <= i < |patterns| && Resolver.FirstAcceptedAt(patterns, text, c, i)
        && Parse(path, prefix, patterns, c, rd).value.identifier == c.encode(c.encode(c.matcher(patterns[i], text).group1))
  {
  }

  /** An error in the region segment is the request's error, whatever the
      later segments hold. */
  lemma RegionErrorPropagates(path: string, prefix: Option<string>, patterns: seq<string>, c: Resolver.Codec, rd: Readers)
    requires RequestParts(path, prefix).Ok?
    requires var parts := RequestParts(path, prefix).value.2;
      && Resolver.ExtractId(parts[0], patterns, c).Ok? && Resolver.ExtractId(parts[0], patterns, c).value.Some?
      && c.decode(parts[1]).Ok? && RegionParam.Parse(c.decode(parts[1]).value).Err?
    ensures Parse(path, prefix, patterns, c, rd)
      == Err(Iiif(RegionParam.Parse(c.decode(RequestParts(path, prefix).value.2[1]).value).error))
  {
  }

  /** A rotation that is not a float is an `IIIFException` naming the raw
      segment. */
  lemma RotationMustBeFloat(path: string, prefix: Option<string>, patterns: seq<string>, c: Resolver.Codec, rd: Readers)
    requires RequestParts(path, prefix).Ok?
    requires var parts := RequestParts(path, prefix).value.2;
      && Resolver.ExtractId(parts[0], patterns, c).Ok? && Resolver.ExtractId(parts[0], patterns, c).value.Some?
      && c.decode(parts[1]).Ok? && RegionParam.Parse(c.decode(parts[1]).value).Ok?
      && c.decode(parts[2]).Ok? && SizeParam.Parse(c.decode(parts[2]).value).Ok?
      && c.decode(parts[3]).Ok? && rd.parseFloat(c.decode(parts[3]).value).None?
    ensures Parse(path, prefix, patterns, c, rd)
      == Err(Iiif(WithMessage("Rotation value isn't a float: " + RequestParts(path, prefix).value.2[3])))
  {
  }

  /** An unsupported rotation such as 45 degrees is accepted, with only a
      warning. */
  lemma UnsupportedRotationWarns(path: string, prefix: Option<string>, patterns: seq<string>, c: Resolver.Codec, rd: Readers)
    requires RequestParts(path, prefix).Ok?
    requires Readable(RequestParts(path, prefix).value.2, patterns, c, rd)
    requires rd.parseFloat(c.decode(RequestParts(path, prefix).value.2[3]).value) == Some(45.0)
    ensures Parse(path, prefix, patterns, c, rd).Ok?
    ensures Parse(path, prefix, patterns, c, rd).value.rotation == 45.0
    ensures Parse(path, prefix, patterns, c, rd).value.rotationWarning
  {
  }

  /** A malformed escape in the region segment escapes the constructor as
      the decoder's unchecked exception, not as an `IIIFException`. */
  lemma MalformedRegionEscapes(path: string, prefix: Option<string>, patterns: seq<string>, c: Resolver.Codec, rd: Readers)
    requires RequestParts(path, prefix).Ok?
    requires var parts := RequestParts(path, prefix).value.2;
      && Resolver.ExtractId(parts[0], patterns, c).Ok? && Resolver.ExtractId(parts[0], patterns, c).value.Some?
      && c.decode(parts[1]).Err?
    ensures Parse(path, prefix, patterns, c, rd)
      == Err(Runtime(c.decode(RequestParts(path, prefix).value.2[1]).error))
  {
  }

  // ---------------------------------------------------------------------
  // Reading back a composed path
  // ---------------------------------------------------------------------

  /** A non-empty body followed by one of the image extensions is split
      back into the body and the three-letter extension. */
  lemma ExtensionOf(body: string, ext: string)
    requires "." + ext in ImageExtensions && body != ""
    ensures SplitExtension(body + "." + ext) == (Some(ext), body)
  {
    var path := body + "." + ext;
    assert EndsWith(path, "." + ext) by {
      assert path[|path| - 4..] == "." + ext;
    }
    assert path[..|path| - 4] == body;
  }

  /** Five '/'-free segments joined with '/', the last one non-empty and
      followed by an image extension, read back as those segments after the
      leading '/' when no prefix is configured. */
  lemma ComposedPathParts(segs: seq<string>, ext: string)
    requires |segs| == 5 && segs[4] != ""
    requires forall i :: 0 <= i < 5 ==> NoChar(segs[i], '/')
    requires "." + ext in ImageExtensions
    ensures RequestParts("/" + Join(segs, '/') + "." + ext, None)
      == Ok((Some(ext), Join(segs, '/'), segs))
  {
    var body := Join(segs, '/');
    var path := "/" + body + "." + ext;
    assert path[1..] == body + "." + ext;
    assert AfterPrefix(path, None) == Ok(body + "." + ext);
    JoinHasSeparator(segs, '/');
    ExtensionOf(body, ext);
    SplitJoin(segs, '/');
    assert Split(body, '/') == segs;
  }
}

=== FILE: image_servlet.dfy ===
/** `ImageServlet`: answers an IIIF info request with the info document and
    an image request either from the Pairtree tile cache or by forwarding a
    region query to the OpenURL resolver, then moves the tile the resolver
    produced into the Pairtree cache. The Pairtree store, the request
    dispatcher, the session's file system and `StringUtils.format` are
    parameters. */
module View {
  import opened Wrappers
  import opened JavaString
  import RegionParam
  import SizeParam
  import CacheUtils
  import ImageRequestParse
  import Info
  import OpenUrl
  import UrlEncode

  /** `Constants.DEFAULT_VIEW_FORMAT`. */
  const DefaultViewFormat: string := "image/jpeg"

  // ---------------------------------------------------------------------
  // Java's (int) cast of a float
  // ---------------------------------------------------------------------

  /** `(int) f` for a finite float: rounds toward zero and saturates at the
      ends of the int range. */
  function IntCast(f: real): (r: int)
    ensures IsInt32(r)
    ensures f >= 0.0 ==> 0 <= r && r as real <= f
    ensures f <= 0.0 ==> r <= 0 && f <= r as real
    ensures INT_MIN as real <= f <= INT_MAX as real ==> -1.0 < f - r as real < 1.0
    ensures f >= INT_MAX as real ==> r == INT_MAX
    ensures f <= INT_MIN as real ==> r == INT_MIN
  {
    var t := if f >= 0.0 then f.Floor else -((-f).Floor);
    if t > INT_MAX then INT_MAX else if t < INT_MIN then INT_MIN else t
  }

  /** A whole number in the int range survives the cast. */
  lemma IntCastWhole(n: int)
    requires IsInt32(n)
    ensures IntCast(n as real) == n
  {
  }

  // ---------------------------------------------------------------------
  // doGet: the region handed to the resolver
  // ---------------------------------------------------------------------

  /** The region in the order the resolver reads it: empty for the full
      image, otherwise "y,x,height,width". The percent flag is not
      consulted. */
  function DjatokaRegion(r: RegionParam.Region): (t: string)
    ensures r.full <==> t == ""
    ensures !r.full ==> t == Join([IntToString(r.y), IntToString(r.x), IntToString(r.height), IntToString(r.width)], ',')
  {
    if r.full then ""
    else
      Join4(IntToString(r.y), IntToString(r.x), IntToString(r.height), IntToString(r.width), ',');
      IntToString(r.y) + "," + IntToString(r.x) + "," + IntToString(r.height) + "," + IntToString(r.width)
  }

  /** The resolver's region is the region's own text with x and y swapped
      and width and height swapped. */
  lemma DjatokaRegionSwapsFields(r: RegionParam.Region)
    requires !r.full
    ensures var b := Split(RegionParam.BoxText(r), ',');
      var d := Split(DjatokaRegion(r), ',');
      |b| == 4 && d == [b[1], b[0], b[3], b[2]]
  {
    var bs := [IntToString(r.x), IntToString(r.y), IntToString(r.width), IntToString(r.height)];
    var ds := [IntToString(r.y), IntToString(r.x), IntToString(r.height), IntToString(r.width)];
    IntToStringNoChar(r.x, ',');
    IntToStringNoChar(r.y, ',');
    IntToStringNoChar(r.width, ',');
    IntToStringNoChar(r.height, ',');
    assert IntToString(r.height) != "" && IntToString(r.width) != "";
    SplitJoin(bs, ',');
    SplitJoin(ds, ',');
  }

  /** A valid region reads back from the resolver's text. */
  lemma DjatokaRegionReads(r: RegionParam.Region)
    requires !r.full && RegionParam.ValidBox(r.percent, r.x, r.y, r.width, r.height)
    ensures var d := Split(DjatokaRegion(r), ',');
      |d| == 4 && ParseInt(d[0]) == Some(r.y) && ParseInt(d[1]) == Some(r.x)
      && ParseInt(d[2]) == Some(r.height) && ParseInt(d[3]) == Some(r.width)
  {
    DjatokaRegionSwapsFields(r);
    RegionParam.BoxTextReads(r);
  }

  /** A percent region is sent as if its numbers were pixels. */
  lemma PercentFlagDropped(r: RegionParam.Region)
    ensures DjatokaRegion(r.(percent := true)) == DjatokaRegion(r.(percent := false))
  {
  }

  // ---------------------------------------------------------------------
  // serveNewImage: the resolver query
  // ---------------------------------------------------------------------

  /** The values of the two resolver query templates: the level query
      (identifier, format, level, rotation) and the region query
      (identifier, format, region, scale, rotation). */
  datatype ResolverQuery =
    | LevelQuery(id: string, format: string, level: Option<string>, rotate: string)
    | RegionQuery(id: string, format: string, region: string, scale: string, rotate: string)

  /** `serveNewImage`'s choice of query: the level query without a scale,
      the region query with "full" sent as "1.0" otherwise; the identifier
      is URL-encoded and the rotation cast to int. */
  function ServeNewImage(id: string, level: Option<string>, region: string, scale: Option<string>, rotation: real, encode: string -> string): (q: ResolverQuery)
    ensures q.id == encode(id) && q.format == DefaultViewFormat
    ensures ParseInt(q.rotate) == Some(IntCast(rotation))
    ensures q.LevelQuery? <==> scale.None?
    ensures q.LevelQuery? ==> q.level == level
    ensures q.RegionQuery? ==> q.region == region
    ensures q.RegionQuery? && scale.value == "full" ==> q.scale == "1.0"
    ensures q.RegionQuery? && scale.value != "full" ==> q.scale == scale.value
  {
    var rotate := IntToString(IntCast(rotation));
    ParseIntOfIntToString(IntCast(rotation));
    match scale
    case None => LevelQuery(encode(id), DefaultViewFormat, level, rotate)
    case Some(s) => RegionQuery(encode(id), DefaultViewFormat, region, if s == "full" then "1.0" else s, rotate)
  }

  /** The service values the resolver reads from a query: "svc.format" as
      "format", and so on. */
  function ServiceValues(q: ResolverQuery): (kev: map<string, string>)
    ensures "format" in kev && kev["format"] == q.format
    ensures "rotate" in kev && kev["rotate"] == q.rotate
    ensures "clayer" !in kev
    ensures q.RegionQuery? ==> kev.Keys == {"format", "region", "scale", "rotate"}
    ensures q.RegionQuery? ==> kev["region"] == q.region && kev["scale"] == q.scale
    ensures q.LevelQuery? ==> "scale" !in kev && "region" !in kev
    ensures q.LevelQuery? ==> ("level" in kev <==> q.level.Some?)
    ensures q.LevelQuery? && q.level.Some? ==> kev["level"] == q.level.value
  {
    match q
    case LevelQuery(_, format, level, rotate) =>
      var kev := map["format" := format, "rotate" := rotate];
      if level.Some? then kev["level" := level.value] else kev
    case RegionQuery(_, format, region, scale, rotate) =>
      map["format" := format, "region" := region, "scale" := scale, "rotate" := rotate]
  }

  /** A full-size region request reaches the resolver as a full-resolution
      JPEG of the requested region at the requested rotation: the scale
      "1.0" becomes a scaling factor of 1, an empty region becomes no
      region, and the level stays at its default. */
  lemma FullScaleHandOff(id: string, level: Option<string>, region: string, rotation: real, encode: string -> string, init: OpenUrl.Params, d: OpenUrl.Doubles)
    requires d.parse("1.0") == Some(1.0)
    ensures var q := ServeNewImage(id, level, region, Some("full"), rotation, encode);
      var r := OpenUrl.DecodeKev(ServiceValues(q), init, d);
      && r.Ok?
      && r.value.format == DefaultViewFormat
      && r.value.params.rotation == IntCast(rotation)
      && r.value.params.level == init.level
      && r.value.params.scalingFactor == 1.0
      && r.value.params.scalingDims == init.scalingDims
      && r.value.params.region == (if region == "" then init.region else Some(region))
  {
    var q := ServeNewImage(id, level, region, Some("full"), rotation, encode);
    var kev := ServiceValues(q);
    assert kev["scale"] == "1.0";
    assert DefaultViewFormat[..5] == "image";
    var p0 := init.(region := (if region == "" then init.region else Some(region)), rotation := IntCast(rotation));
    ScaleOneIsFactor(p0, d);
    assert OpenUrl.DecodeScale("1.0", p0, d) == Ok(p0.(scalingFactor := 1.0));
    assert OpenUrl.DecodeLayer(kev, p0.(scalingFactor := 1.0)) == Ok(p0.(scalingFactor := 1.0));
  }

  /** "1.0" is one scale value holding a '.'. */
  lemma ScaleOneIsFactor(p: OpenUrl.Params, d: OpenUrl.Doubles)
    requires d.parse("1.0") == Some(1.0)
    ensures OpenUrl.DecodeScale("1.0", p, d) == Ok(p.(scalingFactor := 1.0))
  {
    assert ',' !in "1.0";
    assert Split("1.0", ',') == ["1.0"];
    assert OccursAt("1.0", ".", 1);
  }

  // ---------------------------------------------------------------------
  // doGet and checkImageCache: which way an image request goes
  // ---------------------------------------------------------------------

  /** The key `cacheNewImage` looks the new tile up under in the session:
      the identifier, '_', and the tile's file name. */
  function SessionKey(id: string, level: Option<string>, region: string, scale: string, rotation: real): (r: string)
    ensures StartsWith(r, id + "_" + "image_")
    ensures EndsWith(r, IntToString(IntCast(rotation)) + ".jpg")
  {
    var name := CacheUtils.GetFileName(level, Some(region), Some(scale), IntCast(rotation));
    FileNameEnds(level, region, scale, IntCast(rotation));
    KeyEnds(id, name, "image_", IntToString(IntCast(rotation)) + ".jpg");
    id + "_" + name
  }

  /** A file name starts with "image_" and ends with the rotation and
      ".jpg". */
  lemma FileNameEnds(level: Option<string>, region: string, scale: string, rotation: int)
    ensures StartsWith(CacheUtils.GetFileName(level, Some(region), Some(scale), rotation), "image_")
    ensures EndsWith(CacheUtils.GetFileName(level, Some(region), Some(scale), rotation), IntToString(rotation) + ".jpg")
  {
    var name := CacheUtils.GetFileName(level, Some(region), Some(scale), rotation);
    var tail := IntToString(rotation) + ".jpg";
    var head := "image" + "_" + NullableText(level) + "_" + CacheUtils.FilePart(Some(region)) + "_" + CacheUtils.FilePart(Some(scale)) + "_";
    assert name == head + tail;
    assert name[|head|..] == tail;
    assert name[..6] == head[..6] == "image_";
  }

  /** Putting an identifier and '_' in front keeps a name's ends. */
  lemma KeyEnds(id: string, name: string, p: string, t: string)
    requires StartsWith(name, p) && EndsWith(name, t)
    ensures StartsWith(id + "_" + name, id + "_" + p)
    ensures EndsWith(id + "_" + name, t)
  {
    var key := id + "_" + name;
    assert key[..|id| + 1 + |p|] == id + "_" + name[..|p|];
    assert key[|key| - |t|..] == name[|name| - |t|..];
  }

  /** With no '_' in the identifier, level, region or scale, the session
      key splits back into the identifier and the file name's parts. */
  lemma SessionKeyFields(id: string, level: Option<string>, region: string, scale: string, rotation: real)
    requires NoChar(id, '_') && NoChar(NullableText(level), '_') && NoChar(region, '_') && NoChar(scale, '_')
    ensures Split(SessionKey(id, level, region, scale, rotation), '_')
      == [id, "image", NullableText(level), CacheUtils.FilePart(Some(region)), CacheUtils.FilePart(Some(scale)),
          IntToString(IntCast(rotation)) + ".jpg"]
  {
    var ps := ["image", NullableText(level), CacheUtils.FilePart(Some(region)), CacheUtils.FilePart(Some(scale)),
               IntToString(IntCast(rotation)) + ".jpg"];
    var name := CacheUtils.GetFileName(level, Some(region), Some(scale), IntCast(rotation));
    Join5(ps[0], ps[1], ps[2], ps[3], ps[4], '_');
    assert name == Join(ps, '_');
    var qs := [id] + ps;
    assert qs[1..] == ps;
    assert Join(qs, '_') == id + "_" + name;
    IntToStringNoChar(IntCast(rotation), '_');
    assert NoChar(ps[4], '_');
    assert NoChar(ps[2], '_');
    assert NoChar(ps[3], '_');
    assert forall i :: 0 <= i < |qs| ==> NoChar(qs[i], '_') by {
      assert qs[0] == id;
      assert forall i :: 1 <= i < |qs| ==> qs[i] == ps[i - 1];
    }
    SplitJoin(qs, '_');
  }

  /** Such keys name one request each: equal keys mean equal identifiers
      and equal file names. */
  lemma SessionKeyInjective(id1: string, id2: string, level: Option<string>, region1: string, scale1: string, rotation1: real,
                            region2: string, scale2: string, rotation2: real)
    requires NoChar(id1, '_') && NoChar(id2, '_') && NoChar(NullableText(level), '_')
    requires NoChar(region1, '_') && NoChar(scale1, '_') && NoChar(region2, '_') && NoChar(scale2, '_')
    requires SessionKey(id1, level, region1, scale1, rotation1) == SessionKey(id2, level, region2, scale2, rotation2)
    ensures id1 == id2
    ensures IntCast(rotation1) == IntCast(rotation2)
  {
    SessionKeyFields(id1, level, region1, scale1, rotation1);
    SessionKeyFields(id2, level, region2, scale2, rotation2);
    var a := IntToString(IntCast(rotation1));
    var b := IntToString(IntCast(rotation2));
    assert a + ".jpg" == b + ".jpg";
    assert a == (a + ".jpg")[..|a + ".jpg"| - 4];
    assert b == (b + ".jpg")[..|b + ".jpg"| - 4];
    IntToStringInjective(IntCast(rotation1), IntCast(rotation2));
  }

  /** What happens to an image request: served from the Pairtree tile
      cache, or forwarded to the resolver, with the session key to collect
      the new tile under when the Pairtree cache is configured. */
  datatype Action = FromPairtree(fileName: string) | Forward(query: ResolverQuery, sessionKey: Option<string>)

  /** The image branch of `doGet` with `checkImageCache`. `level` is the
      servlet's "level" init parameter, `cacheConfigured` says whether the
      Pairtree cache directory is set, `inPairtree(id, name)` whether the
      tile file exists in it, and `percentText` prints a percent size. */
  function ImageAction(req: ImageRequestParse.ImageRequest, level: Option<string>, cacheConfigured: bool,
                       inPairtree: (string, string) -> bool, percentText: int -> string, encode: string -> string): (a: Action)
    ensures var region := DjatokaRegion(req.region);
      var scale := SizeParam.ToString(req.size, percentText);
      var name := CacheUtils.GetFileName(level, Some(region), Some(scale), IntCast(req.rotation));
      && (a.FromPairtree? <==> cacheConfigured && inPairtree(req.identifier, name))
      && (a.FromPairtree? ==> a.fileName == name)
      && (a.Forward? ==> a.query == ServeNewImage(req.identifier, level, region, Some(scale), req.rotation, encode))
      && (a.Forward? ==> (a.sessionKey.Some? <==> cacheConfigured))
      && (a.Forward? && cacheConfigured ==> a.sessionKey == Some(SessionKey(req.identifier, level, region, scale, req.rotation)))
  {
    var region := DjatokaRegion(req.region);
    var scale := SizeParam.ToString(req.size, percentText);
    var query := ServeNewImage(req.identifier, level, region, Some(scale), req.rotation, encode);
    if cacheConfigured then
      var name := CacheUtils.GetFileName(level, Some(region), Some(scale), IntCast(req.rotation));
      if inPairtree(req.identifier, name) then FromPairtree(name)
      else Forward(query, Some(req.identifier + "_" + name))
    else Forward(query, None)
  }

  /** `doGet` always has a size to send, so the level query is never used
      for an IIIF image request. */
  lemma ImageRequestsUseRegionQuery(req: ImageRequestParse.ImageRequest, level: Option<string>, cacheConfigured: bool,
                                    inPairtree: (string, string) -> bool, percentText: int -> string, encode: string -> string)
    ensures var a := ImageAction(req, level, cacheConfigured, inPairtree, percentText, encode);
      a.Forward? ==> a.query.RegionQuery?
  {
  }

  /** A full-size, full-region request is forwarded as scale "1.0" with no
      region. */
  lemma FullRequestForwarded(req: ImageRequestParse.ImageRequest, level: Option<string>, inPairtree: (string, string) -> bool,
                             percentText: int -> string, encode: string -> string)
    requires req.region.full && req.size == SizeParam.FullSize
    ensures var a := ImageAction(req, level, false, inPairtree, percentText, encode);
      a.Forward? && a.query.RegionQuery? && a.query.region == "" && a.query.scale == "1.0"
  {
  }

  // ---------------------------------------------------------------------
  // doGet: the info document
  // ---------------------------------------------------------------------

  /** The document an info request is answered with. */
  datatype InfoBody = XmlDoc(xml: Info.XmlFields) | JsonDoc(json: Info.JsonFields)

  /** The info branch of `doGet`: a new info object for the image's height,
      width and levels, rendered as XML for the "xml" extension and
      otherwise as JSON after adding "jpg" to its formats. A null extension
      throws. */
  function InfoResponse(id: string, height: int, width: int, levels: int, extension: Option<string>,
                        server: string, prefix: string, iiifUrl: string): (r: Result<InfoBody, string>)
    ensures r.Err? <==> extension.None?
    ensures r.Ok? ==> (r.value.XmlDoc? <==> extension.value == "xml")
    ensures r.Ok? && r.value.XmlDoc? ==> r.value.xml.identifier == id
    ensures r.Ok? && r.value.XmlDoc? ==> r.value.xml == Info.XmlOf(Info.New(id, height, width, levels))
    ensures r.Ok? && r.value.XmlDoc? && IsInt32(width) && IsInt32(height) ==>
      ParseInt(r.value.xml.width) == Some(width) && ParseInt(r.value.xml.height) == Some(height)
    ensures r.Ok? && r.value.JsonDoc? ==>
      r.value.json.width == width && r.value.json.height == height && r.value.json.qualities == ["native"]
    ensures r.Ok? && r.value.JsonDoc? ==>
      r.value.json.id == server + "/" + prefix + "/" + UrlEncode.PathSafetyEncode(id) &&
      r.value.json.scaleFactors == Info.ScaleFactors(levels) && r.value.json.myFormats == []
  {
    match extension
    case None => Err("NullPointerException")
    case Some(ext) =>
      var info := Info.New(id, height, width, levels);
      if ext == "xml" then Ok(XmlDoc(Info.InfoDoc(info).0))
      else Ok(JsonDoc(Info.ToJson(Info.AddFormat(info, "jpg"), server, prefix, iiifUrl).0))
  }

  /** Because `addFormat` never adds, the JSON info document lists no
      formats, although the servlet asks for "jpg". */
  lemma InfoJsonListsNoFormats(id: string, height: int, width: int, levels: int, ext: string, server: string, prefix: string, iiifUrl: string)
    requires ext != "xml"
    ensures InfoResponse(id, height, width, levels, Some(ext), server, prefix, iiifUrl).value.json.myFormats == []
    ensures Info.AddFormatIntended(Info.New(id, height, width, levels), "jpg").formats == ["jpg"]
  {
    Info.AddFormatLosesFormat(id, height, width, levels);
  }

  // ---------------------------------------------------------------------
  // cacheNewImage: moving the new tile into the Pairtree cache
  // ---------------------------------------------------------------------

  /** What the file system and the resolver's cache report: whether the
      session's file exists, whether renaming it into the Pairtree
      succeeds, whether the resolver's cache held the link, and whether
      debug logging is on. */
  datatype CleanupEnv = CleanupEnv(fileExists: string -> bool, renameOk: bool, removeOk: bool, debug: bool)

  /** The session afterwards, whether the file was moved, and the name the
      resolver's cache was asked to drop (`None` when it was not asked;
      `Some(None)` for a null name). */
  datatype Cleanup = Cleanup(session: map<string, string>, moved: bool, unlink: Option<Option<string>>)

  /** `cacheNewImage`. With debug logging on, a failed rename or a failed
      unlink stops the clean-up; with it off, both failures are passed
      over. */
  function CacheNewImage(session: map<string, string>, key: string, env: CleanupEnv): (r: Cleanup)
    ensures key !in session ==> r == Cleanup(session, false, None)
    ensures key in session ==>
      var file := session[key];
      && (r.unlink.Some? <==> env.fileExists(file) && (env.renameOk || !env.debug))
      && (r.unlink.Some? ==> r.unlink.value == (if file in session then Some(session[file]) else None))
      && (r.moved <==> env.fileExists(file) && env.renameOk)
      && (r.session != session <==> env.fileExists(file) && (env.renameOk || !env.debug) && (env.removeOk || !env.debug))
      && (r.session != session ==> r.session == session - {key, file})
  {
    if key !in session then Cleanup(session, false, None)
    else
      var file := session[key];
      var cacheName := if file in session then Some(session[file]) else None;
      if !env.fileExists(file) then Cleanup(session, false, None)
      else if !env.renameOk && env.debug then Cleanup(session, false, None)
      else if !env.removeOk && env.debug then Cleanup(session, env.renameOk, Some(cacheName))
      else Cleanup(session - {key, file}, env.renameOk, Some(cacheName))
  }

  /** Once the clean-up has removed the entry, running it again changes
      nothing. */
  lemma CleanupOnce(session: map<string, string>, key: string, env: CleanupEnv, env2: CleanupEnv)
    requires CacheNewImage(session, key, env).session != session
    ensures var after := CacheNewImage(session, key, env).session;
      CacheNewImage(after, key, env2) == Cleanup(after, false, None)
  {
  }

  /** With debug logging off, an existing file always ends the session
      entry, even when the rename failed and the tile is lost to the
      Pairtree. */
  lemma DebugOffDropsFailedRename(session: map<string, string>, key: string, env: CleanupEnv)
    requires key in session && env.fileExists(session[key]) && !env.debug && !env.renameOk
    ensures var r := CacheNewImage(session, key, env);
      !r.moved && key !in r.session && r.unlink.Some?
  {
  }

  /** The evident intent of `cacheNewImage`: a failed rename or a failed
      unlink stops the clean-up whether or not debug logging is on. */
  function CacheNewImageIntended(session: map<string, string>, key: string, env: CleanupEnv): (r: Cleanup)
    ensures key !in session ==> r == Cleanup(session, false, None)
    ensures r.session != session ==> r.moved && env.removeOk && key in session && r.session == session - {key, session[key]}
    ensures key in session && env.fileExists(session[key]) && env.renameOk && env.removeOk ==>
      r.session == session - {key, session[key]}
  {
    if key !in session then Cleanup(session, false, None)
    else
      var file := session[key];
      var cacheName := if file in session then Some(session[file]) else None;
      if !env.fileExists(file) || !env.renameOk then Cleanup(session, false, None)
      else if !env.removeOk then Cleanup(session, true, Some(cacheName))
      else Cleanup(session - {key, file}, true, Some(cacheName))
  }

  /** The logging level does not change what the intended clean-up does,
      and with debug logging on the clean-up as written already behaves as
      intended. */
  lemma CleanupIntendedIgnoresLogging(session: map<string, string>, key: string, env: CleanupEnv)
    ensures CacheNewImageIntended(session, key, env) == CacheNewImageIntended(session, key, env.(debug := !env.debug))
    ensures env.debug ==> CacheNewImage(session, key, env) == CacheNewImageIntended(session, key, env)
  {
  }

  /** The discrepancy: with debug logging off and a failed rename, the
      clean-up as written drops the session entry while the intended one
      keeps it for a later attempt. */
  lemma CleanupDiffersWhenDebugOff(session: map<string, string>, key: string, env: CleanupEnv)
    requires key in session && env.fileExists(session[key]) && !env.debug && !env.renameOk
    ensures key !in CacheNewImage(session, key, env).session
    ensures CacheNewImageIntended(session, key, env).session == session
  {
  }
}

=== FILE: info_request.dfy ===
/** `InfoRequest`: reads an IIIF image-information request path
    "{prefix}/{identifier}/info.{json|xml}". */
module InfoRequestParse {
  import opened Wrappers
  import opened JavaString
  import opened IIIFError
  import Resolver

  /** A parsed information request; `identifier` is `None` when a prefix
      is configured but does not occur in the path. */
  datatype InfoRequest = InfoRequest(prefix: Option<string>, extension: string, identifier: Option<string>)

  const InfoMarker: string := "/info."

  /** `parseExtension`: "xml" or "json" by the path's ending; anything else
      is a `RuntimeException` with an empty message. */
  function ParseExtension(path: string): (r: Result<string, Failure>)
    ensures r.Ok? <==> EndsWith(path, ".xml") || EndsWith(path, ".json")
    ensures r.Ok? ==> r.value in {"xml", "json"} && EndsWith(path, "." + r.value)
    ensures r.Err? ==> r.error == Runtime("")
  {
    if EndsWith(path, ".xml") then Ok("xml")
    else if EndsWith(path, ".json") then Ok("json")
    else Err(Runtime(""))
  }

  /** The first index of the identifier: 1 without a prefix; with one, just
      past "/" + prefix + one more character, or -1 when "/" + prefix does
      not occur. */
  function IdentifierStart(path: string, prefix: Option<string>): (k: int)
    ensures prefix.None? ==> k == 1
    ensures prefix.Some? ==> (k == -1 <==> !Contains(path, "/" + prefix.value))
    ensures prefix.Some? && k != -1 ==>
      var spp := "/" + prefix.value;
      exists i :: OccursAt(path, spp, i) && k == i + |spp| + 1
  {
    match prefix
    case None => 1
    case Some(p) =>
      var spp := "/" + p;
      var i := IndexOf(path, spp);
      if i == -1 then -1 else i + |spp| + 1
  }

  /** `parseIdentifier`: the text between the identifier start and the last
      "/info.", run through `extractID`. */
  function ParseIdentifier(path: string, prefix: Option<string>, patterns: seq<string>, c: Resolver.Codec): (r: Result<Option<string>, Failure>)
    ensures !Contains(path, InfoMarker) ==> r == Err(Runtime("Improper syntax: " + path))
    ensures Contains(path, InfoMarker) && IdentifierStart(path, prefix) == -1 ==> r == Ok(None)
    ensures r.Ok? && r.value.Some? ==>
      var start := IdentifierStart(path, prefix);
      var end := LastIndexOf(path, InfoMarker);
      && 0 <= start <= end
      && Resolver.ExtractId(path[start..end], patterns, c) == Ok(r.value)
    ensures r.Err? && r.error.Iiif? ==>
      r.error.exception == WithMessage("Request doesn't contain a valid identifier: " + path)
    ensures var start := IdentifierStart(path, prefix);
      var end := LastIndexOf(path, InfoMarker);
      0 <= start <= end ==>
        var x := Resolver.ExtractId(path[start..end], patterns, c);
        && (x.Err? ==> r == Err(x.error))
        && (x == Ok(None) ==> r.Err? && r.error.Iiif?)
  {
    var end := LastIndexOf(path, InfoMarker);
    var start := IdentifierStart(path, prefix);
    if end == -1 then Err(Runtime("Improper syntax: " + path))
    else if start == -1 then Ok(None)
    else if start > end then Err(Runtime("String index out of range"))
    else match Resolver.ExtractId(path[start..end], patterns, c)
      case Err(e) => Err(e)
      case Ok(None) => Err(Iiif(WithMessage("Request doesn't contain a valid identifier: " + path)))
      case Ok(Some(id)) => Ok(Some(id))
  }

  /** The info request constructor: the extension first, then the
      identifier. */
  function Parse(path: string, prefix: Option<string>, patterns: seq<string>, c: Resolver.Codec): (r: Result<InfoRequest, Failure>)
    ensures ParseExtension(path).Err? ==> r == Err(ParseExtension(path).error)
    ensures ParseExtension(path).Ok? ==>
      match ParseIdentifier(path, prefix, patterns, c)
      case Err(e) => r == Err(e)
      case Ok(id) => r == Ok(InfoRequest(prefix, ParseExtension(path).value, id))
  {
    var ext :- ParseExtension(path);
    var id :- ParseIdentifier(path, prefix, patterns, c);
    Ok(InfoRequest(prefix, ext, id))
  }

  /** A bad extension pre-empts every identifier error. */
  lemma ExtensionFirst(path: string, prefix: Option<string>, patterns: seq<string>, c: Resolver.Codec)
    requires !EndsWith(path, ".xml") && !EndsWith(path, ".json")
    ensures Parse(path, prefix, patterns, c) == Err(Runtime(""))
  {
  }

  /** "/" + id + "/info." + ext, with no '/' in `ext`: the last "/info."
      starts right after the identifier. */
  lemma MarkerAfterId(id: string, ext: string)
    requires NoChar(ext, '/')
    ensures LastIndexOf("/" + id + InfoMarker + ext, InfoMarker) == 1 + |id|
  {
    var path := "/" + id + InfoMarker + ext;
    var k := 1 + |id|;
    assert path[k..k + |InfoMarker|] == InfoMarker;
    assert OccursAt(path, InfoMarker, k);
    forall j | k < j
      ensures !OccursAt(path, InfoMarker, j)
    {
      if j < |path| {
        if j < k + |InfoMarker| {
          assert path[j] == InfoMarker[j - k];
        } else {
          assert path[j] == ext[j - k - |InfoMarker|];
        }
        assert path[j] != InfoMarker[0];
        if j + |InfoMarker| <= |path| {
          assert path[j..j + |InfoMarker|][0] == path[j];
        }
      }
    }
  }

  /** A composed info path ends with its extension. */
  lemma ComposedExtension(id: string, ext: string)
    requires ext in {"json", "xml"}
    ensures ParseExtension("/" + id + InfoMarker + ext) == Ok(ext)
  {
    var path := "/" + id + InfoMarker + ext;
    assert path[|path| - |ext| - 1..] == "." + ext;
    if ext == "json" {
      assert path[|path| - 1] == 'n';
      assert !EndsWith(path, ".xml");
    }
  }

  /** Without a prefix the identifier text of a composed path is the
      identifier. */
  lemma ComposedIdentifier(id: string, ext: string, patterns: seq<string>, c: Resolver.Codec)
    requires ext in {"json", "xml"}
    ensures ParseIdentifier("/" + id + InfoMarker + ext, None, patterns, c)
      == match Resolver.ExtractId(id, patterns, c)
         case Err(e) => Err(e)
         case Ok(None) => Err(Iiif(WithMessage("Request doesn't contain a valid identifier: " + ("/" + id + InfoMarker + ext))))
         case Ok(Some(v)) => Ok(Some(v))
  {
    var path := "/" + id + InfoMarker + ext;
    assert NoChar(ext, '/');
    MarkerAfterId(id, ext);
    assert path[1..1 + |id|] == id;
  }

  /** Without a prefix, "/" + id + "/info." + ext reads back as `id` run
      through `extractID`, with extension `ext`. */
  lemma ComposedInfoPath(id: string, ext: string, patterns: seq<string>, c: Resolver.Codec)
    requires ext in {"json", "xml"}
    ensures Parse("/" + id + InfoMarker + ext, None, patterns, c)
      == match Resolver.ExtractId(id, patterns, c)
         case Err(e) => Err(e)
         case Ok(None) => Err(Iiif(WithMessage("Request doesn't contain a valid identifier: " + ("/" + id + InfoMarker + ext))))
         case Ok(Some(v)) => Ok(InfoRequest(None, ext, Some(v)))
  {
    ComposedExtension(id, ext);
    ComposedIdentifier(id, ext, patterns, c);
  }

  /** With a prefix that does not occur in the path, no identifier is set
      and no error is raised. */
  lemma AbsentPrefixNoIdentifier(path: string, p: string, patterns: seq<string>, c: Resolver.Codec)
    requires Contains(path, InfoMarker) && !Contains(path, "/" + p)
    ensures ParseIdentifier(path, Some(p), patterns, c) == Ok(None)
  {
  }
}

=== FILE: java_string.dfy ===
/** The parts of `java.lang.String`, `Integer` and `StringTokenizer` that the
    server's parsing code relies on, written out so that their edge cases are
    explicit: `split` drops trailing empty strings, `parseInt` accepts one
    optional sign and only 32-bit values, `replace` rewrites non-overlapping
    matches from left to right. Characters are UTF-16 code units (`char`);
    only ASCII digits and ASCII case folding are modelled. */
module JavaString {
  import opened Wrappers

  // ---------------------------------------------------------------------
  // 32-bit integers
  // ---------------------------------------------------------------------

  const INT_MIN: int := -0x8000_0000
  const INT_MAX: int := 0x7FFF_FFFF

  predicate IsInt32(n: int) {
    INT_MIN <= n <= INT_MAX
  }

  /** Two's-complement wrap-around of a Java `int` operation. */
  function Wrap32(n: int): (r: int)
    ensures IsInt32(r)
    ensures IsInt32(n) ==> r == n
    ensures (r - n) % 0x1_0000_0000 == 0
  {
    (n - INT_MIN) % 0x1_0000_0000 + INT_MIN
  }

  /** Two to the power `n`. */
  function Pow2(n: nat): (r: nat)
    ensures r >= 1
  {
    if n == 0 then 1 else 2 * Pow2(n - 1)
  }

  lemma {:induction false} Pow2Add(a: nat, b: nat)
    ensures Pow2(a + b) == Pow2(a) * Pow2(b)
    decreases a
  {
    if a > 0 {
      Pow2Add(a - 1, b);
      assert Pow2(a + b) == 2 * Pow2(a - 1 + b);
    }
  }

  lemma {:induction false} Pow2Monotone(a: nat, b: nat)
    requires a <= b
    ensures Pow2(a) <= Pow2(b)
    decreases b
  {
    if a < b {
      Pow2Monotone(a, b - 1);
    }
  }

  /** A few values of `Pow2`, from doubling. */
  lemma Pow2Table()
    ensures Pow2(8) == 256 && Pow2(22) == 0x40_0000 && Pow2(30) == 0x4000_0000
  {
    assert Pow2(1) == 2;
    Pow2Add(1, 1);
    Pow2Add(2, 2);
    Pow2Add(4, 4);
    Pow2Add(8, 8);
    Pow2Add(16, 4);
    Pow2Add(20, 2);
    Pow2Add(16, 8);
    Pow2Add(24, 4);
    Pow2Add(28, 2);
  }

  /** Powers of two up to 2^30 are Java ints. */
  lemma Pow2Int32(n: nat)
    ensures n <= 30 ==> Pow2(n) <= 0x4000_0000
  {
    if n <= 30 {
      Pow2Monotone(n, 30);
      Pow2Table();
    }
  }

  // ---------------------------------------------------------------------
  // Searching
  // ---------------------------------------------------------------------

  predicate StartsWith(s: string, p: string) {
    |p| <= |s| && s[..|p|] == p
  }

  predicate EndsWith(s: string, p: string) {
    |p| <= |s| && s[|s| - |p|..] == p
  }

  /** `t` occurs in `s` at index `i`. */
  predicate OccursAt(s: string, t: string, i: int) {
    0 <= i && i + |t| <= |s| && s[i..i + |t|] == t
  }

  predicate Contains(s: string, t: string) {
    exists i | 0 <= i <= |s| :: OccursAt(s, t, i)
  }

  function IndexFrom(s: string, t: string, k: nat): (r: int)
    requires k <= |s| + 1
    ensures r == -1 || (k <= r && OccursAt(s, t, r))
    ensures forall j :: k <= j && (r == -1 || j < r) ==> !OccursAt(s, t, j)
    decreases |s| + 1 - k
  {
    if k + |t| > |s| then -1
    else if s[k..k + |t|] == t then k
    else IndexFrom(s, t, k + 1)
  }

  /** `String.indexOf`: the first index at which `t` occurs, or -1. */
  function IndexOf(s: string, t: string): (r: int)
    ensures r == -1 <==> !Contains(s, t)
    ensures r != -1 ==> OccursAt(s, t, r) && forall j :: 0 <= j < r ==> !OccursAt(s, t, j)
  {
    IndexFrom(s, t, 0)
  }

  function LastIndexFrom(s: string, t: string, k: int): (r: int)
    requires k <= |s|
    ensures r == -1 || (r <= k && OccursAt(s, t, r))
    ensures forall j :: j <= k && r < j ==> !OccursAt(s, t, j)
    decreases k + 1
  {
    if k < 0 then -1
    else if OccursAt(s, t, k) then k
    else LastIndexFrom(s, t, k - 1)
  }

  /** `String.lastIndexOf`: the last index at which `t` occurs, or -1. */
  function LastIndexOf(s: string, t: string): (r: int)
    ensures r == -1 <==> !Contains(s, t)
    ensures r != -1 ==> OccursAt(s, t, r) && forall j :: r < j ==> !OccursAt(s, t, j)
  {
    LastIndexFrom(s, t, |s|)
  }

  // ---------------------------------------------------------------------
  // Replacing
  // ---------------------------------------------------------------------

  /** `String.replace(CharSequence, CharSequence)`: every non-overlapping
      occurrence of `t`, scanning left to right, becomes `r`. */
  function Replace(s: string, t: string, r: string): string
    requires |t| > 0
    decreases |s|
  {
    if |s| < |t| then s
    else if s[..|t|] == t then r + Replace(s[|t|..], t, r)
    else [s[0]] + Replace(s[1..], t, r)
  }

  /** `String.replace(char, char)`. */
  function ReplaceChar(s: string, a: char, b: char): (r: string)
    ensures |r| == |s|
    ensures forall i :: 0 <= i < |s| ==> r[i] == (if s[i] == a then b else s[i])
  {
    seq(|s|, i requires 0 <= i < |s| => if s[i] == a then b else s[i])
  }

  lemma {:induction false} ReplaceAbsent(s: string, t: string, r: string)
    requires |t| > 0
    requires !Contains(s, t)
    ensures Replace(s, t, r) == s
    decreases |s|
  {
    if |s| >= |t| {
      assert !OccursAt(s, t, 0);
      forall i | OccursAt(s[1..], t, i) ensures false {
        assert s[1..][i..i + |t|] == s[i + 1..i + 1 + |t|];
        assert OccursAt(s, t, i + 1);
      }
      ReplaceAbsent(s[1..], t, r);
    }
  }

  /** Replacing leaves a prefix alone when no occurrence starts inside it. */
  lemma {:induction false} ReplaceKeep(w: string, y: string, t: string, r: string)
    requires |t| > 0
    requires forall i :: 0 <= i < |w| ==> !OccursAt(w + y, t, i)
    ensures Replace(w + y, t, r) == w + Replace(y, t, r)
    decreases |w|
  {
    if |w| > 0 {
      var s := w + y;
      assert s[1..] == w[1..] + y;
      forall i | 0 <= i < |w[1..]| ensures !OccursAt(w[1..] + y, t, i) {
        assert !OccursAt(s, t, i + 1);
        if i + |t| <= |s[1..]| {
          assert s[1..][i..i + |t|] == s[i + 1..i + 1 + |t|];
        }
      }
      ReplaceKeep(w[1..], y, t, r);
      assert w == [w[0]] + w[1..];
      if |s| >= |t| {
        assert !OccursAt(s, t, 0);
        assert s[0..|t|] == s[..|t|];
        assert Replace(s, t, r) == [s[0]] + Replace(s[1..], t, r);
        assert [s[0]] + (w[1..] + Replace(y, t, r)) == w + Replace(y, t, r);
      } else {
        ReplaceShort(y, t, r);
        ReplaceShort(s, t, r);
      }
    } else {
      assert w + y == y;
    }
  }

  /** Text shorter than the pattern is left alone. */
  lemma ReplaceShort(s: string, t: string, r: string)
    requires 0 < |t| && |s| < |t|
    ensures Replace(s, t, r) == s
  {
  }

  /** An occurrence at the start is replaced. */
  lemma ReplaceAtStart(y: string, t: string, r: string)
    requires |t| > 0
    ensures Replace(t + y, t, r) == r + Replace(y, t, r)
  {
    assert (t + y)[..|t|] == t;
    assert (t + y)[|t|..] == y;
  }

  /** The first `k` characters of `s` avoid `c`. */
  predicate PrefixAvoids(s: string, k: nat, c: char) {
    k <= |s| && forall i :: 0 <= i < k ==> s[i] != c
  }

  /** A text starting with `p` avoids every character `p` avoids, over
      the length of `p`. */
  lemma StartsWithAvoids(x: string, p: string, c: char)
    requires StartsWith(x, p) && c !in p
    ensures PrefixAvoids(x, |p|, c)
  {
    forall i | 0 <= i < |p| ensures x[i] != c {
      assert x[..|p|][i] == x[i];
    }
  }

  /** Occurrences past a prefix are the occurrences in the rest. */
  lemma OccursAfter(w: string, y: string, t: string, i: int)
    requires |w| <= i
    ensures OccursAt(w + y, t, i) == OccursAt(y, t, i - |w|)
  {
    if i + |t| <= |w + y| {
      assert (w + y)[i..i + |t|] == y[i - |w|..i - |w| + |t|];
    }
  }

  /** When the replacement starts like the pattern, a prefix of the output
      free of that first character was copied from the input unchanged. */
  lemma {:induction false} ReplaceKeepsPlainPrefix(u: string, t: string, r: string, k: nat)
    requires |t| > 0 && |r| > 0 && r[0] == t[0]
    ensures PrefixAvoids(Replace(u, t, r), k, t[0]) ==> k <= |u| && u[..k] == Replace(u, t, r)[..k]
    decreases k
  {
    var out := Replace(u, t, r);
    if k > 0 && |u| >= |t| {
      if u[..|t|] == t {
        assert out[0] == t[0];
      } else if PrefixAvoids(out, k, t[0]) {
        var rest := Replace(u[1..], t, r);
        assert out == [u[0]] + rest;
        assert PrefixAvoids(rest, k - 1, t[0]) by {
          forall i | 0 <= i < k - 1 ensures rest[i] != t[0] {
            assert rest[i] == out[i + 1];
          }
        }
        ReplaceKeepsPlainPrefix(u[1..], t, r, k - 1);
        assert u[..k] == [u[0]] + u[1..][..k - 1];
      }
    }
  }

  /** An occurrence inside a suffix is an occurrence in the whole text. */
  lemma ContainsSuffix(s: string, t: string, k: nat)
    requires k <= |s|
    ensures Contains(s[k..], t) ==> Contains(s, t)
  {
    if Contains(s[k..], t) {
      var i :| 0 <= i <= |s[k..]| && OccursAt(s[k..], t, i);
      assert s[k..][i..i + |t|] == s[k + i..k + i + |t|];
      assert OccursAt(s, t, k + i);
    }
  }

  // ---------------------------------------------------------------------
  // Splitting and joining on one character
  // ---------------------------------------------------------------------

  /** The pieces between occurrences of `c`, empty ones included: always one
      more piece than there are occurrences. */
  function Pieces(s: string, c: char): (r: seq<string>)
    ensures |r| >= 1
    decreases |s|
  {
    if |s| == 0 then [""]
    else if s[0] == c then [""] + Pieces(s[1..], c)
    else
      var rest := Pieces(s[1..], c);
      [[s[0]] + rest[0]] + rest[1..]
  }

  /** Removes empty strings from the end, as `split` with limit 0 does. */
  function DropTrailingEmpty(ps: seq<string>): (r: seq<string>)
    ensures |r| <= |ps| && r == ps[..|r|]
    ensures |r| > 0 ==> r[|r| - 1] != ""
    ensures forall i :: |r| <= i < |ps| ==> ps[i] == ""
  {
    if |ps| > 0 && ps[|ps| - 1] == "" then DropTrailingEmpty(ps[..|ps| - 1]) else ps
  }

  /** `String.split` with a one-character, non-meta regular expression: the
      string itself when `c` does not occur, otherwise the pieces with
      trailing empty ones removed. */
  function Split(s: string, c: char): seq<string> {
    if c !in s then [s] else DropTrailingEmpty(Pieces(s, c))
  }

  /** The inverse of `Pieces`: the pieces with `c` between them. */
  function Join(ps: seq<string>, c: char): string
    decreases |ps|
  {
    if |ps| == 0 then ""
    else if |ps| == 1 then ps[0]
    else ps[0] + [c] + Join(ps[1..], c)
  }

  predicate NoChar(s: string, c: char) {
    forall i :: 0 <= i < |s| ==> s[i] != c
  }

  lemma {:induction false} PiecesOfPrefixed(x: string, c: char, y: string)
    requires NoChar(x, c)
    ensures Pieces(x + [c] + y, c) == [x] + Pieces(y, c)
    decreases |x|
  {
    if |x| == 0 {
      assert x + [c] + y == [c] + y;
      assert ([c] + y)[1..] == y;
    } else {
      assert (x + [c] + y)[1..] == x[1..] + [c] + y;
      PiecesOfPrefixed(x[1..], c, y);
      assert [x[0]] + x[1..] == x;
    }
  }

  lemma {:induction false} PiecesOfPlain(x: string, c: char)
    requires NoChar(x, c)
    ensures Pieces(x, c) == [x]
    decreases |x|
  {
    if |x| > 0 {
      PiecesOfPlain(x[1..], c);
      assert [x[0]] + x[1..] == x;
    }
  }

  /** Splitting a join gives back the pieces, provided no piece holds `c`. */
  lemma {:induction false} PiecesOfJoin(ps: seq<string>, c: char)
    requires |ps| >= 1
    requires forall i :: 0 <= i < |ps| ==> NoChar(ps[i], c)
    ensures Pieces(Join(ps, c), c) == ps
    decreases |ps|
  {
    if |ps| == 1 {
      PiecesOfPlain(ps[0], c);
    } else {
      PiecesOfJoin(ps[1..], c);
      PiecesOfPrefixed(ps[0], c, Join(ps[1..], c));
      assert [ps[0]] + ps[1..] == ps;
    }
  }

  /** Joining four pieces, written out. */
  lemma Join4(a: string, b: string, d: string, e: string, c: char)
    ensures Join([a, b, d, e], c) == a + [c] + b + [c] + d + [c] + e
  {
    assert [a, b, d, e][1..] == [b, d, e];
    assert [b, d, e][1..] == [d, e];
    assert [d, e][1..] == [e];
    assert Join([d, e], c) == d + [c] + e;
    assert Join([b, d, e], c) == b + [c] + (d + [c] + e);
    assert Join([a, b, d, e], c) == a + [c] + (b + [c] + (d + [c] + e));
  }

  /** Text around a four-piece join stays attached to its end pieces. */
  lemma Enclose4(p: string, a: string, b: string, d: string, e: string, q: string, c: char)
    ensures p + (a + [c] + b + [c] + d + [c] + e) + q == (p + a) + [c] + b + [c] + d + [c] + (e + q)
  {
    var m := [c] + b + [c] + d + [c];
    assert a + [c] + b + [c] + d + [c] + e == a + m + e;
    assert (p + a) + [c] + b + [c] + d + [c] + (e + q) == (p + a) + m + (e + q);
  }

  /** Joining five pieces, written out. */
  lemma Join5(a: string, b: string, d: string, e: string, f: string, c: char)
    ensures Join([a, b, d, e, f], c) == a + [c] + b + [c] + d + [c] + e + [c] + f
  {
    assert [a, b, d, e, f][1..] == [b, d, e, f];
    Join4(b, d, e, f, c);
    assert Join([a, b, d, e, f], c) == a + [c] + (b + [c] + d + [c] + e + [c] + f);
  }

  /** `Join` is injective on pieces free of the separator. */
  lemma JoinInjective(ps: seq<string>, qs: seq<string>, c: char)
    requires |ps| >= 1 && |qs| >= 1
    requires forall i :: 0 <= i < |ps| ==> NoChar(ps[i], c)
    requires forall i :: 0 <= i < |qs| ==> NoChar(qs[i], c)
    requires Join(ps, c) == Join(qs, c)
    ensures ps == qs
  {
    PiecesOfJoin(ps, c);
    PiecesOfJoin(qs, c);
  }

  lemma JoinHasSeparator(ps: seq<string>, c: char)
    requires |ps| >= 2
    ensures c in Join(ps, c)
  {
    assert Join(ps, c)[|ps[0]|] == c;
  }

  /** `split` undoes a join of non-empty, separator-free pieces. */
  lemma SplitJoin(ps: seq<string>, c: char)
    requires |ps| >= 2
    requires forall i :: 0 <= i < |ps| ==> NoChar(ps[i], c)
    requires ps[|ps| - 1] != ""
    ensures Split(Join(ps, c), c) == ps
  {
    JoinHasSeparator(ps, c);
    PiecesOfJoin(ps, c);
  }

  // ---------------------------------------------------------------------
  // Decimal integers
  // ---------------------------------------------------------------------

  predicate IsDigit(ch: char) {
    '0' <= ch <= '9'
  }

  predicate AllDigits(s: string) {
    forall i :: 0 <= i < |s| ==> IsDigit(s[i])
  }

  /** The value of a string of decimal digits, most significant first. */
  function DigitsValue(s: string): nat
    requires AllDigits(s)
    decreases |s|
  {
    if |s| == 0 then 0
    else DigitsValue(s[..|s| - 1]) * 10 + (s[|s| - 1] as int - '0' as int)
  }

  /** `Integer.parseInt`: an optional '-' or '+', then at least one digit,
      and the value must fit in 32 bits; anything else is a
      `NumberFormatException` (`None`). */
  function ParseInt(s: string): (r: Option<int>)
    ensures r.Some? ==> IsInt32(r.value)
  {
    if |s| == 0 then None
    else
      var body := if s[0] == '-' || s[0] == '+' then s[1..] else s;
      if |body| == 0 || !AllDigits(body) then None
      else
        var magnitude: int := DigitsValue(body);
        var v := if s[0] == '-' then -magnitude else magnitude;
        if IsInt32(v) then Some(v) else None
  }

  function DigitChar(d: int): char
    requires 0 <= d < 10
  {
    (d + '0' as int) as char
  }

  /** Decimal digits of a natural number, without leading zeros. */
  function NatToString(n: nat): (r: string)
    ensures |r| >= 1 && AllDigits(r)
    decreases n
  {
    if n < 10 then [DigitChar(n)] else NatToString(n / 10) + [DigitChar(n % 10)]
  }

  /** `Integer.toString` (and string concatenation of an `int`). */
  function IntToString(n: int): (r: string)
    ensures |r| >= 1
  {
    if n < 0 then "-" + NatToString(-n) else NatToString(n)
  }

  lemma {:induction false} NatToStringValue(n: nat)
    ensures DigitsValue(NatToString(n)) == n
    decreases n
  {
    if n >= 10 {
      NatToStringValue(n / 10);
      var s := NatToString(n);
      assert s[..|s| - 1] == NatToString(n / 10);
    }
  }

  /** Only digits and a leading minus sign: never ',', '|', '-' elsewhere. */
  lemma IntToStringChars(n: int)
    ensures forall i :: 0 <= i < |IntToString(n)| ==>
      IsDigit(IntToString(n)[i]) || (i == 0 && n < 0 && IntToString(n)[i] == '-')
  {
  }

  /** Reading back a printed 32-bit integer gives the integer. */
  lemma ParseIntOfIntToString(n: int)
    requires IsInt32(n)
    ensures ParseInt(IntToString(n)) == Some(n)
  {
    NatToStringValue(if n < 0 then -n else n);
    if n < 0 {
      assert IntToString(n)[1..] == NatToString(-n);
    }
  }

  /** A printed int reads back whenever it is a Java int. */
  lemma IntTextReads(n: int)
    ensures IsInt32(n) ==> ParseInt(IntToString(n)) == Some(n)
  {
    if IsInt32(n) {
      ParseIntOfIntToString(n);
    }
  }

  /** Two ints printed as "a,b" split back into the two texts, and each
      reads back as its int. */
  lemma IntPairReads(a: int, b: int)
    requires IsInt32(a) && IsInt32(b)
    ensures Split(IntToString(a) + "," + IntToString(b), ',') == [IntToString(a), IntToString(b)]
    ensures ParseInt(IntToString(a)) == Some(a) && ParseInt(IntToString(b)) == Some(b)
  {
    IntToStringNoChar(a, ',');
    IntToStringNoChar(b, ',');
    assert Join([IntToString(a), IntToString(b)], ',') == IntToString(a) + "," + IntToString(b);
    SplitJoin([IntToString(a), IntToString(b)], ',');
    ParseIntOfIntToString(a);
    ParseIntOfIntToString(b);
  }

  /** Reads a printed integer back (no range limit). */
  function ReadInt(s: string): int
    requires |s| >= 1 && (AllDigits(s) || (s[0] == '-' && AllDigits(s[1..])))
  {
    if s[0] == '-' then -(DigitsValue(s[1..]) as int) else DigitsValue(s)
  }

  lemma ReadIntOfIntToString(n: int)
    ensures var s := IntToString(n);
      |s| >= 1 && (AllDigits(s) || (s[0] == '-' && AllDigits(s[1..]))) && ReadInt(s) == n
  {
    NatToStringValue(if n < 0 then -n else n);
    if n < 0 {
      assert IntToString(n)[1..] == NatToString(-n);
    }
  }

  /** Distinct integers print differently. */
  lemma IntToStringInjective(a: int, b: int)
    ensures IntToString(a) == IntToString(b) ==> a == b
  {
    ReadIntOfIntToString(a);
    ReadIntOfIntToString(b);
  }

  lemma IntToStringNoChar(n: int, c: char)
    requires c != '-' && !IsDigit(c)
    ensures NoChar(IntToString(n), c)
  {
    IntToStringChars(n);
  }

  // ---------------------------------------------------------------------
  // Case, whitespace and tokens
  // ---------------------------------------------------------------------

  function LowerChar(ch: char): char {
    if 'A' <= ch <= 'Z' then (ch as int + 32) as char else ch
  }

  /** `String.toLowerCase` restricted to ASCII letters. */
  function ToLower(s: string): (r: string)
    ensures |r| == |s|
    ensures forall i :: 0 <= i < |s| ==> r[i] == LowerChar(s[i])
  {
    seq(|s|, i requires 0 <= i < |s| => LowerChar(s[i]))
  }

  /** `String.equalsIgnoreCase` with ASCII case folding. */
  predicate EqualsIgnoreCase(s: string, t: string) {
    ToLower(s) == ToLower(t)
  }

  /** Characters `String.trim` removes: everything up to and including ' '. */
  predicate IsTrimmed(ch: char) {
    ch <= ' '
  }

  function TrimStart(s: string): (r: string)
    ensures |r| <= |s| && r == s[|s| - |r|..]
    ensures |r| > 0 ==> !IsTrimmed(r[0])
    decreases |s|
  {
    if |s| > 0 && IsTrimmed(s[0]) then TrimStart(s[1..]) else s
  }

  function TrimEnd(s: string): (r: string)
    ensures |r| <= |s| && r == s[..|r|]
    ensures |r| > 0 ==> !IsTrimmed(r[|r| - 1])
    decreases |s|
  {
    if |s| > 0 && IsTrimmed(s[|s| - 1]) then TrimEnd(s[..|s| - 1]) else s
  }

  /** `String.trim`. */
  function Trim(s: string): string {
    TrimEnd(TrimStart(s))
  }

  /** `StringTokenizer`'s default delimiters. */
  predicate IsDelimiter(ch: char) {
    ch == ' ' || ch == '\t' || ch == '\n' || ch == '\r' || ch == 12 as char
  }

  /** The leading run of non-delimiters. */
  function TokenPrefix(s: string): (r: string)
    ensures |r| <= |s| && r == s[..|r|]
    ensures forall i :: 0 <= i < |r| ==> !IsDelimiter(r[i])
    ensures |r| < |s| ==> IsDelimiter(s[|r|])
    decreases |s|
  {
    if |s| == 0 || IsDelimiter(s[0]) then "" else [s[0]] + TokenPrefix(s[1..])
  }

  /** The tokens a default `StringTokenizer` returns, in order. */
  function Tokens(s: string): (r: seq<string>)
    ensures forall i :: 0 <= i < |r| ==> |r[i]| > 0
    ensures forall i, j :: 0 <= i < |r| && 0 <= j < |r[i]| ==> !IsDelimiter(r[i][j])
    decreases |s|
  {
    if |s| == 0 then []
    else if IsDelimiter(s[0]) then Tokens(s[1..])
    else
      var t := TokenPrefix(s);
      [t] + Tokens(s[|t|..])
  }

  /** Java's string conversion of a possibly-null `String`. */
  function NullableText(s: Option<string>): string {
    match s
    case Some(v) => v
    case None => "null"
  }
}

=== FILE: migrator.dfy ===
/** `DjatokaImageMigrator`: fetches a remote image for an identifier and
    decides whether it is stored as is, kept as a JPEG 2000 temporary file,
    or compressed to JPEG 2000 first. Downloads, files and the codec are
    outside the model; their outcomes arrive as parameters. */
module Migrator {
  import opened Wrappers
  import opened JavaString

  /** The media types of the format table. */
  datatype Mime = Jpeg | Jp2 | Png | Pnm | Tiff | Jpx | Jpm

  /** `formatMap`: file extension to media type. */
  const FormatMap: map<string, Mime> := map[
    "jpeg" := Jpeg, "jp2" := Jp2, "png" := Png, "pnm" := Pnm, "tiff" := Tiff,
    "jpg" := Jpeg, "tif" := Tiff,
    "j2c" := Jp2, "jpc" := Jp2, "j2k" := Jp2,
    "jpf" := Jpx, "jpx" := Jpx, "jpm" := Jpm]

  /** Exactly the JPEG 2000 family of extensions maps to `Jp2` or `Jpx`. */
  lemma Jp2Family(e: string)
    ensures e in FormatMap && FormatMap[e] in {Jp2, Jpx} <==> e in {"jp2", "j2c", "jpc", "j2k", "jpf", "jpx"}
  {
  }

  /** The lower-cased text after the last '.', or all of it when there is
      no '.'. */
  function Extension(path: string): (r: string)
    ensures |r| <= |path|
    ensures !Contains(path, ".") ==> r == ToLower(path)
    ensures Contains(path, ".") ==>
      exists k :: 0 < k <= |path| && path[k - 1] == '.' && NoChar(path[k..], '.') && r == ToLower(path[k..])
  {
    var k := LastIndexOf(path, ".") + 1;
    if Contains(path, ".") then
      LastDot(path);
      ToLower(path[k..])
    else ToLower(path)
  }

  /** Just past the last '.', no '.' remains. */
  lemma LastDot(path: string)
    requires Contains(path, ".")
    ensures var k := LastIndexOf(path, ".") + 1;
      0 < k <= |path| && path[k - 1] == '.' && NoChar(path[k..], '.')
  {
    var k := LastIndexOf(path, ".") + 1;
    assert path[k - 1] == "."[0] by { assert OccursAt(path, ".", k - 1); }
    forall i | 0 <= i < |path[k..]|
      ensures path[k..][i] != '.'
    {
      assert !OccursAt(path, ".", k + i);
      assert path[k + i..k + i + 1] == [path[k + i]];
    }
  }

  // ---------------------------------------------------------------------
  // processImage
  // ---------------------------------------------------------------------

  /** What `processImage` does with a downloaded file. */
  datatype Process = Compress | CheckMetadata

  /** `processImage`: a file whose extension maps to a JPEG 2000 type (as
      `isJp2Type` judges) only has its metadata read; anything else is
      compressed. */
  function ProcessImage(path: string, isJp2Type: Mime -> bool): (r: Process)
    ensures r == CheckMetadata <==> Extension(path) in FormatMap && isJp2Type(FormatMap[Extension(path)])
  {
    var ext := Extension(path);
    if ext !in FormatMap || !isJp2Type(FormatMap[ext]) then Compress else CheckMetadata
  }

  // ---------------------------------------------------------------------
  // convert
  // ---------------------------------------------------------------------

  /** Where `convert` puts the download: straight into the Pairtree, or a
      temporary file named by prefix and suffix, `jp2` recording whether
      the image is taken to be JPEG 2000 already. */
  datatype Plan = IntoPairtree | TempFile(prefix: string, suffix: string, jp2: bool)

  /** The branch and file-name decisions of `convert`. The referent
      differing from the URI text means an identifier was parsed out of it,
      and the image is presumed JPEG 2000. `sniffedJp2` is what
      `checkIfJp2` reports about the first bytes. */
  function Classify(referent: string, uri: string, hasPtRoot: bool, hash: int, sniffedJp2: bool): (r: Plan)
    ensures r.IntoPairtree? <==> referent != uri && hasPtRoot
    ensures r.TempFile? && referent != uri ==> r.jp2
    ensures r.TempFile? ==> r.suffix in {".tif", ".jp2", ".img"} || r.suffix == "." + Extension(uri)
    ensures r.TempFile? && Extension(uri) in {"tif", "tiff"} ==>
      r == TempFile("convert" + IntToString(hash), ".tif", referent != uri)
    ensures r.TempFile? && !r.jp2 ==> Extension(uri) !in FormatMap || FormatMap[Extension(uri)] !in {Jp2, Jpx}
    ensures r.TempFile? && Extension(uri) !in {"tif", "tiff"} && (Extension(uri) !in FormatMap || FormatMap[Extension(uri)] !in {Jp2, Jpx}) ==>
      r == (if sniffedJp2 then TempFile("cache" + IntToString(hash), ".jp2", referent != uri)
            else TempFile("convert" + IntToString(hash), ".img", referent != uri))
  {
    var isJp2 := referent != uri;
    if isJp2 && hasPtRoot then IntoPairtree
    else
      var ext := Extension(uri);
      var id := IntToString(hash);
      if ext == "tif" || ext == "tiff" then TempFile("convert" + id, ".tif", isJp2)
      else if ext in FormatMap && (FormatMap[ext] == Jp2 || FormatMap[ext] == Jpx) then TempFile("cache" + id, "." + ext, true)
      else if sniffedJp2 then TempFile("cache" + id, ".jp2", isJp2)
      else TempFile("convert" + id, ".img", isJp2)
  }

  /** The file `convert` returns: the Pairtree copy (kept only when
      non-empty), a downloaded temporary file, or the JPEG 2000 compressed
      from one. */
  datatype Converted = InPairtree(kept: bool) | Downloaded(prefix: string, suffix: string) | Compressed(prefix: string, suffix: string)

  /** Collaborator outcomes: the length of the Pairtree copy, the error any
      download or file step raised, `isJp2Type`, and whether the codec could
      read a JPEG 2000 file's metadata. */
  datatype Io = Io(storedLength: int, failure: Option<string>, isJp2Type: Mime -> bool, metadataOk: bool)

  /** Drops the first occurrence of `x`, as `List.remove` does. */
  function RemoveFirst(s: seq<string>, x: string): (r: seq<string>)
    ensures x in s ==> multiset(r) == multiset(s) - multiset{x}
    ensures x !in s ==> r == s
  {
    if |s| == 0 then []
    else if s[0] == x then
      assert s == [s[0]] + s[1..];
      s[1..]
    else
      assert s == [s[0]] + s[1..];
      [s[0]] + RemoveFirst(s[1..], x)
  }

  /** The processing list while `convert` runs. */
  function Entered(processing: seq<string>, referent: string): (r: seq<string>)
    ensures referent in r && multiset(r) == multiset(processing) + multiset{referent}
  {
    processing + [referent]
  }

  /** The file `convert` produces, or the message of the
      `DjatokaException` every failure becomes. */
  function ConvertResult(referent: string, uri: string, hasPtRoot: bool, hash: int, sniffedJp2: bool, io: Io): (r: Result<Converted, string>)
    ensures io.failure.Some? ==> r == Err(io.failure.value)
    ensures io.failure.None? && Classify(referent, uri, hasPtRoot, hash, sniffedJp2).IntoPairtree? ==>
      r == Ok(InPairtree(io.storedLength > 0))
    ensures r.Ok? && r.value.Compressed? ==> !Classify(referent, uri, hasPtRoot, hash, sniffedJp2).jp2
    ensures io.failure.None? && Classify(referent, uri, hasPtRoot, hash, sniffedJp2).TempFile? ==>
      var plan := Classify(referent, uri, hasPtRoot, hash, sniffedJp2);
      (r == Ok(Compressed(plan.prefix, plan.suffix)) <==> !plan.jp2 && ProcessImage(plan.prefix + plan.suffix, io.isJp2Type) == Compress)
    ensures r.Err? && io.failure.None? ==> r.error == "Unknown JP2/JPX file format" && !io.metadataOk
  {
    if io.failure.Some? then Err(io.failure.value)
    else match Classify(referent, uri, hasPtRoot, hash, sniffedJp2)
      case IntoPairtree => Ok(InPairtree(io.storedLength > 0))
      case TempFile(p, s, jp2) =>
        if jp2 then Ok(Downloaded(p, s))
        else match ProcessImage(p + s, io.isJp2Type)
          case Compress => Ok(Compressed(p, s))
          case CheckMetadata =>
            if io.metadataOk then Ok(Downloaded(p, s)) else Err("Unknown JP2/JPX file format")
  }

  /** `convert`: the result, and the processing list afterwards (the
      referent is added on entry and its first occurrence removed on every
      exit). */
  function Convert(processing: seq<string>, referent: string, uri: string, hasPtRoot: bool, hash: int, sniffedJp2: bool, io: Io): (r: (Result<Converted, string>, seq<string>))
    ensures r.0 == ConvertResult(referent, uri, hasPtRoot, hash, sniffedJp2, io)
    ensures multiset(r.1) == multiset(processing)
    ensures referent !in processing ==> r.1 == processing
  {
    var during := Entered(processing, referent);
    var after := RemoveFirst(during, referent);
    assert referent !in processing ==> after == processing by {
      if referent !in processing {
        RemoveLast(processing, referent);
      }
    }
    (ConvertResult(referent, uri, hasPtRoot, hash, sniffedJp2, io), after)
  }

  /** Removing the first `x` from a list whose only `x` is the last
      element gives the list without it. */
  lemma {:induction false} RemoveLast(s: seq<string>, x: string)
    requires x !in s
    ensures RemoveFirst(s + [x], x) == s
  {
    if |s| > 0 {
      assert (s + [x])[1..] == s[1..] + [x];
      RemoveLast(s[1..], x);
    } else {
      assert s + [x] == [x];
    }
  }

  // ---------------------------------------------------------------------
  // Consequences
  // ---------------------------------------------------------------------

  /** The temporary file's extension is what `processImage` reads back,
      provided the suffix carries the only '.' of the name. */
  lemma TempExtension(p: string, suffix: string)
    requires NoChar(p, '.') && |suffix| >= 1 && suffix[0] == '.' && NoChar(suffix[1..], '.')
    ensures Extension(p + suffix) == ToLower(suffix[1..])
  {
    var path := p + suffix;
    assert OccursAt(path, ".", |p|);
    forall j | |p| < j < |path|
      ensures !OccursAt(path, ".", j)
    {
      assert path[j] == suffix[1..][j - |p| - 1];
      assert path[j..j + 1][0] == path[j];
    }
    assert LastIndexOf(path, ".") == |p|;
    assert path[|p| + 1..] == suffix[1..];
  }

  /** The name prefixes of temporary files hold no '.'. */
  lemma TempPrefixPlain(word: string, hash: int)
    requires NoChar(word, '.')
    ensures NoChar(word + IntToString(hash), '.')
  {
    IntToStringNoChar(hash, '.');
  }

  /** A TIFF fetched by its plain URL is compressed, given that TIFF is not
      a JPEG 2000 type. */
  lemma TiffIsCompressed(uri: string, hash: int, hasPtRoot: bool, sniffedJp2: bool, io: Io)
    requires Extension(uri) == "tif" || Extension(uri) == "tiff"
    requires io.failure.None? && !io.isJp2Type(Tiff)
    ensures ConvertResult(uri, uri, hasPtRoot, hash, sniffedJp2, io) == Ok(Compressed("convert" + IntToString(hash), ".tif"))
  {
    TiffProcess(hash, io.isJp2Type);
  }

  /** A plain download that is neither TIFF nor JPEG 2000 by extension nor
      by its first bytes (a PNG, JPEG or GIF, say) is saved as ".img" and
      compressed: `processImage` finds no type for "img". */
  lemma PlainDownloadCompressed(uri: string, hash: int, hasPtRoot: bool, io: Io)
    requires Extension(uri) !in {"tif", "tiff"}
    requires Extension(uri) !in FormatMap || FormatMap[Extension(uri)] !in {Jp2, Jpx}
    requires io.failure.None?
    ensures ConvertResult(uri, uri, hasPtRoot, hash, false, io) == Ok(Compressed("convert" + IntToString(hash), ".img"))
  {
    ImgProcess(hash, io.isJp2Type);
  }

  /** The ".img" name leads `processImage` to compression, whatever
      `isJp2Type` says, since no type is filed under "img". */
  lemma ImgProcess(hash: int, isJp2Type: Mime -> bool)
    ensures ProcessImage("convert" + IntToString(hash) + ".img", isJp2Type) == Compress
  {
    var p := "convert" + IntToString(hash);
    TempPrefixPlain("convert", hash);
    TempExtension(p, ".img");
    LowerSuffixes();
    assert Extension(p + ".img") == "img";
  }

  /** The name a TIFF download is saved under leads `processImage` to
      compression whenever TIFF is not a JPEG 2000 type. */
  lemma TiffProcess(hash: int, isJp2Type: Mime -> bool)
    requires !isJp2Type(Tiff)
    ensures ProcessImage("convert" + IntToString(hash) + ".tif", isJp2Type) == Compress
  {
    var p := "convert" + IntToString(hash);
    TempPrefixPlain("convert", hash);
    TempExtension(p, ".tif");
    LowerSuffixes();
    assert Extension(p + ".tif") == "tif";
  }

  /** A TIFF URL carrying a parsed identifier, with no Pairtree root, is
      taken to be JPEG 2000 and kept without compression. */
  lemma ParsedTiffNotCompressed(referent: string, uri: string, hash: int, sniffedJp2: bool, io: Io)
    requires referent != uri && (Extension(uri) == "tif" || Extension(uri) == "tiff")
    requires io.failure.None?
    ensures ConvertResult(referent, uri, false, hash, sniffedJp2, io) == Ok(Downloaded("convert" + IntToString(hash), ".tif"))
  {
  }

  /** A JPEG 2000 family extension is never compressed. */
  lemma Jp2FamilyKept(uri: string, hash: int, hasPtRoot: bool, sniffedJp2: bool, io: Io)
    requires Extension(uri) in {"jp2", "j2c", "jpc", "j2k", "jpf", "jpx"}
    requires io.failure.None?
    ensures ConvertResult(uri, uri, hasPtRoot, hash, sniffedJp2, io) == Ok(Downloaded("cache" + IntToString(hash), "." + Extension(uri)))
  {
    var ext := Extension(uri);
    Jp2Family(ext);
    assert ext !in {"tif", "tiff"};
    assert Classify(uri, uri, hasPtRoot, hash, sniffedJp2) == TempFile("cache" + IntToString(hash), "." + ext, true);
  }

  /** A plain URL whose bytes look like JPEG 2000 is saved as ".jp2" and,
      not being flagged as JPEG 2000, goes through `processImage`, which
      only reads its metadata. */
  lemma SniffedJp2Checked(uri: string, hash: int, hasPtRoot: bool, io: Io)
    requires Extension(uri) !in {"tif", "tiff"} && (Extension(uri) !in FormatMap || FormatMap[Extension(uri)] !in {Jp2, Jpx})
    requires io.failure.None? && io.isJp2Type(Jp2)
    ensures Classify(uri, uri, hasPtRoot, hash, true) == TempFile("cache" + IntToString(hash), ".jp2", false)
    ensures ConvertResult(uri, uri, hasPtRoot, hash, true, io)
      == if io.metadataOk then Ok(Downloaded("cache" + IntToString(hash), ".jp2")) else Err("Unknown JP2/JPX file format")
  {
    var p := "cache" + IntToString(hash);
    var ext := Extension(uri);
    assert ext != "tif" && ext != "tiff";
    assert !(ext in FormatMap && (FormatMap[ext] == Jp2 || FormatMap[ext] == Jpx));
    assert Classify(uri, uri, hasPtRoot, hash, true) == TempFile(p, ".jp2", false);
    SniffedProcess(hash, io.isJp2Type);
  }

  /** The name the sniffed download is saved under leads `processImage` to
      the metadata check whenever JP2 is a JPEG 2000 type. */
  lemma SniffedProcess(hash: int, isJp2Type: Mime -> bool)
    requires isJp2Type(Jp2)
    ensures ProcessImage("cache" + IntToString(hash) + ".jp2", isJp2Type) == CheckMetadata
  {
    var p := "cache" + IntToString(hash);
    TempPrefixPlain("cache", hash);
    TempExtension(p, ".jp2");
    LowerSuffixes();
    assert Extension(p + ".jp2") == "jp2";
  }

  /** The suffixes `convert` writes are already lower case. */
  lemma LowerSuffixes()
    ensures ".jp2"[1..] == "jp2" && ToLower("jp2") == "jp2"
    ensures ".tif"[1..] == "tif" && ToLower("tif") == "tif"
    ensures ".img"[1..] == "img" && ToLower("img") == "img"
  {
    assert ToLower("img")[0] == 'i' && ToLower("img")[1] == 'm' && ToLower("img")[2] == 'g';
    assert ToLower("jp2")[0] == 'j' && ToLower("jp2")[1] == 'p' && ToLower("jp2")[2] == '2';
    assert ToLower("tif")[0] == 't' && ToLower("tif")[1] == 'i' && ToLower("tif")[2] == 'f';
  }
}

=== FILE: openurl_service.dfy ===
/** `OpenURLJP2KService`: turns the service values of an OpenURL
    (ANSI/NISO Z39.88-2004) key/encoded-value request into decode
    parameters, serves the region from the tile cache or the extractor, and
    normalises the response. Resolution, extraction, the file system and
    SHA-1 are collaborators whose outcomes arrive as parameters. */
module OpenUrl {
  import opened Wrappers
  import opened JavaString
  import Resolver
  import Migrator

  // ---------------------------------------------------------------------
  // Decoding the service values
  // ---------------------------------------------------------------------

  /** The decode parameters the service sets; unset ones keep the values of
      a fresh `DjatokaDecodeParam`, which are supplied as `init`. A double
      is read as a `real`. */
  datatype Params = Params(
    region: Option<string>,
    level: int,
    rotation: int,
    scalingFactor: real,
    scalingDims: Option<seq<int>>,
    clayer: int)

  datatype Decoded = Decoded(params: Params, format: string)

  const DefaultFormat: string := "image/jpeg"

  /** `Double.parseDouble` and `Double.toString`, left abstract. */
  datatype Doubles = Doubles(parse: string -> Option<real>, text: real -> string)

  /** `Integer.parseInt`, whose `NumberFormatException` escapes `resolve`. */
  function ParseIntOrThrow(s: string): (r: Result<int, string>)
    ensures r.Ok? <==> ParseInt(s).Some?
    ensures r.Ok? ==> r.value == ParseInt(s).value
  {
    match ParseInt(s)
    case Some(v) => Ok(v)
    case None => Err("NumberFormatException")
  }

  /** The "scale" value: one part with a '.' is a scaling factor, one part
      without is a height-free target [-1, v], two parts are [a, b], and any
      other count is ignored. */
  function DecodeScale(text: string, p: Params, d: Doubles): (r: Result<Params, string>)
    ensures |Split(text, ',')| !in {1, 2} ==> r == Ok(p)
    ensures r.Ok? ==>
      r.value.region == p.region && r.value.level == p.level
      && r.value.rotation == p.rotation && r.value.clayer == p.clayer
    ensures var v := Split(text, ',');
      |v| == 1 && Contains(v[0], ".") ==>
        (r.Ok? <==> d.parse(v[0]).Some?) && (r.Ok? ==> r.value == p.(scalingFactor := d.parse(v[0]).value))
    ensures var v := Split(text, ',');
      |v| == 1 && !Contains(v[0], ".") ==>
        (r.Ok? <==> ParseInt(v[0]).Some?) && (r.Ok? ==> r.value == p.(scalingDims := Some([-1, ParseInt(v[0]).value])))
    ensures var v := Split(text, ',');
      |v| == 2 ==>
        (r.Ok? <==> ParseInt(v[0]).Some? && ParseInt(v[1]).Some?)
        && (r.Ok? ==> r.value == p.(scalingDims := Some([ParseInt(v[0]).value, ParseInt(v[1]).value])))
  {
    var v := Split(text, ',');
    if |v| == 1 then
      if Contains(v[0], ".") then
        match d.parse(v[0])
        case Some(f) => Ok(p.(scalingFactor := f))
        case None => Err("NumberFormatException")
      else
        var h :- ParseIntOrThrow(v[0]);
        Ok(p.(scalingDims := Some([-1, h])))
    else if |v| == 2 then
      var a :- ParseIntOrThrow(v[0]);
      var b :- ParseIntOrThrow(v[1]);
      Ok(p.(scalingDims := Some([a, b])))
    else Ok(p)
  }

  /** The compositing layer: set only when the parsed value is positive. */
  function DecodeLayer(kev: map<string, string>, p: Params): (r: Result<Params, string>)
    ensures "clayer" !in kev ==> r == Ok(p)
    ensures "clayer" in kev ==> (r.Ok? <==> ParseInt(kev["clayer"]).Some?)
    ensures r.Ok? ==> r.value == p.(clayer := r.value.clayer)
    ensures r.Ok? && r.value.clayer != p.clayer ==> r.value.clayer > 0
    ensures r.Ok? && "clayer" in kev && ParseInt(kev["clayer"]).value > 0 ==> r.value.clayer == ParseInt(kev["clayer"]).value
  {
    if "clayer" !in kev then Ok(p)
    else
      var c :- ParseIntOrThrow(kev["clayer"]);
      if c > 0 then Ok(p.(clayer := c)) else Ok(p)
  }

  /** The start of `resolve`: region, format, level, rotation, scale and
      compositing layer from the service values, in that order. */
  function DecodeKev(kev: map<string, string>, init: Params, d: Doubles): (r: Result<Decoded, string>)
    ensures r.Ok? ==> r.value.format == (if "format" in kev && StartsWith(kev["format"], "image") then kev["format"] else DefaultFormat)
    ensures r.Ok? ==> r.value.params.region == (if "region" in kev && kev["region"] != "" then Some(kev["region"]) else init.region)
    ensures "level" in kev && ParseInt(kev["level"]).None? ==> r.Err?
    ensures "rotate" in kev && ParseInt(kev["rotate"]).None? ==> r.Err?
    ensures r.Ok? ==> r.value.params.level == (if "level" in kev then ParseInt(kev["level"]).value else init.level)
    ensures r.Ok? ==> r.value.params.rotation == (if "rotate" in kev then ParseInt(kev["rotate"]).value else init.rotation)
    ensures r.Ok? && "scale" !in kev ==>
      r.value.params.scalingFactor == init.scalingFactor && r.value.params.scalingDims == init.scalingDims
    ensures r.Ok? && "scale" in kev ==>
      && DecodeScale(kev["scale"], init, d).Ok?
      && r.value.params.scalingFactor == DecodeScale(kev["scale"], init, d).value.scalingFactor
      && r.value.params.scalingDims == DecodeScale(kev["scale"], init, d).value.scalingDims
    ensures r.Ok? ==> (r.value.params.clayer ==
      if "clayer" in kev && ParseInt(kev["clayer"]).Some? && ParseInt(kev["clayer"]).value > 0
      then ParseInt(kev["clayer"]).value else init.clayer)
    ensures r.Err? <==>
      || ("level" in kev && ParseInt(kev["level"]).None?)
      || ("rotate" in kev && ParseInt(kev["rotate"]).None?)
      || ("scale" in kev && DecodeScale(kev["scale"], init, d).Err?)
      || ("clayer" in kev && ParseInt(kev["clayer"]).None?)
  {
    var format :=
      if "format" in kev then (if StartsWith(kev["format"], "image") then kev["format"] else DefaultFormat)
      else DefaultFormat;
    var p0 :- DecodeBasics(kev, init);
    ScaleIgnoresOtherFields(kev, init, p0, d);
    var p1 :- ApplyScale(kev, p0, d);
    var p2 :- DecodeLayer(kev, p1);
    Ok(Decoded(p2, format))
  }

  /** Region, level and rotation. */
  function DecodeBasics(kev: map<string, string>, init: Params): (r: Result<Params, string>)
    ensures r.Err? <==>
      ("level" in kev && ParseInt(kev["level"]).None?) || ("rotate" in kev && ParseInt(kev["rotate"]).None?)
    ensures r.Ok? ==> r.value == init.(
      region := if "region" in kev && kev["region"] != "" then Some(kev["region"]) else init.region,
      level := if "level" in kev then ParseInt(kev["level"]).value else init.level,
      rotation := if "rotate" in kev then ParseInt(kev["rotate"]).value else init.rotation)
  {
    var region := if "region" in kev && kev["region"] != "" then Some(kev["region"]) else init.region;
    var level :- if "level" in kev then ParseIntOrThrow(kev["level"]) else Ok(init.level);
    var rotation :- if "rotate" in kev then ParseIntOrThrow(kev["rotate"]) else Ok(init.rotation);
    Ok(init.(region := region, level := level, rotation := rotation))
  }

  /** The scale step, when a "scale" value is present. */
  function ApplyScale(kev: map<string, string>, p: Params, d: Doubles): (r: Result<Params, string>)
    ensures "scale" !in kev ==> r == Ok(p)
    ensures "scale" in kev ==> r == DecodeScale(kev["scale"], p, d)
  {
    if "scale" in kev then DecodeScale(kev["scale"], p, d) else Ok(p)
  }

  /** The scale value only touches the two scale fields, so what it does
      does not depend on the other fields. */
  lemma ScaleIgnoresOtherFields(kev: map<string, string>, p: Params, q: Params, d: Doubles)
    requires p.scalingFactor == q.scalingFactor && p.scalingDims == q.scalingDims
    ensures "scale" in kev ==>
      && DecodeScale(kev["scale"], p, d).Ok? == DecodeScale(kev["scale"], q, d).Ok?
      && (DecodeScale(kev["scale"], p, d).Ok? ==>
          && DecodeScale(kev["scale"], p, d).value.scalingFactor == DecodeScale(kev["scale"], q, d).value.scalingFactor
          && DecodeScale(kev["scale"], p, d).value.scalingDims == DecodeScale(kev["scale"], q, d).value.scalingDims)
  {
  }

  /** The response format is always an image type. */
  lemma FormatIsImage(kev: map<string, string>, init: Params, d: Doubles)
    requires DecodeKev(kev, init, d).Ok?
    ensures StartsWith(DecodeKev(kev, init, d).value.format, "image")
  {
    assert DefaultFormat[..5] == "image";
  }

  /** A lone integer scale asks for that height with the width free. */
  lemma ScaleSingleInteger(n: int, p: Params, d: Doubles)
    requires IsInt32(n)
    ensures DecodeScale(IntToString(n), p, d) == Ok(p.(scalingDims := Some([-1, n])))
  {
    var s := IntToString(n);
    IntToStringChars(n);
    assert ',' !in s;
    assert Split(s, ',') == [s];
    assert !Contains(s, ".") by {
      forall j | 0 <= j && j + 1 <= |s|
        ensures !OccursAt(s, ".", j)
      {
        assert s[j..j + 1][0] == s[j];
      }
    }
    ParseIntOfIntToString(n);
  }

  // ---------------------------------------------------------------------
  // Cacheability, the tile key and the file extension
  // ---------------------------------------------------------------------

  /** `isCacheable`: never under a transform that reports it applies;
      otherwise only a full-image request at a scaling factor other than
      1.0, and not listed as an exception, is refused. */
  function IsCacheable(p: Params, transformCheck: bool, transformable: bool, exceptions: set<real>): (r: bool)
    ensures transformCheck && transformable ==> !r
    ensures !(transformCheck && transformable) ==>
      (!r <==> p.scalingFactor != 1.0 && p.scalingFactor !in exceptions && p.region.None?)
  {
    if transformCheck && transformable then false
    else !(p.scalingFactor != 1.0 && p.scalingFactor !in exceptions && p.region.None?)
  }

  /** The scale field of the tile key: empty, "a" or "a,b" by the number of
      scaling dimensions. */
  function ScaleText(dims: Option<seq<int>>): (r: string)
    ensures NoChar(r, '|')
    ensures dims.None? || |dims.value| !in {1, 2} ==> r == ""
    ensures dims.Some? && |dims.value| in {1, 2} && AllInt32(dims.value) ==>
      var v := Split(r, ',');
      |v| == |dims.value| && forall i :: 0 <= i < |v| ==> ParseInt(v[i]) == Some(dims.value[i])
  {
    match dims
    case None => ""
    case Some(ds) =>
      if |ds| == 1 then
        IntToStringNoChar(ds[0], '|');
        if AllInt32(ds) then OneDimReads(ds[0]); IntToString(ds[0]) else IntToString(ds[0])
      else if |ds| == 2 then
        IntToStringNoChar(ds[0], '|');
        IntToStringNoChar(ds[1], '|');
        NoCharConcat(IntToString(ds[0]) + ",", IntToString(ds[1]), '|');
        if AllInt32(ds) then IntPairReads(ds[0], ds[1]); IntToString(ds[0]) + "," + IntToString(ds[1])
        else IntToString(ds[0]) + "," + IntToString(ds[1])
      else ""
  }

  predicate AllInt32(ds: seq<int>) {
    forall i :: 0 <= i < |ds| ==> IsInt32(ds[i])
  }

  /** One dimension is printed without a ',' and reads back. */
  lemma OneDimReads(a: int)
    requires IsInt32(a)
    ensures Split(IntToString(a), ',') == [IntToString(a)]
    ensures ParseInt(IntToString(a)) == Some(a)
  {
    IntToStringNoChar(a, ',');
    ParseIntOfIntToString(a);
  }

  lemma NoCharConcat(a: string, b: string, c: char)
    requires NoChar(a, c) && NoChar(b, c)
    ensures NoChar(a + b, c)
  {
  }

  /** The seven fields the tile key is digested from. */
  function KeyFields(id: string, p: Params, d: Doubles): (r: seq<string>)
    ensures |r| == 7 && r[0] == id && r[2] == NullableText(p.region)
    ensures r[4] == d.text(p.scalingFactor) && r[5] == ScaleText(p.scalingDims)
    ensures IsInt32(p.level) ==> ParseInt(r[1]) == Some(p.level)
    ensures IsInt32(p.rotation) ==> ParseInt(r[3]) == Some(p.rotation)
    ensures IsInt32(p.clayer) ==> ParseInt(r[6]) == Some(p.clayer)
    ensures forall i :: 0 <= i < 7 && i !in {0, 2, 4} ==> NoChar(r[i], '|')
    ensures r[6] != ""
  {
    IntToStringNoChar(p.level, '|');
    IntToStringNoChar(p.rotation, '|');
    IntToStringNoChar(p.clayer, '|');
    IntTextReads(p.level);
    IntTextReads(p.rotation);
    IntTextReads(p.clayer);
    [id, IntToString(p.level), NullableText(p.region), IntToString(p.rotation),
     d.text(p.scalingFactor), ScaleText(p.scalingDims), IntToString(p.clayer)]
  }

  /** The fields that may hold a '|' do not. */
  predicate KeySafe(id: string, p: Params, d: Doubles) {
    NoChar(id, '|') && NoChar(NullableText(p.region), '|') && NoChar(d.text(p.scalingFactor), '|')
  }

  /** The pre-image of `getTileHash`:
      id|level|region|rotation|factor|scale|clayer. */
  function PreImage(id: string, p: Params, d: Doubles): (r: string)
    ensures KeySafe(id, p, d) ==> Split(r, '|') == KeyFields(id, p, d)
  {
    var fs := KeyFields(id, p, d);
    if KeySafe(id, p, d) then
      assert forall i :: 0 <= i < 7 ==> NoChar(fs[i], '|');
      SplitJoin(fs, '|');
      Join(fs, '|')
    else Join(fs, '|')
  }

  /** `getTileHash`: the digest of the pre-image and of nothing else. */
  function TileHash(id: string, p: Params, d: Doubles, digest: string -> string): string {
    digest(PreImage(id, p, d))
  }

  /** Requests that agree on the seven key fields share a tile hash, even
      where their decode parameters differ: scaling dimensions of a length
      other than 1 or 2 hash like none at all. */
  lemma SameFieldsSameHash(id1: string, p1: Params, id2: string, p2: Params, d: Doubles, digest: string -> string)
    requires KeyFields(id1, p1, d) == KeyFields(id2, p2, d)
    ensures TileHash(id1, p1, d, digest) == TileHash(id2, p2, d, digest)
    ensures KeyFields(id1, p1.(scalingDims := Some([1, 2, 3])), d) == KeyFields(id1, p1.(scalingDims := None), d)
  {
  }

  /** When no field but the scale can hold '|', equal pre-images mean equal
      fields: the key tells requests apart. */
  lemma PreImageInjective(id1: string, p1: Params, id2: string, p2: Params, d: Doubles)
    requires NoChar(id1, '|') && NoChar(id2, '|')
    requires NoChar(NullableText(p1.region), '|') && NoChar(NullableText(p2.region), '|')
    requires NoChar(d.text(p1.scalingFactor), '|') && NoChar(d.text(p2.scalingFactor), '|')
    requires PreImage(id1, p1, d) == PreImage(id2, p2, d)
    ensures id1 == id2 && p1.level == p2.level && NullableText(p1.region) == NullableText(p2.region)
    ensures p1.rotation == p2.rotation && p1.clayer == p2.clayer
    ensures d.text(p1.scalingFactor) == d.text(p2.scalingFactor)
    ensures ScaleText(p1.scalingDims) == ScaleText(p2.scalingDims)
  {
    var f1 := KeyFields(id1, p1, d);
    var f2 := KeyFields(id2, p2, d);
    IntToStringNoChar(p1.level, '|');
    IntToStringNoChar(p2.level, '|');
    IntToStringNoChar(p1.rotation, '|');
    IntToStringNoChar(p2.rotation, '|');
    IntToStringNoChar(p1.clayer, '|');
    IntToStringNoChar(p2.clayer, '|');
    JoinInjective(f1, f2, '|');
    assert f1[1] == f2[1] && f1[3] == f2[3] && f1[6] == f2[6];
    IntToStringInjective(p1.level, p2.level);
    IntToStringInjective(p1.rotation, p2.rotation);
    IntToStringInjective(p1.clayer, p2.clayer);
  }

  /** Seven fields joined, the first two split off. */
  lemma JoinFront(a: string, b: string, rest: seq<string>)
    requires |rest| >= 1
    ensures Join([a, b] + rest, '|') == a + "|" + b + "|" + Join(rest, '|')
  {
    JoinCons(b, rest);
    JoinCons(a, [b] + rest);
    assert [a] + ([b] + rest) == [a, b] + rest;
    BarAssoc(a, b, Join(rest, '|'));
  }

  lemma BarAssoc(a: string, b: string, t: string)
    ensures a + ['|'] + (b + ['|'] + t) == a + "|" + b + "|" + t
  {
  }

  /** One piece in front of a non-empty join. */
  lemma JoinCons(x: string, ys: seq<string>)
    requires |ys| >= 1
    ensures Join([x] + ys, '|') == x + ['|'] + Join(ys, '|')
  {
    assert ([x] + ys)[1..] == ys;
  }

  /** A '|' in the identifier lets two different requests share a key:
      identifier "a|5" at level 7 with region "r" and identifier "a" at
      level 5 with region "7|r". */
  lemma PreImageCollision(p: Params, d: Doubles)
    requires p.region == Some("r") && p.level == 7
    ensures var q := p.(level := 5, region := Some("7|r"));
      PreImage("a|5", p, d) == PreImage("a", q, d) && p != q
  {
    var q := p.(level := 5, region := Some("7|r"));
    var tail := [IntToString(p.rotation), d.text(p.scalingFactor), ScaleText(p.scalingDims), IntToString(p.clayer)];
    assert IntToString(7) == "7" && IntToString(5) == "5";
    assert KeyFields("a|5", p, d) == ["a|5", "7"] + (["r"] + tail);
    assert KeyFields("a", q, d) == ["a", "5"] + (["7|r"] + tail);
    ShiftedBars(tail);
  }

  /** The two field lists of the collision join to the same text. */
  lemma ShiftedBars(tail: seq<string>)
    requires |tail| >= 1
    ensures Join(["a|5", "7"] + (["r"] + tail), '|') == Join(["a", "5"] + (["7|r"] + tail), '|')
  {
    JoinFront("a|5", "7", ["r"] + tail);
    JoinFront("a", "5", ["7|r"] + tail);
    JoinCons("r", tail);
    JoinCons("7|r", tail);
    LiteralBars(Join(tail, '|'));
  }

  lemma LiteralBars(t: string)
    ensures "a|5" + "|" + "7" + "|" + ("r" + ['|'] + t) == "a" + "|" + "5" + "|" + ("7|r" + ['|'] + t)
  {
    assert "a|5" + "|" + "7" + "|" + ("r" + ['|'] + t) == "a|5|7|r|" + t;
    assert "a" + "|" + "5" + "|" + ("7|r" + ['|'] + t) == "a|5|7|r|" + t;
  }

  /** The media-type texts of the format constants; left abstract. */
  type MimeText = Migrator.Mime -> string

  /** `getExtension`: the file extension for a response media type, with
      JPM files named ".jp2"; other types have none (`null`). */
  function ExtensionFor(format: string, mime: MimeText): (r: Option<string>)
    ensures r.Some? ==> r.value in {"jpg", "png", "pnm", "jp2", "jpx"}
    ensures format == mime(Migrator.Jpeg) ==> r == Some("jpg")
    ensures r.None? <==> format !in {mime(Migrator.Jpeg), mime(Migrator.Png), mime(Migrator.Pnm), mime(Migrator.Jp2), mime(Migrator.Jpx), mime(Migrator.Jpm)}
  {
    if format == mime(Migrator.Jpeg) then Some("jpg")
    else if format == mime(Migrator.Png) then Some("png")
    else if format == mime(Migrator.Pnm) then Some("pnm")
    else if format == mime(Migrator.Jp2) then Some("jp2")
    else if format == mime(Migrator.Jpx) then Some("jpx")
    else if format == mime(Migrator.Jpm) then Some("jp2")
    else None
  }

  /** With distinct media-type texts, each type gets the extension the
      migrator's format table files it under, except JPM, filed as JP2. */
  lemma ExtensionsAgreeWithFormatMap(mime: MimeText, m: Migrator.Mime)
    requires forall a: Migrator.Mime, b: Migrator.Mime :: a != b ==> mime(a) != mime(b)
    requires m in {Migrator.Jpeg, Migrator.Png, Migrator.Pnm, Migrator.Jp2, Migrator.Jpx, Migrator.Jpm}
    ensures ExtensionFor(mime(m), mime).Some?
    ensures var e := ExtensionFor(mime(m), mime).value;
      e in Migrator.FormatMap && Migrator.FormatMap[e] == (if m == Migrator.Jpm then Migrator.Jp2 else m)
  {
  }

  // ---------------------------------------------------------------------
  // The cache step
  // ---------------------------------------------------------------------

  /** The file system as the cache step sees it. */
  datatype Files = Files(present: string -> bool, length: string -> int)

  /** A file system where a missing file has length 0, as `File.length`
      reports. */
  ghost predicate Consistent(fs: Files) {
    forall f :: !fs.present(f) ==> fs.length(f) == 0
  }

  /** The hit test: a miss when the key is absent, or when its file is
      missing yet has content, which a consistent file system never shows. */
  function IsMiss(cache: map<string, string>, key: string, fs: Files): (r: bool)
    ensures key !in cache ==> r
    ensures Consistent(fs) ==> (r <==> key !in cache)
  {
    key !in cache || (!fs.present(cache[key]) && fs.length(cache[key]) > 0)
  }

  /** A cache entry whose file has vanished still counts as a hit. */
  lemma StaleEntryIsHit(cache: map<string, string>, key: string, fs: Files)
    requires Consistent(fs) && key in cache && !fs.present(cache[key])
    ensures !IsMiss(cache, key, fs)
  {
  }

  /** The evident intent of the hit test: a miss unless the key names a
      file that exists and has content. */
  function IsMissIntended(cache: map<string, string>, key: string, fs: Files): (r: bool)
    ensures !r <==> key in cache && fs.present(cache[key]) && fs.length(cache[key]) > 0
  {
    key !in cache || !(fs.present(cache[key]) && fs.length(cache[key]) > 0)
  }

  /** The two tests disagree on exactly the stale and the empty entries:
      under the intended test they are misses and are extracted again. */
  lemma StaleEntryIsIntendedMiss(cache: map<string, string>, key: string, fs: Files)
    requires Consistent(fs)
    ensures IsMiss(cache, key, fs) != IsMissIntended(cache, key, fs) <==>
      key in cache && !(fs.present(cache[key]) && fs.length(cache[key]) > 0)
  {
  }

  /** What the extractor and the file system do on this request. `extract`
      is the image the extractor writes (or its failure), `read` what
      reading a cached file gives, `temp` the temporary file a miss
      creates, and `concurrent` the file another request stored under the
      key while this one was extracting. */
  datatype Fault = ResolverFault(message: Option<string>) | CodecFault(message: Option<string>) | OtherFault(message: Option<string>)

  datatype Env = Env(
    record: Result<Option<Resolver.ImageRecord>, Fault>,
    transformable: bool,
    extract: Result<seq<int>, Fault>,
    read: string -> Result<seq<int>, Fault>,
    fs: Files,
    temp: string,
    concurrent: Option<string>)

  /** The hit, miss and race step: a hit reads the cached file; a miss
      extracts into a new file, stored under the key only if the key is
      still absent, and returns its bytes in either case. */
  function CacheStep(cache: map<string, string>, key: string, env: Env): (r: (Result<seq<int>, Fault>, map<string, string>))
    ensures !IsMiss(cache, key, env.fs) ==> r == (env.read(cache[key]), cache)
    ensures IsMiss(cache, key, env.fs) ==> r.0 == env.extract
    ensures IsMiss(cache, key, env.fs) && env.extract.Ok? && env.concurrent.None? ==> r.1 == cache[key := env.temp]
    ensures IsMiss(cache, key, env.fs) && env.extract.Ok? && env.concurrent.Some? ==> r.1 == cache[key := env.concurrent.value]
    ensures env.extract.Err? ==> r.1 == cache
    ensures forall k :: k != key ==> (k in r.1 <==> k in cache) && (k in cache ==> r.1[k] == cache[k])
  {
    if !IsMiss(cache, key, env.fs) then (env.read(cache[key]), cache)
    else match env.extract
      case Err(e) => (Err(e), cache)
      case Ok(bytes) =>
        match env.concurrent
        case None => (Ok(bytes), cache[key := env.temp])
        case Some(other) => (Ok(bytes), cache[key := other])
  }

  // ---------------------------------------------------------------------
  // The response
  // ---------------------------------------------------------------------

  const SC_OK: int := 200
  const SC_NOT_FOUND: int := 404
  const SC_INTERNAL_SERVER_ERROR: int := 500
  const TextPlain: string := "text/plain"
  const NegativeRegionMessage: string := "Negative Region Arguments are not supported."

  /** A response body: text written out as bytes, or image bytes. */
  datatype Body = Text(text: string) | Image(bytes: seq<int>)

  predicate EmptyBody(b: Option<Body>) {
    match b
    case None => true
    case Some(Text(t)) => t == ""
    case Some(Image(bs)) => |bs| == 0
  }

  datatype Response = Response(status: int, format: string, body: Option<Body>)

  /** The catch blocks: resolver and codec failures are 404, anything else
      500; a failure without a message makes the handler itself throw. */
  function FaultResponse(f: Fault): (r: Result<Response, string>)
    ensures r.Ok? <==> f.message.Some?
    ensures r.Ok? ==> r.value.format == TextPlain && r.value.body == Some(Text(f.message.value))
    ensures r.Ok? ==> (r.value.status == SC_INTERNAL_SERVER_ERROR <==> f.OtherFault?)
    ensures r.Ok? ==> r.value.status in {SC_NOT_FOUND, SC_INTERNAL_SERVER_ERROR}
  {
    match f.message
    case None => Err("NullPointerException")
    case Some(m) => Ok(Response(if f.OtherFault? then SC_INTERNAL_SERVER_ERROR else SC_NOT_FOUND, TextPlain, Some(Text(m))))
  }

  /** An empty or missing body becomes an empty text/plain 404. */
  function Normalize(resp: Response): (r: Response)
    ensures EmptyBody(resp.body) ==> r == Response(SC_NOT_FOUND, TextPlain, Some(Text("")))
    ensures !EmptyBody(resp.body) ==> r == resp
    ensures !EmptyBody(r.body) || r.status == SC_NOT_FOUND
  {
    if EmptyBody(resp.body) then Response(SC_NOT_FOUND, TextPlain, Some(Text(""))) else resp
  }

  /** The service configuration. */
  datatype Config = Config(
    cacheTiles: bool,
    transformCheck: bool,
    scaleExceptions: set<real>,
    digest: string -> string,
    mime: MimeText)

  /** A region holding '-' is refused before any resolution. */
  predicate NegativeRegion(p: Params) {
    p.region.Some? && Contains(p.region.value, "-")
  }

  /** The cache key: the tile hash followed by the extension text. */
  function CacheKey(id: string, d: Decoded, cfg: Config, dbl: Doubles): (r: string)
    ensures var h := TileHash(id, d.params, dbl, cfg.digest);
      && |h| <= |r| && r[..|h|] == h
      && r[|h|..] == (if ExtensionFor(d.format, cfg.mime).Some? then ExtensionFor(d.format, cfg.mime).value else "null")
  {
    TileHash(id, d.params, dbl, cfg.digest) + NullableText(ExtensionFor(d.format, cfg.mime))
  }

  /** Whether the request goes through the tile cache. */
  predicate UsesCache(d: Decoded, cfg: Config, env: Env) {
    cfg.cacheTiles && IsCacheable(d.params, cfg.transformCheck, env.transformable, cfg.scaleExceptions)
  }

  /** The bytes for a found record: extracted directly, or through the
      tile cache under the record's key. */
  function Fetch(rec: Resolver.ImageRecord, d: Decoded, cfg: Config, dbl: Doubles, env: Env, cache: map<string, string>): (r: (Result<seq<int>, Fault>, map<string, string>))
    ensures !UsesCache(d, cfg, env) ==> r == (env.extract, cache)
    ensures UsesCache(d, cfg, env) ==> r == CacheStep(cache, CacheKey(rec.identifier, d, cfg, dbl), env)
  {
    if UsesCache(d, cfg, env) then CacheStep(cache, CacheKey(rec.identifier, d, cfg, dbl), env)
    else (env.extract, cache)
  }

  /** The body of `resolve` after decoding, before normalisation. */
  function Serve(d: Decoded, cfg: Config, dbl: Doubles, env: Env, cache: map<string, string>): (r: Result<(Response, map<string, string>), string>)
    ensures NegativeRegion(d.params) ==> r == Ok((Response(SC_NOT_FOUND, TextPlain, Some(Text(NegativeRegionMessage))), cache))
    ensures r.Ok? && r.value.1 != cache ==>
      && !NegativeRegion(d.params) && cfg.cacheTiles
      && env.record.Ok? && env.record.value.Some?
      && IsCacheable(d.params, cfg.transformCheck, env.transformable, cfg.scaleExceptions)
    ensures !NegativeRegion(d.params) && env.record.Err? ==>
      && (r.Ok? <==> FaultResponse(env.record.error).Ok?)
      && (r.Ok? ==> r.value == (FaultResponse(env.record.error).value, cache))
    ensures !NegativeRegion(d.params) && env.record == Ok(None) ==>
      r == Ok((Response(SC_OK, d.format, None), cache))
    ensures !NegativeRegion(d.params) && env.record.Ok? && env.record.value.Some? ==>
      var fetched := Fetch(env.record.value.value, d, cfg, dbl, env, cache);
      && (fetched.0.Ok? ==> r == Ok((Response(SC_OK, d.format, Some(Image(fetched.0.value))), fetched.1)))
      && (fetched.0.Err? ==> (r.Ok? <==> FaultResponse(fetched.0.error).Ok?))
      && (fetched.0.Err? && r.Ok? ==> r.value == (FaultResponse(fetched.0.error).value, fetched.1))
  {
    if NegativeRegion(d.params) then Ok((Response(SC_NOT_FOUND, TextPlain, Some(Text(NegativeRegionMessage))), cache))
    else match env.record
      case Err(f) =>
        var resp :- FaultResponse(f);
        Ok((resp, cache))
      case Ok(None) => Ok((Response(SC_OK, d.format, None), cache))
      case Ok(Some(rec)) =>
        var fetched := Fetch(rec, d, cfg, dbl, env, cache);
        match fetched.0
        case Err(f) =>
          var resp :- FaultResponse(f);
          Ok((resp, fetched.1))
        case Ok(bytes) => Ok((Response(SC_OK, d.format, Some(Image(bytes))), fetched.1))
  }

  /** `resolve`: decoding errors escape; otherwise the served response,
      normalised, and the tile cache afterwards. */
  function Resolve(kev: map<string, string>, init: Params, cfg: Config, dbl: Doubles, env: Env, cache: map<string, string>): (r: Result<(Response, map<string, string>), string>)
    ensures DecodeKev(kev, init, dbl).Err? ==> r.Err?
    ensures r.Ok? ==> !EmptyBody(r.value.0.body) || r.value.0 == Response(SC_NOT_FOUND, TextPlain, Some(Text("")))
    ensures r.Ok? ==> forall k :: k in cache ==> k in r.value.1
  {
    var d :- DecodeKev(kev, init, dbl);
    var served :- Serve(d, cfg, dbl, env, cache);
    assert forall k :: k in cache ==> k in served.1;
    Ok((Normalize(served.0), served.1))
  }

  /** A negative region is answered without looking at the resolver, the
      extractor or the cache. */
  lemma NegativeRegionIgnoresEnv(d: Decoded, cfg: Config, dbl: Doubles, e1: Env, e2: Env, cache: map<string, string>)
    requires NegativeRegion(d.params)
    ensures Serve(d, cfg, dbl, e1, cache) == Serve(d, cfg, dbl, e2, cache)
    ensures Serve(d, cfg, dbl, e1, cache).value.1 == cache
  {
  }

  /** A missing image record ends in an empty text/plain 404. */
  lemma MissingRecordIsNotFound(kev: map<string, string>, init: Params, cfg: Config, dbl: Doubles, env: Env, cache: map<string, string>)
    requires DecodeKev(kev, init, dbl).Ok? && !NegativeRegion(DecodeKev(kev, init, dbl).value.params)
    requires env.record == Ok(None)
    ensures Resolve(kev, init, cfg, dbl, env, cache) == Ok((Response(SC_NOT_FOUND, TextPlain, Some(Text(""))), cache))
  {
  }

  /** Losing the race still returns the freshly extracted bytes, and the
      entry stored by the other request stays. */
  lemma RaceLoserServesOwnBytes(d: Decoded, cfg: Config, dbl: Doubles, env: Env, cache: map<string, string>, rec: Resolver.ImageRecord, bytes: seq<int>)
    requires !NegativeRegion(d.params) && cfg.cacheTiles
    requires env.record == Ok(Some(rec))
    requires IsCacheable(d.params, cfg.transformCheck, env.transformable, cfg.scaleExceptions)
    requires CacheKey(rec.identifier, d, cfg, dbl) !in cache
    requires env.extract == Ok(bytes) && env.concurrent.Some?
    ensures Serve(d, cfg, dbl, env, cache)
      == Ok((Response(SC_OK, d.format, Some(Image(bytes))), cache[CacheKey(rec.identifier, d, cfg, dbl) := env.concurrent.value]))
  {
  }
}

=== FILE: region.dfy ===
/** The region parameter of an IIIF Image API 1.1 request (section 4.1):
    "full", "x,y,w,h" in pixels or "pct:x,y,w,h" in percent. */
module RegionParam {
  import opened Wrappers
  import opened JavaString
  import opened IIIFError
  import opened SizeParam

  /** A region. The coordinates of a region parsed from "full" stay 0 until
      it is normalised. */
  datatype Region = Region(full: bool, percent: bool, x: int, y: int, width: int, height: int)

  const FullRegion: Region := Region(true, false, 0, 0, 0, 0)

  /** The text holding the four coordinates: everything after a "pct:" prefix. */
  function CoordText(s: string): (t: string)
    ensures StartsWith(s, "pct:") ==> s == "pct:" + t
    ensures !StartsWith(s, "pct:") ==> t == s
  {
    if StartsWith(s, "pct:") then s[4..] else s
  }

  /** The constraints the parser puts on a non-full region's box: offsets
      non-negative, extents positive, percent extents at most 100, and every
      value a Java int. Percent offsets have no upper bound. */
  predicate ValidBox(percent: bool, x: int, y: int, width: int, height: int) {
    && IsInt32(x) && IsInt32(y) && IsInt32(width) && IsInt32(height)
    && 0 <= x && 0 <= y && 0 < width && 0 < height
    && (percent ==> width <= 100 && height <= 100)
  }

  /** Four pieces that hold the integers of a valid box, in x, y, width,
      height order. */
  predicate ReadsAsBox(parts: seq<string>, percent: bool) {
    && |parts| == 4
    && ParseInt(parts[0]).Some? && ParseInt(parts[1]).Some?
    && ParseInt(parts[2]).Some? && ParseInt(parts[3]).Some?
    && ValidBox(percent, ParseInt(parts[0]).value, ParseInt(parts[1]).value,
                ParseInt(parts[2]).value, ParseInt(parts[3]).value)
  }

  /** The `Region(String)` constructor: the parsed region or the exception
      thrown. */
  function Parse(s: string): (r: Result<Region, IIIFException>)
    ensures EqualsIgnoreCase(s, "full") ==> r == Ok(FullRegion)
    ensures !EqualsIgnoreCase(s, "full") ==>
      (r.Ok? <==> ReadsAsBox(Split(CoordText(s), ','), StartsWith(s, "pct:")))
    ensures !EqualsIgnoreCase(s, "full") && r.Ok? ==>
      var parts := Split(CoordText(s), ',');
      r.value == Region(false, StartsWith(s, "pct:"), ParseInt(parts[0]).value, ParseInt(parts[1]).value,
                        ParseInt(parts[2]).value, ParseInt(parts[3]).value)
    ensures r.Err? ==> r.error.httpCode == SC_BAD_REQUEST
  {
    if EqualsIgnoreCase(s, "full") then Ok(FullRegion)
    else ParseBox(Split(CoordText(s), ','), StartsWith(s, "pct:"))
  }

  /** The non-full branch, given the comma-separated pieces. */
  function ParseBox(parts: seq<string>, percent: bool): (r: Result<Region, IIIFException>)
    ensures r.Ok? <==> ReadsAsBox(parts, percent)
    ensures r.Ok? ==> r.value == Region(false, percent, ParseInt(parts[0]).value, ParseInt(parts[1]).value,
                                        ParseInt(parts[2]).value, ParseInt(parts[3]).value)
    ensures r.Err? ==> r.error.httpCode == SC_BAD_REQUEST
  {
    if |parts| != 4 then
      Err(WithMessage("Incorrect number of region coords: " + IntToString(|parts|) + " (expected 4)"))
    else
      var x :- ParseOffset(parts[0], "X");
      var y :- ParseOffset(parts[1], "Y");
      var w :- ParseExtent(parts[2], "width", percent);
      var h :- ParseExtent(parts[3], "height", percent);
      Ok(Region(false, percent, x, y, w, h))
  }

  /** An x or y coordinate: a non-negative integer. */
  function ParseOffset(part: string, name: string): (r: Result<int, IIIFException>)
    ensures r.Ok? <==> ParseInt(part).Some? && ParseInt(part).value >= 0
    ensures r.Ok? ==> r.value == ParseInt(part).value
    ensures r.Err? ==> r.error.httpCode == SC_BAD_REQUEST
  {
    match ParseInt(part)
    case None => Err(WithMessage("Region's " + name + " parameter (" + part + ") isn't an integer"))
    case Some(v) =>
      if v < 0 then Err(WithMessage("Region's " + name + " parameter isn't a positive number: " + IntToString(v)))
      else Ok(v)
  }

  /** A width or height: a positive integer, at most 100 for percents. */
  function ParseExtent(part: string, name: string, percent: bool): (r: Result<int, IIIFException>)
    ensures r.Ok? <==> ParseInt(part).Some? && 0 < ParseInt(part).value && (percent ==> ParseInt(part).value <= 100)
    ensures r.Ok? ==> r.value == ParseInt(part).value
    ensures r.Err? ==> r.error.httpCode == SC_BAD_REQUEST
  {
    match ParseInt(part)
    case None => Err(WithMessage("Region's " + name + " parameter (" + part + ") isn't an integer"))
    case Some(v) =>
      if v <= 0 then Err(WithMessage("Region's " + name + " parameter isn't greater than 0: " + IntToString(v)))
      else if percent && v > 100 then Err(WithMessage("Region's " + name + " percent can't be more than 100%"))
      else Ok(v)
  }

  /** The laws assumed of `pct(d, p)`, which stands for
      `(int)(d * (p * 0.01))` computed in doubles: never negative, never above
      `d` for `p <= 100`, exact at 0 and 100. */
  ghost predicate PctLaws(pct: (int, int) -> int) {
    && (forall d, p :: 0 <= d && 0 <= p ==> 0 <= pct(d, p))
    && (forall d, p :: 0 <= d && 0 <= p <= 100 ==> pct(d, p) <= d)
    && (forall d :: 0 <= d ==> pct(d, 100) == d)
    && (forall d :: 0 <= d ==> pct(d, 0) == 0)
  }

  /** `normalizeForImageDims`: a full region takes the whole image, percents
      are scaled to pixels, and a box covering exactly the image becomes
      full. */
  function Normalize(r: Region, imageWidth: int, imageHeight: int, pct: (int, int) -> int): (n: Region)
    ensures !n.percent
    ensures r.full ==> n == Region(true, false, 0, 0, imageWidth, imageHeight)
    ensures n.full <==> (n.x == 0 && n.y == 0 && n.width == imageWidth && n.height == imageHeight)
    ensures !r.full && !r.percent ==> (n.x, n.y, n.width, n.height) == (r.x, r.y, r.width, r.height)
  {
    var box :=
      if r.full then r.(x := 0, y := 0, width := imageWidth, height := imageHeight)
      else if r.percent then
        r.(x := pct(imageWidth, r.x), y := pct(imageHeight, r.y),
           width := pct(imageWidth, r.width), height := pct(imageHeight, r.height))
      else r;
    var m := box.(percent := false);
    if m.x == 0 && m.y == 0 && m.width == imageWidth && m.height == imageHeight then m.(full := true) else m
  }

  /** `toString`. */
  function ToString(r: Region): string {
    if r.full then "full"
    else (if r.percent then "pct:" else "") + BoxText(r)
  }

  /** The four coordinates joined by ','. */
  function BoxText(r: Region): (t: string)
    ensures t == Join([IntToString(r.x), IntToString(r.y), IntToString(r.width), IntToString(r.height)], ',')
  {
    Join4(IntToString(r.x), IntToString(r.y), IntToString(r.width), IntToString(r.height), ',');
    IntToString(r.x) + "," + IntToString(r.y) + "," + IntToString(r.width) + "," + IntToString(r.height)
  }

  /** `toDjatokaString(level, scale)`: empty for a full region at level < 1;
      otherwise the row and column ("0,0," when full), an optional "pct:",
      and then height and width, taken from the scale only when one is given
      that is not full and the level is at least 1. */
  function ToDjatokaString(r: Region, level: int, scale: Option<Size>): string {
    if r.full && level < 1 then ""
    else
      var coords := if r.full then "0,0," else IntToString(r.y) + "," + IntToString(r.x) + ",";
      var mark := if r.percent then "pct:" else "";
      var dims :=
        if scale.None? || scale.value.full || level < 1 then IntToString(r.height) + "," + IntToString(r.width)
        else IntToString(scale.value.height) + "," + IntToString(scale.value.width);
      coords + mark + dims
  }

  /** The (height, width) pair `ToDjatokaString` sends. */
  function DjatokaDims(r: Region, level: int, scale: Option<Size>): (int, int) {
    if scale.None? || scale.value.full || level < 1 then (r.height, r.width)
    else (scale.value.height, scale.value.width)
  }

  /** "full" in any letter case parses to the full region. */
  lemma ParseFull(s: string)
    requires |s| == 4 && LowerChar(s[0]) == 'f' && LowerChar(s[1]) == 'u'
    requires LowerChar(s[2]) == 'l' && LowerChar(s[3]) == 'l'
    ensures Parse(s) == Ok(FullRegion)
  {
    assert ToLower(s) == "full";
  }

  /** Any text other than "full" whose coordinate text does not split into
      four pieces is rejected. */
  lemma ParseNeedsFourParts(s: string)
    requires !EqualsIgnoreCase(s, "full") && |Split(CoordText(s), ',')| != 4
    ensures Parse(s).Err?
  {
  }

  /** Every non-full parsed region has a valid box. */
  lemma ParsedBoxValid(s: string)
    requires Parse(s).Ok? && !Parse(s).value.full
    ensures var r := Parse(s).value; ValidBox(r.percent, r.x, r.y, r.width, r.height)
  {
  }

  /** Text that is neither "full" nor starts with "pct:" when the region is a
      pixel box and does when it is a percent box: the printed form of a
      valid non-full region. */
  lemma PrintedIsNotFull(r: Region)
    requires !r.full && ValidBox(r.percent, r.x, r.y, r.width, r.height)
    ensures !EqualsIgnoreCase(ToString(r), "full")
    ensures StartsWith(ToString(r), "pct:") == r.percent
    ensures CoordText(ToString(r)) == BoxText(r)
  {
    var t := ToString(r);
    IntToStringChars(r.x);
    assert IntToString(r.x)[0] != '-';
    assert IsDigit(BoxText(r)[0]);
    if r.percent {
      assert t == "pct:" + BoxText(r);
      assert ToLower(t)[0] == 'p';
    } else {
      assert t == "" + BoxText(r);
      assert ToLower(t)[0] == LowerChar(t[0]);
    }
  }

  /** The box text of a valid region splits back into its four integers. */
  lemma BoxTextReads(r: Region)
    requires ValidBox(r.percent, r.x, r.y, r.width, r.height)
    ensures var parts := Split(BoxText(r), ',');
      |parts| == 4 && ParseInt(parts[0]) == Some(r.x) && ParseInt(parts[1]) == Some(r.y)
      && ParseInt(parts[2]) == Some(r.width) && ParseInt(parts[3]) == Some(r.height)
  {
    var ps := [IntToString(r.x), IntToString(r.y), IntToString(r.width), IntToString(r.height)];
    IntToStringNoChar(r.x, ',');
    IntToStringNoChar(r.y, ',');
    IntToStringNoChar(r.width, ',');
    IntToStringNoChar(r.height, ',');
    SplitJoin(ps, ',');
    ParseIntOfIntToString(r.x);
    ParseIntOfIntToString(r.y);
    ParseIntOfIntToString(r.width);
    ParseIntOfIntToString(r.height);
  }

  /** Every valid non-full region, percent offsets of any size included, is
      what its printed form parses to. */
  lemma ParsePrinted(r: Region)
    requires !r.full && ValidBox(r.percent, r.x, r.y, r.width, r.height)
    ensures Parse(ToString(r)) == Ok(r)
  {
    PrintedIsNotFull(r);
    BoxTextReads(r);
  }

  /** `toString` of a freshly parsed region re-parses to the same region. */
  lemma ToStringRoundTrip(s: string)
    requires Parse(s).Ok?
    ensures Parse(ToString(Parse(s).value)) == Parse(s)
  {
    var r := Parse(s).value;
    if r.full {
      assert ToString(r) == "full";
      ParseFull("full");
    } else {
      ParsePrinted(r);
    }
  }

  /** Percent offsets are not capped: "pct:150,150,10,10" is accepted. */
  lemma PercentOffsetsUncapped()
    ensures Parse(ToString(Region(false, true, 150, 150, 10, 10))) == Ok(Region(false, true, 150, 150, 10, 10))
  {
    ParsePrinted(Region(false, true, 150, 150, 10, 10));
  }

  /** Normalising twice with the same dimensions equals normalising once. */
  lemma NormalizeIdempotent(r: Region, imageWidth: int, imageHeight: int, pct: (int, int) -> int)
    ensures Normalize(Normalize(r, imageWidth, imageHeight, pct), imageWidth, imageHeight, pct)
      == Normalize(r, imageWidth, imageHeight, pct)
  {
  }

  /** A percent region with extents of at most 100 normalises into the
      image: offsets non-negative, extents within the image's. */
  lemma NormalizePercentBounds(r: Region, imageWidth: int, imageHeight: int, pct: (int, int) -> int)
    requires PctLaws(pct)
    requires !r.full && r.percent && ValidBox(true, r.x, r.y, r.width, r.height)
    requires 0 <= imageWidth && 0 <= imageHeight
    ensures var n := Normalize(r, imageWidth, imageHeight, pct);
      && 0 <= n.x && 0 <= n.y
      && 0 <= n.width <= imageWidth && 0 <= n.height <= imageHeight
  {
  }

  /** "pct:0,0,100,100" and "full" normalise to the same region. */
  lemma PercentWholeIsFull(imageWidth: int, imageHeight: int, pct: (int, int) -> int)
    requires PctLaws(pct) && 0 <= imageWidth && 0 <= imageHeight
    ensures Parse(ToString(Region(false, true, 0, 0, 100, 100))) == Ok(Region(false, true, 0, 0, 100, 100))
    ensures Normalize(Region(false, true, 0, 0, 100, 100), imageWidth, imageHeight, pct)
      == Normalize(FullRegion, imageWidth, imageHeight, pct)
  {
    ParsePrinted(Region(false, true, 0, 0, 100, 100));
  }

  /** Normalising does not clip a pixel box to the image: "5,5,100,100" on a
      10 by 10 image keeps its width and height of 100. */
  lemma NormalizeDoesNotClip(pct: (int, int) -> int)
    ensures Parse(ToString(Region(false, false, 5, 5, 100, 100))) == Ok(Region(false, false, 5, 5, 100, 100))
    ensures Normalize(Region(false, false, 5, 5, 100, 100), 10, 10, pct).width == 100
  {
    ParsePrinted(Region(false, false, 5, 5, 100, 100));
  }

  /** What `toDjatokaString` sends reads back, field by field, as the row,
      the column, and the chosen height and width. */
  lemma DjatokaFields(r: Region, level: int, scale: Option<Size>)
    requires !(r.full && level < 1) && !r.percent
    requires IsInt32(r.x) && IsInt32(r.y)
    requires IsInt32(DjatokaDims(r, level, scale).0) && IsInt32(DjatokaDims(r, level, scale).1)
    ensures var parts := Split(ToDjatokaString(r, level, scale), ',');
      var (h, w) := DjatokaDims(r, level, scale);
      && |parts| == 4
      && ParseInt(parts[0]) == Some(if r.full then 0 else r.y)
      && ParseInt(parts[1]) == Some(if r.full then 0 else r.x)
      && ParseInt(parts[2]) == Some(h) && ParseInt(parts[3]) == Some(w)
  {
    var (h, w) := DjatokaDims(r, level, scale);
    var row := if r.full then 0 else r.y;
    var col := if r.full then 0 else r.x;
    var ps := [IntToString(row), IntToString(col), IntToString(h), IntToString(w)];
    DjatokaJoin(r, level, scale);
    IntToStringNoChar(row, ',');
    IntToStringNoChar(col, ',');
    IntToStringNoChar(h, ',');
    IntToStringNoChar(w, ',');
    SplitJoin(ps, ',');
    ParseIntOfIntToString(row);
    ParseIntOfIntToString(col);
    ParseIntOfIntToString(h);
    ParseIntOfIntToString(w);
  }

  /** Without a percent mark, what `toDjatokaString` sends is the four
      numbers joined by ','. */
  lemma DjatokaJoin(r: Region, level: int, scale: Option<Size>)
    requires !(r.full && level < 1) && !r.percent
    ensures var (h, w) := DjatokaDims(r, level, scale);
      ToDjatokaString(r, level, scale)
        == Join([IntToString(if r.full then 0 else r.y), IntToString(if r.full then 0 else r.x), IntToString(h), IntToString(w)], ',')
  {
    var (h, w) := DjatokaDims(r, level, scale);
    var row := if r.full then 0 else r.y;
    var col := if r.full then 0 else r.x;
    assert IntToString(0) == "0";
    Join4(IntToString(row), IntToString(col), IntToString(h), IntToString(w), ',');
  }

  /** A full region at level < 1 is sent as the empty string, and a percent
      region carries "pct:" right after its coordinates. */
  lemma DjatokaShape(r: Region, level: int, scale: Option<Size>)
    ensures r.full && level < 1 ==> ToDjatokaString(r, level, scale) == ""
    ensures !r.full && r.percent ==>
      var coords := IntToString(r.y) + "," + IntToString(r.x) + ",";
      StartsWith(ToDjatokaString(r, level, scale), coords + "pct:")
  {
  }
}

=== FILE: servlet_filter.dfy ===
/** `IIIFServletFilter`: picks the response content type of an IIIF request
    and computes the service prefix the request parsers strip. */
module ServletFilter {
  import opened Wrappers
  import opened JavaString
  import opened IIIFError

  // ---------------------------------------------------------------------
  // Content types
  // ---------------------------------------------------------------------

  /** The eight content types an IIIF response can carry. */
  datatype ContentType = Jpg | Json | Jp2 | Xml | Gif | Pdf | Tif | Png

  /** The MIME texts of the content-type constants, the sorted
      `CONTENT_TYPES` array and `DEFAULT_CONTENT_TYPE`; the constants
      themselves are supplied, not modelled. */
  datatype Table = Table(mime: ContentType -> string, known: seq<string>, fallback: string)

  /** The extension written for each content type. */
  function ExtensionText(t: ContentType): string {
    match t
    case Jpg => "jpg"
    case Json => "json"
    case Jp2 => "jp2"
    case Xml => "xml"
    case Gif => "gif"
    case Pdf => "pdf"
    case Tif => "tif"
    case Png => "png"
  }

  const KnownExtensions: set<string> := {"jpg", "json", "jp2", "xml", "gif", "pdf", "tif", "png"}

  /** The extension chain of `doFilter`; any other extension is a
      `RuntimeException`. */
  function ExtensionType(ext: string): (r: Result<ContentType, string>)
    ensures r.Ok? <==> ext in KnownExtensions
    ensures r.Ok? ==> ExtensionText(r.value) == ext
    ensures r.Err? ==> r.error == "Unexpected extension found: " + ext
  {
    if ext == "jpg" then Ok(Jpg)
    else if ext == "json" then Ok(Json)
    else if ext == "jp2" then Ok(Jp2)
    else if ext == "xml" then Ok(Xml)
    else if ext == "gif" then Ok(Gif)
    else if ext == "pdf" then Ok(Pdf)
    else if ext == "tif" then Ok(Tif)
    else if ext == "png" then Ok(Png)
    else Err("Unexpected extension found: " + ext)
  }

  /** Every content type is reached from its own extension, so distinct
      extensions select distinct content types. */
  lemma ExtensionTypeRoundTrip(t: ContentType)
    ensures ExtensionType(ExtensionText(t)) == Ok(t)
  {
  }

  lemma ExtensionTypeInjective(a: string, b: string)
    requires ExtensionType(a).Ok? && ExtensionType(b).Ok?
    requires ExtensionType(a) == ExtensionType(b)
    ensures a == b
  {
  }

  // ---------------------------------------------------------------------
  // The Accept header
  // ---------------------------------------------------------------------

  /** The requested types: the Accept text before the first ';', split on
      ','. A header that is only separators leaves `split` with nothing to
      index, an `ArrayIndexOutOfBoundsException`. */
  function AcceptValues(accept: string): (r: Result<seq<string>, string>)
    ensures r.Err? <==> |Split(accept, ';')| == 0
    ensures r.Ok? ==> r.value == Split(Split(accept, ';')[0], ',')
  {
    var parts := Split(accept, ';');
    if |parts| == 0 then Err("ArrayIndexOutOfBoundsException") else Ok(Split(parts[0], ','))
  }

  /** Nothing after the first ';' of the Accept header is considered. */
  lemma AcceptIgnoresParameters(a: string, b: string)
    requires a != "" && NoChar(a, ';')
    ensures AcceptValues(a + ";" + b) == Ok(Split(a, ','))
  {
    var s := a + ";" + b;
    assert s == a + [';'] + b;
    assert s[|a|] == ';';
    PiecesOfPrefixed(a, ';', b);
    var ps := Pieces(s, ';');
    assert ps[0] == a;
    var r := DropTrailingEmpty(ps);
    assert |r| > 0;
    assert r[0] == ps[0];
  }

  /** `getPreferredContentType`: the first requested type found by binary
      search in the sorted `CONTENT_TYPES` (found exactly when present),
      else the default. */
  function PreferredType(values: seq<string>, known: seq<string>, fallback: string): (r: string)
    ensures (forall i :: 0 <= i < |values| ==> values[i] !in known) ==> r == fallback
    ensures (exists i :: 0 <= i < |values| && values[i] in known) ==>
      exists i :: 0 <= i < |values| && r == values[i] && r in known
        && forall j :: 0 <= j < i ==> values[j] !in known
  {
    if |values| == 0 then fallback
    else if values[0] in known then values[0]
    else
      var r := PreferredType(values[1..], known, fallback);
      assert forall j :: 1 <= j < |values| ==> values[j] == values[1..][j - 1];
      r
  }

  /** The preferred type never depends on what follows the first known
      requested type. */
  lemma {:induction false} PreferredTypeStopsAtFirst(values: seq<string>, more: seq<string>, known: seq<string>, fallback: string)
    requires exists i :: 0 <= i < |values| && values[i] in known
    ensures PreferredType(values + more, known, fallback) == PreferredType(values, known, fallback)
  {
    if values[0] !in known {
      assert (values + more)[1..] == values[1..] + more;
      var i :| 0 <= i < |values| && values[i] in known;
      assert values[1..][i - 1] == values[i];
      PreferredTypeStopsAtFirst(values[1..], more, known, fallback);
    }
  }

  // ---------------------------------------------------------------------
  // doFilter
  // ---------------------------------------------------------------------

  /** What `doFilter` does with a request: pass it on untouched (not HTTP),
      forward it with a content type, answer with an HTTP error, or let an
      unchecked exception escape. */
  datatype Outcome = PassThrough | Forward(contentType: string) | SendError(code: int, message: Option<string>) | Crash(reason: string)

  /** `doFilter`. `parsed` is the outcome of building the IIIF request (the
      request's extension, the `IIIFException` the builder threw, or an
      unchecked exception such as the URL decoder's); `accept` is the Accept
      header, `None` when absent. Only `IIIFException` is caught and turned
      into a 400; anything else escapes the filter. */
  function DoFilter(isHttp: bool, parsed: Result<Option<string>, Failure>, accept: Option<string>, tbl: Table): (r: Outcome)
    ensures !isHttp <==> r == PassThrough
    ensures r.SendError? <==> isHttp && parsed.Err? && parsed.error.Iiif?
    ensures r.SendError? ==> r.code == 400 && r.message == parsed.error.exception.message
    ensures isHttp && parsed.Err? && parsed.error.Runtime? ==> r == Crash(parsed.error.reason)
    ensures isHttp && parsed.Ok? && parsed.value.Some? ==>
      (match ExtensionType(parsed.value.value)
       case Ok(t) => r == Forward(tbl.mime(t))
       case Err(m) => r == Crash(m))
    ensures isHttp && parsed.Ok? && parsed.value.None? && accept.Some? && AcceptValues(accept.value).Ok? ==>
      r == Forward(PreferredType(AcceptValues(accept.value).value, tbl.known, tbl.fallback))
    ensures isHttp && parsed.Ok? && parsed.value.None? && (accept.None? || AcceptValues(accept.value).Err?) ==> r.Crash?
  {
    if !isHttp then PassThrough
    else match parsed
      case Err(Iiif(e)) => SendError(SC_BAD_REQUEST, e.message)
      case Err(Runtime(m)) => Crash(m)
      case Ok(Some(ext)) =>
        (match ExtensionType(ext)
         case Ok(t) => Forward(tbl.mime(t))
         case Err(m) => Crash(m))
      case Ok(None) =>
        match accept
        case None => Crash("NullPointerException")
        case Some(a) =>
          match AcceptValues(a)
          case Err(m) => Crash(m)
          case Ok(values) => Forward(PreferredType(values, tbl.known, tbl.fallback))
  }

  /** A request with an extension never looks at the Accept header. */
  lemma ExtensionBeatsAccept(parsed: Result<Option<string>, Failure>, a1: Option<string>, a2: Option<string>, tbl: Table)
    requires parsed.Ok? && parsed.value.Some?
    ensures DoFilter(true, parsed, a1, tbl) == DoFilter(true, parsed, a2, tbl)
  {
  }

  // ---------------------------------------------------------------------
  // init: the service prefix
  // ---------------------------------------------------------------------

  /** What the servlet context says about the "iiifViewer" servlet: not
      registered (the lookup returns null), mappings unsupported, no
      mapping, or its first mapping. */
  datatype Registration = NoServlet | Unsupported | NoMappings | Mapped(first: string)

  /** The IIIF path: the "prefix" init parameter with a '/' put in front
      when it is non-empty and lacks one; failing that, the first mapping
      of "iiifViewer" without its trailing wildcard segment, or "/iiif". An unregistered
      servlet is a `NullPointerException`. */
  function IiifPath(prefixParam: Option<string>, reg: Registration): (r: Result<string, string>)
    ensures prefixParam.Some? ==> r.Ok?
    ensures prefixParam.Some? && prefixParam.value != "" ==> StartsWith(r.value, "/")
    ensures prefixParam.Some? && StartsWith(prefixParam.value, "/") ==> r.value == prefixParam.value
    ensures prefixParam.Some? && prefixParam.value != "" && !StartsWith(prefixParam.value, "/") ==>
      r.value == "/" + prefixParam.value
    ensures prefixParam.None? ==> (r.Err? <==> reg.NoServlet?)
    ensures prefixParam.None? && (reg.Unsupported? || reg.NoMappings?) ==> r == Ok("/iiif")
    ensures prefixParam.None? && reg.Mapped? ==>
      (if EndsWith(reg.first, "/*") then r.value + "/*" == reg.first else r.value == reg.first)
  {
    match prefixParam
    case Some(p) =>
      if |p| > 0 && !StartsWith(p, "/") then Ok("/" + p) else Ok(p)
    case None =>
      match reg
      case NoServlet => Err("NullPointerException")
      case Unsupported => Ok("/iiif")
      case NoMappings => Ok("/iiif")
      case Mapped(m) =>
        if EndsWith(m, "/*") then
          assert m[..|m| - 2] + "/*" == m;
          Ok(m[..|m| - 2])
        else Ok(m)
  }

  /** The service prefix: absent when the context path and IIIF path are
      both empty, otherwise their concatenation without its first
      character. */
  function ServicePrefix(contextPath: string, iiifPath: string): (r: Option<string>)
    ensures r.None? <==> contextPath + iiifPath == ""
    ensures r.Some? ==> [(contextPath + iiifPath)[0]] + r.value == contextPath + iiifPath
  {
    var s := contextPath + iiifPath;
    if |s| == 0 then None else Some(s[1..])
  }

  /** `init`'s prefix computation. */
  function Init(contextPath: string, prefixParam: Option<string>, reg: Registration): (r: Result<Option<string>, string>)
    ensures r.Err? <==> prefixParam.None? && reg.NoServlet?
    ensures r.Ok? ==> r.value == ServicePrefix(contextPath, IiifPath(prefixParam, reg).value)
  {
    var path :- IiifPath(prefixParam, reg);
    Ok(ServicePrefix(contextPath, path))
  }

  /** At the server root, a servlet mapped at "/p" plus the wildcard
      segment serves the prefix "p". */
  lemma RootMappingPrefix(p: string)
    ensures Init("", None, Mapped("/" + p + "/*")) == Ok(Some(p))
  {
    var m := "/" + p + "/*";
    assert EndsWith(m, "/*") by { assert m[|m| - 2..] == "/*"; }
    assert m[..|m| - 2] == "/" + p;
    assert "" + ("/" + p) == "/" + p;
  }

  /** At the server root, a prefix parameter serves the same prefix
      whether or not it is written with a leading '/'. */
  lemma PrefixSlashOptional(p: string)
    requires p != "" && !StartsWith(p, "/")
    ensures Init("", Some(p), NoServlet) == Init("", Some("/" + p), NoServlet) == Ok(Some(p))
  {
    assert StartsWith("/" + p, "/");
    assert ("" + ("/" + p))[1..] == p;
  }
}

=== FILE: size.dfy ===
/** The size parameter of an IIIF Image API 1.1 request (section 4.2):
    "full", "pct:n", "w,", ",h", "w,h" or "!w,h". */
module SizeParam {
  import opened Wrappers
  import opened JavaString
  import opened IIIFError

  /** A size; an unspecified width, height or percent is -1. `aspect` is
      `myAspectRatioIsPreserved`. */
  datatype Size = Size(full: bool, percent: bool, aspect: bool, pctValue: int, height: int, width: int)
  {
    predicate HasWidth() { width != -1 }
    predicate HasHeight() { height != -1 }
  }

  const Unset: int := -1

  /** The size "full": full and aspect preserving, everything else unset. */
  const FullSize: Size := Size(true, false, true, Unset, Unset, Unset)

  /** What every successfully parsed size satisfies: full and percent sizes
      have neither dimension, the others have at least one, never below -1,
      and only best-fit or one-dimension sizes preserve the aspect ratio. */
  predicate ParsedShape(z: Size) {
    && (z.pctValue == Unset || (z.percent && 0 <= z.pctValue <= 100))
    && ((z.full || z.percent) == (z.width == Unset && z.height == Unset))
    && z.width >= Unset && z.height >= Unset
    && IsInt32(z.width) && IsInt32(z.height)
    && (!z.full && !z.percent && !z.aspect ==> z.HasWidth() && z.HasHeight())
  }

  /** The `Size(String)` constructor: the parsed size or the exception thrown. */
  function Parse(s: string): (r: Result<Size, IIIFException>)
    ensures r.Ok? ==> ParsedShape(r.value)
    ensures r.Err? ==> r.error.httpCode == SC_BAD_REQUEST
    ensures |s| > 1 && s[0] == ',' ==> r == HeightOnly(s[1..])
    ensures |s| > 1 && s[0] != ',' && s[|s| - 1] == ',' && !StartsWith(s, "pct:") ==> r == WidthOnly(s[..|s| - 1])
  {
    CommaEnds(s);
    if EqualsIgnoreCase(s, "full") then Ok(FullSize)
    else if StartsWith(s, "pct:") then ParsePercent(s[4..])
    else if ',' in s then ParseScaled(s)
    else Err(WithMessage("Size parameter isn't formatted correctly: " + s))
  }

  /** The "pct:" branch, given the text after the prefix. */
  function ParsePercent(t: string): (r: Result<Size, IIIFException>)
    ensures r.Ok? <==> ParseInt(t).Some? && 0 <= ParseInt(t).value <= 100
    ensures r.Ok? ==> r.value == Size(false, true, true, ParseInt(t).value, Unset, Unset)
    ensures r.Err? ==> r.error.httpCode == SC_BAD_REQUEST
  {
    match ParseInt(t)
    case None => Err(WithMessage("Size percent isn't an integer: " + t))
    case Some(p) =>
      if p < 0 || p > 100 then Err(WithMessage("Size percent isn't in the range of 0 to 100: " + IntToString(p)))
      else Ok(Size(false, true, true, p, Unset, Unset))
  }

  /** The branch for text holding a comma. */
  function ParseScaled(s: string): (r: Result<Size, IIIFException>)
    requires ',' in s
    ensures r.Ok? ==> ParsedShape(r.value) && !r.value.full && !r.value.percent
    ensures r.Err? ==> r.error.httpCode == SC_BAD_REQUEST
    ensures |s| == 1 ==> r.Err?
    ensures |s| > 1 && s[0] == ',' ==> r == HeightOnly(s[1..])
    ensures |s| > 1 && s[0] != ',' && s[|s| - 1] == ',' ==> r == WidthOnly(s[..|s| - 1])
  {
    if |s| == 1 then Err(WithMessage("Scaled size lacks a value"))
    else if s[0] == ',' then HeightOnly(s[1..])
    else if s[|s| - 1] == ',' then WidthOnly(s[..|s| - 1])
    else ParseDimensions(s[0] == '!', if s[0] == '!' then s[1..] else s)
  }

  /** The ",h" branch, given the text after the comma: accepted exactly
      for a non-negative int, which becomes the height of an
      aspect-preserving size. */
  function HeightOnly(t: string): (r: Result<Size, IIIFException>)
    ensures r.Ok? <==> ParseInt(t).Some? && ParseInt(t).value >= 0
    ensures r.Ok? ==> r.value == Size(false, false, true, Unset, ParseInt(t).value, Unset)
    ensures r.Err? ==> r.error.httpCode == SC_BAD_REQUEST
  {
    match ParseInt(t)
    case None => Err(WithMessage("Size's scaled height is not an integer: " + t))
    case Some(h) =>
      if h < 0 then Err(WithMessage("Height may not be negative: " + IntToString(h)))
      else Ok(Size(false, false, true, Unset, h, Unset))
  }

  /** The "w," branch, given the text before the comma: accepted exactly
      for a non-negative int, which becomes the width of an
      aspect-preserving size. */
  function WidthOnly(t: string): (r: Result<Size, IIIFException>)
    ensures r.Ok? <==> ParseInt(t).Some? && ParseInt(t).value >= 0
    ensures r.Ok? ==> r.value == Size(false, false, true, Unset, Unset, ParseInt(t).value)
    ensures r.Err? ==> r.error.httpCode == SC_BAD_REQUEST
  {
    match ParseInt(t)
    case None => Err(WithMessage("Size's scaled width is not an integer: " + t))
    case Some(w) =>
      if w < 0 then Err(WithMessage("Width may not be negative: " + IntToString(w)))
      else Ok(Size(false, false, true, Unset, Unset, w))
  }

  /** The "w,h" and "!w,h" branch: `body` is the text after any '!'. */
  function ParseDimensions(aspect: bool, body: string): (r: Result<Size, IIIFException>)
    ensures r.Ok? ==> r.value == Size(false, false, aspect, Unset, r.value.height, r.value.width)
    ensures r.Ok? <==> var parts := Split(body, ',');
      && |parts| == 2
      && ParseInt(parts[0]).Some? && ParseInt(parts[0]).value >= 0
      && ParseInt(parts[1]).Some? && ParseInt(parts[1]).value >= 0
    ensures r.Ok? ==> ParseInt(Split(body, ',')[0]) == Some(r.value.width)
    ensures r.Ok? ==> ParseInt(Split(body, ',')[1]) == Some(r.value.height)
    ensures r.Err? ==> r.error.httpCode == SC_BAD_REQUEST
  {
    var parts := Split(body, ',');
    if |parts| != 2 then Err(WithMessage("Size shouldn't have more than 2 parts"))
    else match ParseInt(parts[0])
      case None => Err(WithMessage("Size's width isn't an integer"))
      case Some(w) =>
        if w < 0 then Err(WithMessage("Width may not be negative: " + IntToString(w)))
        else match ParseInt(parts[1])
          case None => Err(WithMessage("Size's height isn't a integer"))
          case Some(h) =>
            if h < 0 then Err(WithMessage("Height may not be negative: " + IntToString(h)))
            else Ok(Size(false, false, aspect, Unset, h, w))
  }

  /** `normalizeForRegionDims`: a full size takes the region's dimensions for
      every dimension it has, a percent size scales them; `scale(d, p)` stands
      for `(int)(d * p * 0.01)` with the product `d * p` taken in int, where it
      can wrap, and only then scaled by 0.01 in double. */
  function Normalize(z: Size, regionWidth: int, regionHeight: int, scale: (int, int) -> int): (n: Size)
    ensures !n.percent && !n.full
    ensures n.aspect == z.aspect && n.pctValue == z.pctValue
    ensures !z.HasWidth() ==> !n.HasWidth()
    ensures !z.HasHeight() ==> !n.HasHeight()
    ensures !z.full && !z.percent ==> n.width == z.width && n.height == z.height
    ensures z.full && z.HasWidth() ==> n.width == regionWidth
    ensures z.full && z.HasHeight() ==> n.height == regionHeight
  {
    var m :=
      if z.full then
        z.(full := false,
           width := if z.HasWidth() then regionWidth else z.width,
           height := if z.HasHeight() then regionHeight else z.height)
      else if z.percent then
        z.(width := if z.HasWidth() then scale(regionWidth, z.width) else z.width,
           height := if z.HasHeight() then scale(regionHeight, z.height) else z.height)
      else z;
    m.(percent := false)
  }

  /** `setExplicit`: both dimensions set, every flag cleared. */
  function SetExplicit(z: Size, width: int, height: int): (n: Size)
    ensures n.width == width && n.height == height
    ensures !n.aspect && !n.full && !n.percent
    ensures n.pctValue == z.pctValue
  {
    z.(width := width, height := height, aspect := false, full := false, percent := false)
  }

  /** `toString`; `percentText(p)` stands for `Float.toString((float) p / 100)`. */
  function ToString(z: Size, percentText: int -> string): string {
    if z.aspect then
      if z.full then "full"
      else if z.percent then percentText(z.pctValue)
      else if z.HasHeight() && z.HasWidth() then "!" + IntToString(z.width) + "," + IntToString(z.height)
      else if z.HasHeight() then "0," + IntToString(z.height)
      else IntToString(z.width) + ",0"
    else IntToString(z.width) + "," + IntToString(z.height)
  }

  /** `toDjatokaString`: a single scale factor for full and percent sizes,
      otherwise "w,h" with -1 passed through. */
  function ToDjatokaString(z: Size, percentText: int -> string): string {
    if z.full then "1.0"
    else if z.percent then percentText(z.pctValue)
    else IntToString(z.width) + "," + IntToString(z.height)
  }

  /** "full" in any letter case is the full size. */
  lemma ParseFull(s: string)
    requires EqualsIgnoreCase(s, "full")
    ensures Parse(s) == Ok(FullSize)
    ensures FullSize.aspect && FullSize.width == -1 && FullSize.height == -1
  {
  }

  /** "pct:n" is accepted exactly for an integer n in [0, 100]. */
  lemma ParsePercentForm(s: string)
    requires StartsWith(s, "pct:")
    ensures Parse(s).Ok? <==> (ParseInt(s[4..]).Some? && 0 <= ParseInt(s[4..]).value <= 100)
    ensures Parse(s).Ok? ==> Parse(s).value == Size(false, true, true, ParseInt(s[4..]).value, -1, -1)
  {
    assert !EqualsIgnoreCase(s, "full") by {
      assert ToLower(s)[0] == 'p';
    }
  }

  /** ",h": height only, aspect preserved, height non-negative. */
  lemma ParseHeightOnly(h: int)
    requires IsInt32(h)
    ensures Parse("," + IntToString(h)) ==
      if h < 0 then Err(WithMessage("Height may not be negative: " + IntToString(h)))
      else Ok(Size(false, false, true, -1, h, -1))
  {
    var s := "," + IntToString(h);
    assert s[0] == ',' && ',' in s;
    ParseNonKeyword(s);
    assert s[1..] == IntToString(h);
    ParseIntOfIntToString(h);
  }

  /** "w,": width only, aspect preserved, width non-negative. */
  lemma ParseWidthOnly(w: int)
    requires IsInt32(w)
    ensures Parse(IntToString(w) + ",") ==
      if w < 0 then Err(WithMessage("Width may not be negative: " + IntToString(w)))
      else Ok(Size(false, false, true, -1, -1, w))
  {
    var s := IntToString(w) + ",";
    IntToStringChars(w);
    assert s[0] != ',' && s[0] != 'p' && s[0] != 'f' && s[0] != 'F' && s[0] != 'P';
    assert ',' in s by { assert s[|s| - 1] == ','; }
    ParseNonKeyword(s);
    assert s[..|s| - 1] == IntToString(w);
    ParseIntOfIntToString(w);
  }

  /** Text whose first letter is not 'f' in either case is not "full". */
  lemma NotFull(s: string)
    requires |s| >= 1 && LowerChar(s[0]) != 'f'
    ensures !EqualsIgnoreCase(s, "full")
  {
    assert ToLower("full")[0] == 'f';
    assert ToLower(s)[0] == LowerChar(s[0]);
  }

  /** Text that starts or ends with a comma is neither "full" nor, when
      the comma comes first, a percent size. */
  lemma CommaEnds(s: string)
    ensures |s| > 1 && s[0] == ',' ==> !EqualsIgnoreCase(s, "full") && !StartsWith(s, "pct:") && ',' in s
    ensures |s| > 1 && s[|s| - 1] == ',' ==> !EqualsIgnoreCase(s, "full") && ',' in s
  {
    if |s| > 1 && s[0] == ',' {
      NotFull(s);
      if |s| >= 4 {
        assert s[..4][0] == ',';
      }
    }
    if |s| > 1 && s[|s| - 1] == ',' && |s| == 4 {
      assert ToLower(s)[3] == LowerChar(',') == ',';
      assert ToLower("full")[3] == 'l';
    }
  }

  /** Text that starts with neither letter of "full" nor "pct:" is parsed
      by the comma branch when it has a comma. */
  lemma ParseNonKeyword(s: string)
    requires |s| >= 1 && s[0] != 'f' && s[0] != 'F' && s[0] != 'p'
    requires s[0] != 'P'
    ensures ',' in s ==> Parse(s) == ParseScaled(s)
  {
    NotFull(s);
    assert !StartsWith(s, "pct:") by {
      if |s| >= 4 {
        assert s[..4][0] == s[0];
      }
    }
  }

  /** Text with an inner comma, neither first nor last, goes to the
      dimensions branch. */
  lemma ScaledInner(s: string)
    requires |s| > 1 && ',' in s && s[0] != ',' && s[|s| - 1] != ','
    ensures ParseScaled(s) == ParseDimensions(s[0] == '!', if s[0] == '!' then s[1..] else s)
  {
  }

  /** Two non-negative integers joined by ',' are read by the dimensions
      branch as (w, h). */
  lemma ParseDimensionsOfPair(aspect: bool, w: int, h: int)
    requires IsInt32(w) && IsInt32(h) && 0 <= w && 0 <= h
    ensures ParseDimensions(aspect, IntToString(w) + "," + IntToString(h)) == Ok(Size(false, false, aspect, -1, h, w))
  {
    IntPairReads(w, h);
  }

  /** Text between two digits holding a comma, with an optional leading
      '!', reaches the dimensions branch. */
  lemma ParseOfBody(bestFit: bool, body: string)
    requires |body| >= 1 && IsDigit(body[0]) && IsDigit(body[|body| - 1]) && ',' in body
    ensures Parse((if bestFit then "!" else "") + body) == ParseDimensions(bestFit, body)
  {
    var s := (if bestFit then "!" else "") + body;
    assert s[|s| - 1] == body[|body| - 1];
    assert s[0] == (if bestFit then '!' else body[0]);
    assert ',' in s by {
      var k :| 0 <= k < |body| && body[k] == ',';
      assert s[|s| - |body| + k] == ',';
    }
    ParseNonKeyword(s);
    ScaledInner(s);
    if bestFit { assert s[1..] == body; } else { assert s == body; }
  }

  /** "w,h" and "!w,h" with two non-negative integers: exact and best-fit sizes. */
  lemma ParsePair(w: int, h: int, bestFit: bool)
    requires IsInt32(w) && IsInt32(h) && 0 <= w && 0 <= h
    ensures Parse((if bestFit then "!" else "") + (IntToString(w) + "," + IntToString(h)))
      == Ok(Size(false, false, bestFit, -1, h, w))
  {
    var a, b := IntToString(w), IntToString(h);
    var body := a + "," + b;
    IntToStringChars(w);
    IntToStringChars(h);
    assert body[0] == a[0] && body[|body| - 1] == b[|b| - 1];
    assert body[|a|] == ',';
    ParseOfBody(bestFit, body);
    ParseDimensionsOfPair(bestFit, w, h);
  }

  /** A lone "," and comma-free text other than "full" and "pct:..." are
      rejected. */
  lemma ParseRejects(s: string)
    requires s == "," || (',' !in s && !EqualsIgnoreCase(s, "full") && !StartsWith(s, "pct:"))
    ensures Parse(s).Err?
  {
    if s == "," {
      assert !EqualsIgnoreCase(s, "full");
    }
  }

  /** Parsed full and percent sizes keep width and height at -1, so
      normalising a parsed size only clears its full and percent flags. */
  lemma NormalizeParsed(s: string, regionWidth: int, regionHeight: int, scale: (int, int) -> int)
    requires Parse(s).Ok?
    ensures Normalize(Parse(s).value, regionWidth, regionHeight, scale)
      == Parse(s).value.(full := false, percent := false)
  {
  }

  /** After `setExplicit` the size prints as "w,h" both ways. */
  lemma SetExplicitText(z: Size, width: int, height: int, percentText: int -> string)
    ensures ToString(SetExplicit(z, width, height), percentText) == IntToString(width) + "," + IntToString(height)
    ensures ToDjatokaString(SetExplicit(z, width, height), percentText) == ToString(SetExplicit(z, width, height), percentText)
  {
  }

  /** Full, exact and best-fit sizes survive printing and re-parsing. */
  lemma {:induction false} ToStringRoundTrip(s: string, percentText: int -> string)
    requires Parse(s).Ok?
    requires var z := Parse(s).value; z.full || (z.HasWidth() && z.HasHeight())
    ensures Parse(ToString(Parse(s).value, percentText)) == Parse(s)
  {
    var z := Parse(s).value;
    if !z.full {
      PairRoundTrip(z, percentText);
    }
  }

  /** A parsed size with both dimensions prints as "w,h" or "!w,h", which
      parses back to it. */
  lemma PairRoundTrip(z: Size, percentText: int -> string)
    requires ParsedShape(z) && !z.full && z.HasWidth() && z.HasHeight()
    ensures Parse(ToString(z, percentText)) == Ok(z)
  {
    var t := (if z.aspect then "!" else "") + (IntToString(z.width) + "," + IntToString(z.height));
    assert ToString(z, percentText) == t;
    ParsePair(z.width, z.height, z.aspect);
    assert z == Size(false, false, z.aspect, -1, z.height, z.width);
  }

  /** A width-only size does not survive: "5," prints as "5,0", which parses
      as the exact size 5 by 0. */
  lemma WidthOnlyDoesNotRoundTrip(percentText: int -> string)
    ensures Parse("5,") == Ok(Size(false, false, true, -1, -1, 5))
    ensures ToString(Size(false, false, true, -1, -1, 5), percentText) == "5,0"
    ensures Parse("5,0") == Ok(Size(false, false, false, -1, 0, 5))
  {
    assert IntToString(5) == "5" && IntToString(0) == "0";
    assert IntToString(5) + "," == "5,";
    ParseWidthOnly(5);
    assert "" + (IntToString(5) + "," + IntToString(0)) == "5,0";
    ParsePair(5, 0, false);
  }

  /** The Djatoka form of a non-full, non-percent size reads back as its two
      dimensions, -1 included. */
  lemma DjatokaFields(z: Size, percentText: int -> string)
    requires !z.full && !z.percent && IsInt32(z.width) && IsInt32(z.height)
    ensures var parts := Split(ToDjatokaString(z, percentText), ',');
      |parts| == 2 && ParseInt(parts[0]) == Some(z.width) && ParseInt(parts[1]) == Some(z.height)
  {
    IntPairReads(z.width, z.height);
  }
}

=== FILE: url_encode.dfy ===
/** `URLEncode`: a second, path-safety encoding of the two escapes, "%2F"
    ('/') and "%5C" ('\'), that HTTP servers tend to reject in a path. The
    JDK's form encoding and decoding stay abstract: callers receive them as
    function parameters. */
module UrlEncode {
  import opened JavaString

  const SlashEscape: string := "%2F"
  const BackslashEscape: string := "%5C"
  const SlashTwice: string := "%252F"
  const BackslashTwice: string := "%255C"

  /** `pathSafetyEncode`: two `String.replace` passes. */
  function PathSafetyEncode(s: string): string {
    Replace(Replace(s, SlashEscape, SlashTwice), BackslashEscape, BackslashTwice)
  }

  /** `pathSafetyDecode`: two `String.replace` passes. */
  function PathSafetyDecode(s: string): string {
    Replace(Replace(s, SlashTwice, SlashEscape), BackslashTwice, BackslashEscape)
  }

  /** The intended encoding, read left to right in one pass: each "%2F"
      becomes "%252F", each "%5C" becomes "%255C", every other character is
      copied. */
  function EncodeSpec(s: string): (r: string)
    ensures |s| >= 1 ==> |r| >= 1 && r[0] == s[0]
    ensures 3 * |r| <= 5 * |s|
    decreases |s|
  {
    if |s| == 0 then ""
    else if StartsWith(s, SlashEscape) then SlashTwice + EncodeSpec(s[3..])
    else if StartsWith(s, BackslashEscape) then BackslashTwice + EncodeSpec(s[3..])
    else [s[0]] + EncodeSpec(s[1..])
  }

  /** The intended decoding in one pass: each "%252F" becomes "%2F", each
      "%255C" becomes "%5C", every other character is copied. */
  function DecodeSpec(s: string): (r: string)
    ensures |s| >= 1 ==> |r| >= 1 && r[0] == s[0]
    decreases |s|
  {
    if |s| == 0 then ""
    else if StartsWith(s, SlashTwice) then SlashEscape + DecodeSpec(s[5..])
    else if StartsWith(s, BackslashTwice) then BackslashEscape + DecodeSpec(s[5..])
    else [s[0]] + DecodeSpec(s[1..])
  }

  /** No occurrence of a '%'-led pattern starts inside a block whose only
      '%' is its first character and which differs from the pattern at
      index `j`. */
  lemma NoneInside(w: string, y: string, t: string, j: nat)
    requires |w| >= 1 && j < |w| && j < |t| && t[0] == '%' && w[j] != t[j]
    requires forall i :: 1 <= i < |w| ==> w[i] != '%'
    ensures forall i :: 0 <= i < |w| ==> !OccursAt(w + y, t, i)
  {
    forall i | 0 <= i < |w| ensures !OccursAt(w + y, t, i) {
      if i + |t| <= |w + y| {
        assert (w + y)[i..i + |t|][0] == (w + y)[i];
        assert (w + y)[i..i + |t|][j] == (w + y)[i + j];
      }
    }
  }

  /** A pattern occurs at the start of `[c] + y` exactly when it starts
      with `c` and the rest of it starts `y`. */
  lemma AfterFirst(c: char, y: string, t: string)
    requires |t| >= 1
    ensures OccursAt([c] + y, t, 0) <==> c == t[0] && StartsWith(y, t[1..])
  {
    if |t| <= |[c] + y| {
      assert ([c] + y)[0..|t|] == [c] + y[..|t| - 1];
      assert t == [t[0]] + t[1..];
    }
  }

  /** The two-pass `pathSafetyEncode` is the one-pass encoding. */
  lemma {:induction false} EncodeIsSpec(s: string)
    ensures PathSafetyEncode(s) == EncodeSpec(s)
    decreases |s|
  {
    var a, a2, b, b2 := SlashEscape, SlashTwice, BackslashEscape, BackslashTwice;
    if |s| == 0 {
    } else if StartsWith(s, a) {
      var y := s[3..];
      assert s == a + y;
      ReplaceAtStart(y, a, a2);
      var y1 := Replace(y, a, a2);
      NoneInside(a2, y1, b, 1);
      ReplaceKeep(a2, y1, b, b2);
      EncodeIsSpec(y);
    } else if StartsWith(s, b) {
      var y := s[3..];
      assert s == b + y;
      NoneInside(b, y, a, 1);
      ReplaceKeep(b, y, a, a2);
      ReplaceAtStart(Replace(y, a, a2), b, b2);
      EncodeIsSpec(y);
    } else {
      var y := s[1..];
      assert s == [s[0]] + y;
      assert !OccursAt([s[0]] + y, a, 0) by { if |s| >= 3 { assert s[0..3] == s[..3]; } }
      ReplaceKeep([s[0]], y, a, a2);
      var y1 := Replace(y, a, a2);
      assert !OccursAt([s[0]] + y1, b, 0) by {
        AfterFirst(s[0], y1, b);
        if StartsWith(y1, b[1..]) { StartsWithAvoids(y1, b[1..], '%'); }
        ReplaceKeepsPlainPrefix(y, a, a2, 2);
        AfterFirst(s[0], y, b);
      }
      ReplaceKeep([s[0]], y1, b, b2);
      EncodeIsSpec(y);
    }
  }

  /** The two-pass `pathSafetyDecode` is the one-pass decoding. */
  lemma {:induction false} DecodeIsSpec(s: string)
    ensures PathSafetyDecode(s) == DecodeSpec(s)
    decreases |s|
  {
    var a, a2, b, b2 := SlashTwice, SlashEscape, BackslashTwice, BackslashEscape;
    if |s| == 0 {
    } else if StartsWith(s, a) {
      var y := s[5..];
      assert s == a + y;
      ReplaceAtStart(y, a, a2);
      var y1 := Replace(y, a, a2);
      NoneInside(a2, y1, b, 2);
      ReplaceKeep(a2, y1, b, b2);
      DecodeIsSpec(y);
    } else if StartsWith(s, b) {
      var y := s[5..];
      assert s == b + y;
      NoneInside(b, y, a, 4);
      ReplaceKeep(b, y, a, a2);
      ReplaceAtStart(Replace(y, a, a2), b, b2);
      DecodeIsSpec(y);
    } else {
      var y := s[1..];
      assert s == [s[0]] + y;
      assert !OccursAt([s[0]] + y, a, 0) by { if |s| >= 5 { assert s[0..5] == s[..5]; } }
      ReplaceKeep([s[0]], y, a, a2);
      var y1 := Replace(y, a, a2);
      assert !OccursAt([s[0]] + y1, b, 0) by {
        AfterFirst(s[0], y1, b);
        if StartsWith(y1, b[1..]) { StartsWithAvoids(y1, b[1..], '%'); }
        ReplaceKeepsPlainPrefix(y, a, a2, 4);
        AfterFirst(s[0], y, b);
      }
      ReplaceKeep([s[0]], y1, b, b2);
      DecodeIsSpec(y);
    }
  }

  /** The one-pass encoding of text starting with a character other than
      '%' copies that character. */
  lemma EncodeSpecPlain(s: string)
    requires |s| >= 1 && s[0] != '%'
    ensures EncodeSpec(s) == [s[0]] + EncodeSpec(s[1..])
  {
  }

  /** After encoding, neither "%2F" nor "%5C" occurs anywhere. */
  lemma {:induction false} EncodeSpecClean(s: string)
    ensures forall i :: !OccursAt(EncodeSpec(s), SlashEscape, i) && !OccursAt(EncodeSpec(s), BackslashEscape, i)
    decreases |s|
  {
    var e := EncodeSpec(s);
    if |s| == 0 {
    } else if StartsWith(s, SlashEscape) || StartsWith(s, BackslashEscape) {
      var w := if StartsWith(s, SlashEscape) then SlashTwice else BackslashTwice;
      var y := EncodeSpec(s[3..]);
      assert e == w + y;
      EncodeSpecClean(s[3..]);
      NoneInside(w, y, SlashEscape, 2);
      NoneInside(w, y, BackslashEscape, 1);
      forall i ensures !OccursAt(e, SlashEscape, i) && !OccursAt(e, BackslashEscape, i) {
        if 5 <= i {
          OccursAfter(w, y, SlashEscape, i);
          OccursAfter(w, y, BackslashEscape, i);
        }
      }
    } else {
      var y := EncodeSpec(s[1..]);
      assert e == [s[0]] + y;
      EncodeSpecClean(s[1..]);
      forall i ensures !OccursAt(e, SlashEscape, i) && !OccursAt(e, BackslashEscape, i) {
        if 1 <= i {
          OccursAfter([s[0]], y, SlashEscape, i);
          OccursAfter([s[0]], y, BackslashEscape, i);
        } else if i == 0 && 3 <= |e| {
          assert e[0..3][0] == s[0] && e[0..3][1] == e[1] && e[0..3][2] == e[2];
          assert e[1] == s[1];
          if s[1] != '%' {
            EncodeSpecPlain(s[1..]);
            assert s[1..][1..] == s[2..];
            assert |s| >= 3;
            assert e[2] == s[2];
            assert s[..3][0] == s[0] && s[..3][1] == s[1] && s[..3][2] == s[2];
          }
        }
      }
    }
  }

  /** Decoding undoes encoding for text holding no "%25", the escape of '%'
      itself. */
  lemma {:induction false} DecodeEncodeSpec(s: string)
    requires !Contains(s, "%25")
    ensures DecodeSpec(EncodeSpec(s)) == s
    decreases |s|
  {
    if |s| == 0 {
    } else if StartsWith(s, SlashEscape) || StartsWith(s, BackslashEscape) {
      ContainsSuffix(s, "%25", 3);
      DecodeEncodeSpec(s[3..]);
      DecodeEncodeEscape(s);
    } else {
      ContainsSuffix(s, "%25", 1);
      DecodeEncodeSpec(s[1..]);
      DecodeEncodePlain(s);
    }
  }

  /** The escape case of `DecodeEncodeSpec`: a leading "%2F" or "%5C" is
      doubled by encoding and restored by decoding. */
  lemma DecodeEncodeEscape(s: string)
    requires StartsWith(s, SlashEscape) || StartsWith(s, BackslashEscape)
    requires DecodeSpec(EncodeSpec(s[3..])) == s[3..]
    ensures DecodeSpec(EncodeSpec(s)) == s
  {
    var w := if StartsWith(s, SlashEscape) then SlashTwice else BackslashTwice;
    var y := EncodeSpec(s[3..]);
    assert EncodeSpec(s) == w + y;
    assert (w + y)[..5] == w && (w + y)[5..] == y;
    assert s == s[..3] + s[3..];
  }

  /** The copying case of `DecodeEncodeSpec`: a first character that starts
      no escape is copied by both passes, since without "%25" the encoding
      cannot start with a doubled escape. */
  lemma DecodeEncodePlain(s: string)
    requires |s| >= 1 && !StartsWith(s, SlashEscape) && !StartsWith(s, BackslashEscape)
    requires !Contains(s, "%25")
    requires DecodeSpec(EncodeSpec(s[1..])) == s[1..]
    ensures DecodeSpec(EncodeSpec(s)) == s
  {
    var y := EncodeSpec(s[1..]);
    var e := [s[0]] + y;
    assert EncodeSpec(s) == e;
    PlainNotDoubled(s);
    assert e[1..] == y;
    assert DecodeSpec(e) == [e[0]] + DecodeSpec(e[1..]);
    assert s == [s[0]] + s[1..];
  }

  /** Without "%25", the encoding of text starting with no escape does not
      start with a doubled escape. */
  lemma PlainNotDoubled(s: string)
    requires |s| >= 1 && !StartsWith(s, SlashEscape) && !StartsWith(s, BackslashEscape)
    requires !Contains(s, "%25")
    ensures var e := [s[0]] + EncodeSpec(s[1..]);
      !StartsWith(e, SlashTwice) && !StartsWith(e, BackslashTwice)
  {
    var e := [s[0]] + EncodeSpec(s[1..]);
    if |e| >= 5 && s[0] == '%' {
      assert e[1] == s[1];
      assert e[..5][1] == e[1] && e[..5][2] == e[2];
      if s[1] == '2' {
        EncodeSpecPlain(s[1..]);
        assert s[1..][1..] == s[2..];
        assert e[2] == s[2];
        assert !OccursAt(s, "%25", 0);
        assert s[0..3][0] == s[0] && s[0..3][1] == s[1] && s[0..3][2] == s[2];
        assert e[..5][2] != '5';
      } else {
        assert e[..5][1] != '2';
      }
      assert SlashTwice[1] == '2' && SlashTwice[2] == '5';
      assert BackslashTwice[1] == '2' && BackslashTwice[2] == '5';
    } else if |e| >= 5 {
      assert e[..5][0] == s[0] != '%';
    }
  }

  /** `pathSafetyDecode(pathSafetyEncode(s)) == s` for text holding no "%25". */
  lemma DecodeEncode(s: string)
    requires !Contains(s, "%25")
    ensures PathSafetyDecode(PathSafetyEncode(s)) == s
  {
    EncodeIsSpec(s);
    DecodeIsSpec(PathSafetyEncode(s));
    DecodeEncodeSpec(s);
  }

  /** After `pathSafetyEncode` no "%2F" or "%5C" remains. */
  lemma EncodedIsPathSafe(s: string)
    ensures !Contains(PathSafetyEncode(s), SlashEscape)
    ensures !Contains(PathSafetyEncode(s), BackslashEscape)
  {
    EncodeIsSpec(s);
    EncodeSpecClean(s);
  }

  /** Text without the two escapes is left alone by `pathSafetyEncode`. */
  lemma EncodeFixed(s: string)
    requires !Contains(s, SlashEscape) && !Contains(s, BackslashEscape)
    ensures PathSafetyEncode(s) == s
  {
    ReplaceAbsent(s, SlashEscape, SlashTwice);
    ReplaceAbsent(s, BackslashEscape, BackslashTwice);
  }

  /** Text without the two doubled escapes is left alone by
      `pathSafetyDecode`. */
  lemma DecodeFixed(s: string)
    requires !Contains(s, SlashTwice) && !Contains(s, BackslashTwice)
    ensures PathSafetyDecode(s) == s
  {
    ReplaceAbsent(s, SlashTwice, SlashEscape);
    ReplaceAbsent(s, BackslashTwice, BackslashEscape);
  }
}

=== FILE: wrappers.dfy ===
/** Failure-compatible wrappers used throughout the model in place of Java's
    `null` returns and checked exceptions. */
module Wrappers {

  /** A value that may be absent; `None` stands for Java's `null`. */
  datatype Option<+T> = None | Some(value: T) {

    predicate IsFailure() {
      None?
    }

    function PropagateFailure<U>(): Option<U>
      requires None?
    {
      None
    }

    function Extract(): T
      requires Some?
    {
      value
    }

    /** The value, or `default` when absent. */
    function GetOr(default: T): T {
      match this
      case Some(v) => v
      case None => default
    }
  }

  /** Either a computed value or the exception the source would throw. */
  datatype Result<+T, +E> = Ok(value: T) | Err(error: E) {

    predicate IsFailure() {
      Err?
    }

    function PropagateFailure<U>(): Result<U, E>
      requires Err?
    {
      Err(error)
    }

    function Extract(): T
      requires Ok?
    {
      value
    }
  }
}
